=== FILE: README.md ===
# kew, modelled in Dafny

kew is a thin layer over Vulkan. This model covers that layer:

- device memory arenas and their host mapping;
- buffers and images with their memory bindings and layouts;
- command pools and their one-shot command buffers;
- the selection of queue families and of the logical device's queues;
- the instance: its extensions, its packed version number and the choice of physical device;
- shaders, descriptor pools and sets, and the compute and graphics pipelines;
- vertex models;
- the swapchain, with its frame slots, fences and teardown.

It also covers the programs built on that layer:

- the dock's frame pacer, in both of its renderer variants;
- the `sqr` compute application, which squares a vector of integers on the device;
- the `img` compute application, which runs an image through a compute shader using a staging buffer and two images.

The driver is never called. Every handle it creates is an opaque `nat` passed in by the caller. Every answer it gives is also a parameter: a fence status, an acquired image index, a submit or wait status, a memory-type table, a descriptor-set allocation. The model records what kew asks of the driver:

- commands recorded into command buffers (`Vk.Cmd`);
- pool events: end, submit, wait and free;
- swapchain events: acquire, reset, submit, present, wait and destroy;
- create-info records.

It then proves that these requests have the properties the code relies on. Where the model takes the driver's answer as a parameter, a source-level panic on it (`unwrap`, `expect`, `assert!`, `todo!`) becomes an explicit error outcome (`None`, `AcquirePanic`, `PresentPanic`, `NoMemoryType`, ...). The driver calls whose failure the model assumes away are listed under "Left out". A valid-usage rule of a Vulkan call is stated as a precondition.

One module per source file:

| module | file |
|---|---|
| `Vk` | shared Vulkan types, constants and the recorded command type |
| `Bytes` | little-endian words and bytes |
| `Device` | `src/core/device.rs` |
| `Memory` | `src/core/memory.rs` |
| `Commands` | `src/core/command.rs` |
| `Images` | `src/core/image.rs` |
| `Buffers` | `src/core/buffer.rs` |
| `Shaders` | `src/core/shader.rs` |
| `Models` | `src/core/model.rs` |
| `Pipelines` | `src/core/pipeline.rs` |
| `Descriptors` | `src/core/descriptor.rs` |
| `Context` | `src/core/context.rs` |
| `Swapchains` | `src/core/swapchain.rs` |
| `Config` | `src/dock/config.rs` |
| `Dock` | `src/dock/dock.rs` |
| `Render` | `src/dock/render.rs` |
| `Sqr` | `src/apps/sqr.rs` |
| `Img` | `src/apps/img.rs` |

These are classes, because the source updates them in place:

- `Memory.Arena`: the bytes, and the mapping.
- `Buffers.Buffer` and `Images.Image`: the binding, the view and the layout.
- `Commands.CommandPool`: the state and recorded commands of each buffer, and the event log.
- `Swapchains.Swapchain`: fence states and events.
- `Dock.DockRenderer` and `Render.Renderer`: the pacer fields.

Everything else is a datatype or a function.

## Model

| member | source | states |
|---|---|---|
| Bytes.WordBytes | src/core/memory.rs:107-111 | a 32-bit word occupies exactly four bytes in memory |
| Bytes.WordRoundTrip | src/core/memory.rs:82-86 | reading back the bytes of a word gives the word |
| Bytes.BytesRoundTrip | src/core/memory.rs:82-86 | any four bytes are the bytes of the word read from them |
| Bytes.Words | src/apps/sqr.rs:60 | a slice of `i32` occupies four bytes per element |
| Bytes.FromWords | src/apps/sqr.rs:82 | reading `4n` bytes yields `n` words |
| Bytes.WordsRoundTrip | src/apps/sqr.rs:60-82 | a slice written as bytes and read back as words is unchanged |
| Bytes.WordsAppend | src/apps/sqr.rs:60 | the bytes of two slices one after the other are the bytes of their concatenation |
| Bytes.FromWordsAppend | src/apps/sqr.rs:82 | reading words from two byte runs, the first made of whole words, reads each in turn |
| Bytes.WordsThenBytes | src/apps/sqr.rs:60-82 | the bytes of a slice followed by other bytes read back as the slice followed by the other bytes' words |
| Bytes.WordsSplit | src/apps/sqr.rs:82 | the words after the first `m` of a window are the window's words from `m` on |
| Bytes.WordsPrefix | src/apps/sqr.rs:60 | the first `4k` bytes of a slice are the bytes of its first `k` elements |
| Bytes.LeadingWords | src/apps/sqr.rs:60-75 | where a slice's bytes were written, the first `k` words read back are its first `k` elements |
| Device.FindMemoryType | src/core/device.rs:31-45 | the result is the first memory type, below the reported count, that the resource's bit mask allows and that has every requested property flag; None exactly when no type qualifies |
| Device.FindFrom | src/core/device.rs:36-44 | the `find` over memory types from a given index: first qualifying index, or None iff none qualifies |
| Device.FirstTrue | src/core/device.rs:89-107 | the first-match scan: a found index lies below `n` |
| Device.FirstTrueMeaning | src/core/device.rs:89-107 | the found index is the first one where the predicate holds, and None comes back iff the predicate holds nowhere below `n` |
| Device.RoleMask | src/core/device.rs:91-98 | family `i` is marked exactly when its flags fit the role |
| Device.TransferPreferredMask | src/core/device.rs:120-131 | one mark per family for the dedicated-transfer preference |
| Device.ComputeStep | src/core/device.rs:94-118 | one family of the pass for compute: the first compute family is kept until a compute-without-graphics family is seen, which replaces it once |
| Device.TransferStep | src/core/device.rs:97-131 | one family of the pass for transfer: as for compute with the dedicated-transfer preference, which is skipped on the family where the compute preference fired (`continue`) |
| Device.ScanMeaning | src/core/device.rs:89-131 | after any number of families the running values of the loop are the first graphics family, the first presenting family, and the compute and transfer choices with their preferences |
| Device.NewQueueIndices | src/core/device.rs:74-142 | the loop over queue families yields the indices of the family-by-family specification, None where the source panics |
| Device.QueueIndicesMeaning | src/core/device.rs:89-141 | indices exist iff some family has graphics, compute and transfer support and some family can present; graphics and present are the first such families; compute and transfer fit their roles |
| Device.RoleFirstMeaning | src/core/device.rs:89-107 | the first family fitting a role fits it and no earlier family does; one is found iff some family fits |
| Device.ComputeChoiceMeaning | src/core/device.rs:94-118 | the compute choice is a compute family, found iff some family supports compute |
| Device.TransferChoiceMeaning | src/core/device.rs:97-131 | the transfer choice is a transfer family, found iff some family supports transfer |
| Device.ComputePreference | src/core/device.rs:109-118 | when a compute-without-graphics family exists, the compute index is the first such family |
| Device.TransferSkipsComputeFamily | src/core/device.rs:110-131 | a family taken as the preferred compute family is skipped for the dedicated-transfer preference (the `continue`) |
| Device.Dedup | src/core/device.rs:146 | `Vec::dedup` keeps the first element and never grows |
| Device.DedupMeaning | src/core/device.rs:146 | dedup keeps every value, adds none, and leaves no two neighbours equal |
| Device.DedupKeeps | src/core/device.rs:146 | dedup yields exactly the elements at the kept indices (the first, and each one that differs from its predecessor), in index order |
| Device.DedupSuffix | src/core/device.rs:146 | from any index on, dedup yields that index's element followed by the kept elements after it |
| Device.QueueCreateFamilies | src/core/device.rs:145-146 | by cases: [gfx] when all three agree; [gfx, tfr] when only gfx = cmp; [gfx, cmp] when only cmp = tfr; [gfx, cmp, tfr] otherwise, even when gfx = tfr |
| Device.QueueCreateInfos | src/core/device.rs:144-155 | one create info with one queue per deduplicated family, as written |
| Device.QueueCreateFamiliesMeaning | src/core/device.rs:145-146 | the requested families are exactly gfx, cmp and tfr, with no two neighbours equal |
| Device.DuplicateQueueFamilyExample | src/core/device.rs:145-146 | families [G\|C\|T, C] produce the request list [0, 1, 0], which names family 0 twice |
| Device.PresentFamilyNotRequestedExample | src/core/device.rs:13-21 | with presentation only on family 1, the device is created without a queue of family 1 |
| Device.Unique | src/core/device.rs:145-146 | the distinct values of a list in order of first occurrence: same values, no repeats, first kept |
| Device.DeviceQueueFamilies | src/core/device.rs:13-21 | corrected: the families of the device's queues are exactly gfx, cmp, tfr and prs, each once, gfx first |
| Device.DeviceQueueCreateInfos | src/core/device.rs:13-21 | corrected: one create info per distinct family among gfx, cmp, tfr and prs, each with one queue |
| Memory.MappedLength | src/core/memory.rs:43-49 | a VK_WHOLE_SIZE mapping reaches the end of the allocation; any other length is taken as given |
| Memory.Arena.constructor | src/core/memory.rs:21-41 | a new allocation is unmapped, of the given size, with the chosen memory type |
| Memory.Arena.Map | src/core/memory.rs:43-53 | mapping unmapped memory records the window; mapping mapped memory is skipped and changes nothing |
| Memory.Arena.Unmap | src/core/memory.rs:56-65 | afterwards the memory is unmapped, whether or not it was mapped before |
| Memory.Arena.Write | src/core/memory.rs:89-112 | with the corrected bounds check (see Findings): succeeds iff mapped and inside the window; then exactly the `n` bytes at the mapped pointer plus `o` become the source's first `n` bytes; otherwise nothing changes |
| Memory.Arena.Read | src/core/memory.rs:67-87 | with the corrected bounds check: succeeds iff mapped and inside the window; then it returns the `n` bytes at the mapped pointer plus `o` |
| Memory.Arena.DeviceStore | src/apps/sqr.rs:74-78 | a device-side write replaces exactly the bytes it covers |
| Memory.Allocate | src/core/memory.rs:21-41 | an allocation exists iff `find_memory_type` finds a type; it then uses that type and the requested size, and starts unmapped |
| Memory.WriteThenRead | src/core/memory.rs:67-112 | a read of the window just written returns the bytes written |
| Memory.SourceBoundsCheckAdmitsOverrun | src/core/memory.rs:100-111 | as written, a 16-byte access at offset 0 of a 16-byte allocation mapped at (8, 8) passes the check, yet touches bytes 8 to 23 |
| Memory.ChecksAgreeOnWholeMapping | src/core/memory.rs:75-81 | on a mapping from offset 0 over the whole allocation, the window check and the source's check agree |
| Memory.WindowCheckStaysInAllocation | src/core/memory.rs:100-106 | corrected: an access that passes the window check stays inside the allocation, and passes the source's check too |
| Commands.CommandPool.constructor | src/core/command.rs:14-32 | a new pool has no buffers and no events, on queue 0 of its family |
| Commands.CommandPool.CreateCommandBuffers | src/core/command.rs:34-48 | `count` fresh, distinct buffers in the initial state with empty recordings; nothing else changes |
| Commands.CommandPool.GetCommandBuffer | src/core/command.rs:50-67 | a fresh buffer, already begun for one-time submission, with an empty recording |
| Commands.CommandPool.Begin | src/dock/dock.rs:182-187 | beginning a buffer puts it in the recording state and clears its recording |
| Commands.CommandPool.Record | src/core/pipeline.rs:52-66 | recording commands appends them to the buffer's recording, and only to that buffer |
| Commands.CommandPool.End | src/dock/dock.rs:192 | ending a buffer makes it executable and logs the end |
| Commands.CommandPool.Contents | src/core/command.rs:76 | the recordings of the submitted buffers, one per buffer |
| Commands.SubmitEvents | src/core/command.rs:73-85 | every buffer is ended, then the batch is submitted with no fence; the wait follows only a successful submit; the buffers are freed iff both succeed |
| Commands.SubmitResult | src/core/command.rs:77-85 | Ok iff submit and wait both succeed; otherwise the first error |
| Commands.CommandPool.SubmitCommandBuffers | src/core/command.rs:69-86 | logs exactly `SubmitEvents` with the buffers' recordings and returns `SubmitResult`; the buffers end up freed on success and executable otherwise; other buffers are untouched |
| Commands.CommandPool.AwaitAndFree | src/core/command.rs:81-85 | returns the submit's error, else the wait's; logs the wait only after a successful submit and the free only after a successful wait; frees exactly the listed buffers, and only on success |
| Commands.CommandPool.EndAll | src/core/command.rs:73-75 | every buffer of the list is ended, in order, and only those |
| Commands.CommandPool.SetAll | src/core/command.rs:83-84 | the listed buffers take the new state and no other buffer changes |
| Commands.FreeComesLast | src/core/command.rs:77-84 | buffers are freed only after a successful submit and then a successful wait, as the last event |
| Commands.SubmittedBatches | src/core/command.rs:76-81 | the submitted batches in a pool's log, one per submit |
| Commands.BatchesAppend | src/core/command.rs:76-81 | the batches of a concatenated log are the batches of its parts, in order |
| Commands.NoSubmitNoBatch | src/core/command.rs:73-75 | a log without submits holds no batches |
| Commands.SubmitEventsOneBatch | src/core/command.rs:73-85 | one call of `submit_command_buffers` submits exactly one batch, whatever the driver answers |
| Images.CopyLayers | src/core/image.rs:118-122 | the copied subresource is the image's aspect, base mip level and base layer, one layer |
| Images.WholeImageRegion | src/core/image.rs:124-130 | a copy covers the whole extent from image offset 0 and tightly packed buffer offset 0 |
| Images.Image.constructor | src/core/image.rs:22-70 | a new image is 2D with depth 1 and the colour subresource, in the undefined layout, unbound and without a view |
| Images.Image.Offset | src/core/image.rs:143-149 | the bound offset exists exactly when the image is bound (an unbound image panics) and is the binding's offset |
| Images.Image.RecreateImageView | src/core/image.rs:72-85 | the image holds the newly created view |
| Images.Image.BindMemory | src/core/image.rs:87-98 | only the first bind takes effect; afterwards the offset is the bound one |
| Images.Image.MemoryBarrier | src/core/image.rs:100-115 | the barrier moves the whole subresource from the recorded layout to the requested one, without a queue ownership transfer |
| Images.Image.CopyToBufferCmd | src/core/image.rs:117-141 | the copy reads the image in its recorded layout into the buffer from offset 0 over the whole extent |
| Images.Image.DescriptorInfo | src/core/image.rs:152-162 | an existing view is reused and a missing one created; the info carries the view, the recorded layout and a null sampler |
| Buffers.Buffer.constructor | src/core/buffer.rs:17-33 | a new buffer of the given size is unbound |
| Buffers.Buffer.BindMemory | src/core/buffer.rs:35-46 | only the first bind takes effect; afterwards the offset is the bound one |
| Buffers.Buffer.CopyToImage | src/core/buffer.rs:48-75 | takes a fresh one-shot buffer of the pool, records the whole-image copy and submits it; logs exactly that submission; succeeds iff submit and wait succeed |
| Buffers.Buffer.DescriptorInfo | src/core/buffer.rs:85-90 | the descriptor info names the buffer from offset 0 over its whole size, whatever memory it is bound to |
| Buffers.Buffer.Offset | src/core/buffer.rs:77-83 | the bound offset exists exactly when the buffer is bound (an unbound buffer panics) and is the binding's offset |
| Buffers.Buffer.CopyCmd | src/core/buffer.rs:56-70 | the recorded copy goes from this buffer into the image, names TRANSFER_DST_OPTIMAL and covers the whole image from buffer offset 0 |
| Buffers.CopyIgnoresRecordedLayout | src/core/buffer.rs:64-69 | the copy always names TRANSFER_DST_OPTIMAL, so it disagrees with an image recorded in any other layout |
| Shaders.BuildDsetLayoutBindings | src/core/shader.rs:21-30 | binding `i` gets number `i` and the type, count and stages of config entry `i`, for every entry |
| Shaders.BindingNumbersDistinct | src/core/shader.rs:23-24 | binding numbers are 0, 1, ... without gaps or repeats |
| Shaders.NewShader | src/core/shader.rs:42-69 | the shader keeps the config's bindings, and its stage info names the config's flags, stage, entry point and the created module |
| Shaders.WriteBuffer | src/core/shader.rs:83-99 | a write exists iff the binding exists (else the source panics); it targets that binding of the set with its descriptor type and the one buffer info |
| Shaders.WriteImage | src/core/shader.rs:101-117 | the same for one image info |
| Shaders.WritesFollowConfig | src/core/shader.rs:89-112 | for a shader built from a config, writes exist exactly for the config's bindings and carry the config's descriptor type |
| Models.BindCmds | src/core/model.rs:14-30 | binds the vertex buffer at binding 0 with the model's vertex offset, and the index buffer at its index offset as 32-bit indices |
| Models.DrawCmds | src/core/model.rs:32-34 | one indexed draw of `index_amount` indices, one instance, from index 0 |
| Models.IndexBytesRead | src/core/model.rs:24-33 | an indexed draw reads four bytes per index from the bound offset |
| Models.VertexDataSize | src/core/model.rs:43-45 | the vertex data is a whole number of vertices |
| Models.WholeVertices | src/core/model.rs:43-45 | `n` vertices of nonzero size fill exactly `n` slots |
| Models.IndexDataSize | src/core/model.rs:47-49 | the index data size is the byte length of the indices |
| Models.WriteToMemory | src/core/model.rs:51-60 | vertices go to the vertex buffer and indices to the index buffer, each at its offset and with its data size |
| Models.DrawReadsWrittenIndices | src/core/model.rs:14-60 | the bytes an indexed draw reads are exactly the bytes `write_to_memory` wrote |
| Models.Square | src/core/model.rs:64-75 | four distinct corners and six indices, each naming a vertex |
| Models.SquareSizes | src/core/model.rs:64-75 | the square's data is 80 vertex bytes and 24 index bytes, indices [0, 1, 2, 2, 1, 3] |
| Models.FormatSize | src/core/model.rs:129-144 | a two-float format takes 8 bytes, a three-float format 12 |
| Models.PackedInside | src/core/model.rs:129-194 | in a packed layout every attribute lies inside the vertex |
| Models.LayoutsPacked | src/core/model.rs:121-194 | the flat and full vertex layouts each have one binding 0, with attributes packed back to back up to the stride |
| Models.BindDescriptions | src/core/model.rs:84-89 | a NULL vertex type has no binding descriptions; FLAT has the flat vertex's |
| Models.AttrDescriptions | src/core/model.rs:91-98 | a NULL vertex type has no attribute descriptions; FLAT has the flat vertex's |
| Models.DescriptionsAgree | src/core/model.rs:84-98 | bindings and attributes are present together, and the attributes are packed against the binding's stride |
| Models.ScaledAwayFromZero | src/core/model.rs:43-45 | a nonzero whole multiple of the vertex size is at least that size from zero |
| Pipelines.CmpLayoutInfo | src/core/pipeline.rs:16-23 | the compute layout holds exactly the shader's one set layout |
| Pipelines.CmpCreateInfo | src/core/pipeline.rs:32-50 | the compute pipeline uses the shader's stage and the created layout, with no flags |
| Pipelines.CmpBindCmds | src/core/pipeline.rs:52-66 | binds the pipeline at the compute point, then the one set at set 0 in its layout |
| Pipelines.BoundSetInLayout | src/core/pipeline.rs:15-66 | the bound set index lies within the layout, where it names the shader's set layout |
| Pipelines.BlendAttachments | src/core/pipeline.rs:151-171 | one attachment per colour target, in order; blending is on iff the target has colour or alpha blending; each factor group is taken from the target or left at its default |
| Pipelines.AttachmentOfUnique | src/core/pipeline.rs:152-170 | a target determines its attachment state uniquely |
| Pipelines.NewGfxPipeline | src/core/pipeline.rs:115-198 | vertex and fragment stages; exactly the VIEWPORT and SCISSOR dynamic states with one viewport and one scissor; vertex input only where the vertex type provides it; the config's primitive state; no depth bias, one sample, no sample shading; blend attachments as above; the given layout and render pass |
| Pipelines.GfxBindCmds | src/core/pipeline.rs:200-206 | binds the pipeline at the graphics point |
| Descriptors.NewBuilder | src/core/descriptor.rs:59-65 | a new builder has no sizes and no flags |
| Descriptors.AddPoolSize | src/core/descriptor.rs:67-77 | appends exactly one size and changes nothing else |
| Descriptors.Build | src/core/descriptor.rs:79-81 | the pool is created with the builder's sizes, flags and maximum set count |
| Descriptors.ChainBuildsPool | src/core/descriptor.rs:59-81 | `new(n)`, a chain of `add_pool_size` calls and `build` create a pool with those sizes in call order, `n` sets and no flags |
| Descriptors.AddAllAppends | src/core/descriptor.rs:67-77 | a chain of additions appends its sizes in order |
| Descriptors.AllocateInfo | src/core/descriptor.rs:33-36 | the allocation names the pool and exactly the one set layout |
| Descriptors.AllocateDescriptorSet | src/core/descriptor.rs:29-40 | a set exists iff the driver hands one back (else the source panics); it is that first and only set |
| Config.IndicesSelectTheirVertexType | src/dock/config.rs:26-61 | NULL_VERT_CONFIG selects the NULL vertex type and FLAT_VERT_CONFIG selects FLAT |
| Config.EntriesOpaqueTriangles | src/dock/config.rs:29-61 | both configs draw filled triangle lists with one opaque, blend-free RGBA target |
| Config.StagesHaveNoBindings | src/dock/config.rs:7-24 | the vertex and fragment shaders have no descriptor bindings, so every buffer write panics |
| Context.GetExtensions | src/core/context.rs:72-84 | surface first, then the OS's surface extension (none elsewhere), then debug utils iff a debug build; no repeats |
| Context.Split | src/core/context.rs:141 | `split('.')` gives at least one piece, and no piece contains a dot |
| Context.SplitJoin | src/core/context.rs:141 | joining the pieces with the separator gives the string back |
| Context.SplitAfter | src/core/context.rs:141-156 | splitting after a dot-free first piece gives that piece, then the rest's pieces |
| Context.ParseU32 | src/core/context.rs:145 | a successful `parse::<u32>` yields a value below 2^32 from a nonempty string |
| Context.Decimal | src/core/context.rs:141 | a number's decimal form is nonempty and all digits |
| Context.DecimalValue | src/core/context.rs:145 | reading the decimal digits back gives the number |
| Context.ParseDecimal | src/core/context.rs:142-156 | every 32-bit number survives printing and parsing |
| Context.ApiVersionRoundTrip | src/core/context.rs:157 | variant, major, minor and patch within their bit widths are packed without loss |
| Context.ParseVersion | src/core/context.rs:141-156 | a version parses only when it has at least three pieces, and then to three 32-bit numbers |
| Context.GetVersion | src/core/context.rs:140-158 | a packed version exists iff the version string parses |
| Context.ParseVersionReadsFields | src/core/context.rs:141-156 | `major.minor.patch`, with or without more pieces, parses to those three numbers |
| Context.SplitVersion | src/core/context.rs:141 | the first three pieces of a version string are its three numbers |
| Context.DigitsHaveNoDot | src/core/context.rs:141 | a string of digits contains no separator |
| Context.SplitOfPiece | src/core/context.rs:141 | a string without a separator is one piece |
| Context.ShortVersionRejected | src/core/context.rs:147-151 | a two-piece version is rejected, where the source panics |
| Context.PrereleaseRejected | src/core/context.rs:152-156 | a prerelease version `major.minor.patch-tag` is rejected, where the source panics on the patch number |
| Context.TaggedPiece | src/core/context.rs:152-156 | digits followed by `-` and a tag form no u32 |
| Context.CreateInstanceInfo | src/core/context.rs:41-70 | API 1.3; "kew" as application and engine, both with the package version; the validation layer iff a debug build; the extensions above; None where the version panics |
| Context.ApiVersion13 | src/core/context.rs:45 | the requested API version is major 1, minor 3, patch 0 |
| Context.FirstDiscrete | src/core/context.rs:92-97 | the first discrete GPU at or after an index, None iff there is none |
| Context.PickPhysicalDevice | src/core/context.rs:86-104 | the first discrete GPU when there is one, else the first device; None iff there are no devices |
| Context.DebugCallback | src/core/context.rs:161-175 | errors, infos and warnings are logged at their own level and anything else not at all; the call is never skipped |
| Context.ReportedSeveritiesLogged | src/core/context.rs:111-114 | every severity the messenger subscribes to reaches the log |
| Swapchains.FindPreferred | src/core/swapchain.rs:298-303 | the first format with the preferred format and colour space, None iff there is none |
| Swapchains.PickSurfaceFormat | src/core/swapchain.rs:290-310 | the first preferred format when there is one, else the first listed; None iff the list is empty, where the source panics |
| Swapchains.ChoosePresentMode | src/core/swapchain.rs:61-70 | IMMEDIATE iff the surface lists it, else FIFO |
| Swapchains.ChooseExtent | src/core/swapchain.rs:57-60 | the window's extent when the surface reports width u32::MAX, else the surface's current extent |
| Swapchains.SwapchainCreateInfo | src/core/swapchain.rs:74-86 | one more image than the minimum; the picked format, chosen extent and present mode; one array layer |
| Swapchains.CreateFrameBundles | src/core/swapchain.rs:213-257 | one bundle per swapchain image, in order, pairing the image with its view and framebuffer |
| Swapchains.TeardownEvents | src/core/swapchain.rs:322-345 | the drop waits on all fences first; everything after is a destruction |
| Swapchains.BundleTeardown | src/core/swapchain.rs:18-26 | each frame bundle destroys its view, then its framebuffer, in vector order |
| Swapchains.Swapchain.constructor | src/core/swapchain.rs:43-135 | holds the create info and frame bundles; semaphores and fences per slot; every fence is created signalled, so no slot starts in use; no events |
| Swapchains.Swapchain.Complete | src/core/swapchain.rs:206-211 | the device finishing a slot's work signals exactly that slot's fence |
| Swapchains.Swapchain.NextImageIdx | src/core/swapchain.rs:312-319 | acquires on the slot's image-available semaphore without a fence, and returns the driver's answer |
| Swapchains.Swapchain.BeginRenderPassCmds | src/core/swapchain.rs:137-160 | begins the render pass over the image's framebuffer across the whole extent, then sets viewport and scissor to the extent |
| Swapchains.Swapchain.EndRenderPassCmds | src/core/swapchain.rs:162-164 | ends the render pass |
| Swapchains.Swapchain.SubmitAndPresent | src/core/swapchain.rs:166-204 | resets the slot's fence, then submits (waiting on image-available, signalling render-finished and the fence), then presents; a failed call ends it, so exactly the calls up to the first failure are made and that failure is returned; the slot turns unsignalled iff its reset succeeded, and no other slot changes |
| Swapchains.PresentStatus | src/core/swapchain.rs:183-203 | success iff the reset, submit and present all succeed; otherwise the first failure in call order, the one whose `unwrap` or `expect` panics |
| Swapchains.Swapchain.FrameInUse | src/core/swapchain.rs:206-211 | a slot is in use iff its fence is unsignalled |
| Swapchains.Swapchain.Teardown | src/core/swapchain.rs:322-345 | the drop logs exactly the teardown sequence, and leaves every fence signalled |
| Swapchains.ExtendHistory | src/core/swapchain.rs:183-192 | a history in which every submit directly follows the reset of its fence, and nothing is destroyed before the wait on all fences, keeps both properties when extended by events that destroy nothing, and records a destruction iff it already did |
| Swapchains.ExtendResets | src/core/swapchain.rs:183-192 | joining two histories in which each submit follows its fence's reset keeps that property |
| Swapchains.ExtendWaits | src/core/swapchain.rs:322-345 | extending by events that destroy nothing keeps every destruction after the wait on all fences |
| Swapchains.ExtendDestroys | src/core/swapchain.rs:322-345 | extending by events that destroy nothing records a destruction iff the history already did |
| Swapchains.AppendTeardown | src/core/swapchain.rs:322-345 | appending the teardown to such a history keeps resets before submits, and puts the wait before every destruction |
| Swapchains.New | src/core/swapchain.rs:43-135 | a swapchain exists iff the surface lists a format (else the source panics); it uses the picked format, and no slot starts in use |
| Swapchains.TeardownWaitsFirst | src/core/swapchain.rs:326-342 | in the teardown, every destruction follows the wait on all fences |
| Dock.OpenStep | src/dock/dock.rs:165-189 | drops the frame iff one is open or the slot is in use; reaches the `todo!` iff the acquire fails; on success opens the frame on the acquired image; otherwise the state is unchanged |
| Dock.CloseStep | src/dock/dock.rs:191-201 | after `submit_and_present` returns, closes the frame and moves to the next slot modulo the slot count |
| Dock.RenderStep | src/dock/dock.rs:153-163 | a frame that opens is closed exactly once when the submit and present succeed; it panics, with the frame left open on its slot, iff the frame opened and a call inside `submit_and_present` failed; a dropped frame or an acquire panic changes nothing |
| Dock.RoundRobin | src/dock/dock.rs:153-201 | rendered frames take slots round robin from the start, dropped frames do not advance the slot, and a run ends on the slot after the last rendered frame; a frame is left open only when the run ended in a panic |
| Dock.ConsecutiveSlotsDiffer | src/dock/dock.rs:153-201 | two consecutive rendered frames never use the same slot |
| Dock.SceneCmds | src/dock/dock.rs:155-159 | a frame records the render pass over the image's framebuffer, viewport and scissor, the scene's pipeline, a three-vertex draw and the end of the pass |
| Dock.DockRenderer.constructor | src/dock/dock.rs:122-151 | starts on slot 0 and image 0 with no frame open, with one fresh command buffer per slot |
| Dock.DockRenderer.OpenFrame | src/dock/dock.rs:165-189 | follows `Dock.OpenStep`: acquires only when not dropping, and begins the slot's command buffer only when the frame opens |
| Dock.DockRenderer.CloseFrame | src/dock/dock.rs:191-201 | ends the buffer, then makes the calls of `Swapchains.Swapchain.SubmitAndPresent` up to the first failure and returns its status; on success it follows `Dock.CloseStep`, on failure the pacer state is left as it was |
| Dock.DockRenderer.RenderScene | src/dock/dock.rs:153-163 | follows `Dock.RenderStep`, including the panic of a failed submit or present; an opened frame records exactly `Dock.SceneCmds`, and makes the submit-and-present calls up to the first failure; a dropped frame touches neither pool nor swapchain |
| Dock.DockRenderer.FinishScene | src/dock/dock.rs:156-160 | with a frame open, the slot's buffer receives exactly the scene and becomes executable; the reset, submit and present are made up to the first failure, whose status is returned; on success the pacer moves to the next slot, on failure it stays |
| Dock.DockRenderer.RecordScene | src/dock/dock.rs:156-159 | the open frame's buffer receives exactly the scene's commands |
| Dock.DockRenderer.BeginAndBind | src/dock/dock.rs:156-157 | the open frame's empty buffer receives the begin commands over the current image and then the scene's pipeline bind |
| Dock.DockRenderer.DrawAndEnd | src/dock/dock.rs:158-159 | the open frame's buffer gets the three-vertex draw and then the end of the pass appended, and no other buffer changes |
| Dock.DockRenderer.DeviceCompletes | src/core/swapchain.rs:206-211 | the device finishing a slot's frame signals its fence and leaves the pacer alone |
| Render.OpenStep | src/dock/render.rs:159-191 | panics iff a frame is already open; drops the frame iff `is_frame_available` answers true; reaches the `todo!` iff the acquire fails; on success opens the frame on the acquired image |
| Render.UpdateStep | src/dock/render.rs:92-106 | on REDRAW, an opened frame is closed exactly once |
| Render.VariantsAgree | src/dock/render.rs:159-208 | with no frame open, this renderer goes through the same states as the dock's renderer when its availability answer matches the dock's in-use answer |
| Render.Renderer.constructor | src/dock/render.rs:121-157 | starts on slot 0 and image 0 with no frame open and nothing submitted, with one fresh command buffer per slot |
| Render.Renderer.CurrentCmdBuffer | src/dock/render.rs:225-231 | the current slot's buffer, which is recording, exactly while a frame is open (else the source panics) |
| Render.Renderer.OpenFrame | src/dock/render.rs:159-191 | follows `Render.OpenStep`; acquires only when not dropping, and begins the buffer only when the frame opens |
| Render.Renderer.CloseFrame | src/dock/render.rs:193-208 | succeeds iff a frame is open; then it ends the current buffer, requests its submission and presentation for the current image and slot, and follows `Dock.CloseStep` |
| Render.Renderer.BeginRenderPass | src/dock/render.rs:210-216 | records the swapchain's begin commands iff the buffer is the current one (else the source panics) |
| Render.Renderer.EndRenderPass | src/dock/render.rs:218-223 | records the end of the pass iff the buffer is the current one |
| Render.Renderer.RecordUnchecked | src/dock/render.rs:97-100 | commands recorded without the current-buffer check (the pipeline bind and the draw) are appended to that buffer only |
| Render.Renderer.HandleRedraw | src/dock/render.rs:92-106 | follows `Render.UpdateStep`; a rendered frame records exactly `Dock.SceneCmds`, requests one submission, and leaves no frame open |
| Render.Renderer.FinishFrame | src/dock/render.rs:96-102 | with a frame open, the slot's buffer receives exactly the scene, becomes executable, one submission is requested for it, and the pacer closes the frame and moves to the next slot |
| Render.Renderer.RecordFrame | src/dock/render.rs:96-101 | the open frame's buffer receives exactly the scene's commands |
| Render.Renderer.BeginAndBind | src/dock/render.rs:96-98 | the open frame's empty buffer receives the begin commands and then the pipeline bind; the frame stays open on that buffer |
| Render.Renderer.DrawAndEnd | src/dock/render.rs:99-101 | the open frame's buffer gets the three-vertex draw and then the end of the pass appended, and no other buffer changes |
| Sqr.AlignUp | src/apps/sqr.rs:47-48 | the aligned size is at least the buffer size and less than one alignment above it |
| Sqr.ClearLowBitsValue | src/apps/sqr.rs:48 | `& !(a - 1)` rounds down to a multiple of the power-of-two alignment |
| Sqr.AlignUpLeast | src/apps/sqr.rs:47-48 | the aligned size is the least multiple of the alignment not below the buffer size |
| Sqr.RoundUpLeast | src/apps/sqr.rs:48 | rounding up gives the least multiple not below the size |
| Sqr.PlacementDisjoint | src/apps/sqr.rs:47-57 | the source buffer at 0 and the destination at the aligned size do not overlap, both fit in twice the aligned size, and the second offset is aligned |
| Sqr.DeviceOutput | src/apps/sqr.rs:73-78 | the output applies the kernel to each element at the same index |
| Sqr.DispatchResult | src/apps/sqr.rs:75 | after `groups` workgroups the first `groups` output words are the kernel of the input's and the rest keep their prior value |
| Sqr.GroupCount | src/apps/sqr.rs:75 | `data.len() as u32`: equal to the length below 2^32, zero at exactly 2^32, always below 2^32 |
| Sqr.WholeDispatch | src/apps/sqr.rs:75 | one workgroup per element leaves nothing of the prior output |
| Sqr.DispatchCountTruncates | src/apps/sqr.rs:75 | with 2^32 elements the truncated count runs no workgroup and the output reads back unchanged; below 2^32 every element is computed |
| Sqr.SqrWrites | src/apps/sqr.rs:69-70 | both writes exist and target bindings 0 and 1 of the set as storage buffers, with the source and destination infos |
| Sqr.SqrCmds | src/apps/sqr.rs:73-75 | the compute bind commands, then one dispatch of `len as u32` workgroups |
| Sqr.SqrCompute | src/apps/sqr.rs:32-85 | fails without a host-visible, coherent memory type, or without a descriptor set, or when submit or wait fails; otherwise the values read back are the dispatch result for `data.len() as u32` workgroups over the driver's prior output bytes, which is the kernel of every element when there are fewer than 2^32; the pool logs exactly the one submission of the dispatch |
| Sqr.SqrWriteList | src/apps/sqr.rs:69-70 | the two descriptor writes of the set |
| Sqr.DispatchAndRead | src/apps/sqr.rs:63-83 | with the input staged: fails exactly without a descriptor set, or when submit or wait fails; otherwise the values are the dispatch result of the recorded workgroup count over the output buffer's bytes at submission; nothing is logged without a descriptor set |
| Sqr.StageInput | src/apps/sqr.rs:33-61 | allocates twice the aligned size, binds the buffers at 0 and at the aligned size, maps everything, places the input's bytes at offset 0 and leaves the output buffer's bytes as the driver handed them out |
| Sqr.StagedLayout | src/apps/sqr.rs:56-60 | writing the input at offset 0 puts its bytes in the source buffer and leaves the destination buffer's window untouched |
| Sqr.SubmitDispatch | src/apps/sqr.rs:73-79 | a fresh one-shot buffer with the bind commands and the dispatch is submitted exactly once |
| Sqr.RunAndRead | src/apps/sqr.rs:75-83 | running the recorded dispatch and reading the destination at its bound offset yields the dispatch result over the destination's prior words |
| Sqr.RunDispatch | src/apps/sqr.rs:69-75 | after the dispatch the destination buffer holds, as words, the dispatch result of its recorded count over the input |
| Sqr.RunKernel | src/apps/sqr.rs:69-75 | the device stores the kernel of the first `x` words at the input descriptor's address as words at the output descriptor's address, and changes no other byte |
| Sqr.KernelResult | src/apps/sqr.rs:69-75 | with the input staged and the buffers apart, what the device stored reads back as the dispatch result |
| Sqr.StoredResult | src/apps/sqr.rs:75-82 | the destination window after the store reads back as the computed words followed by the prior later words |
| Sqr.StoredWords | src/apps/sqr.rs:75-82 | storing `m` words at `d` and reading `n` words there gives them followed by the earlier words from `m` on |
| Sqr.ReadBack | src/apps/sqr.rs:80-83 | the values are the words of the destination window at the given offset |
| Img.ImageByteSizeAsWritten | src/apps/img.rs:44 | as written, the byte size wraps at 2^32 and stays a multiple of 4 |
| Img.ByteSizeWrapsExample | src/apps/img.rs:44 | a 32768 × 32768 image gets byte size 0 as written, instead of 2^32 |
| Img.ByteSizeAgreesBelowLimit | src/apps/img.rs:44 | below 2^32 both sizes agree; above, the written one is too small |
| Img.ByteSizeTexels | src/apps/img.rs:44 | corrected: the size is four bytes per texel, never VK_WHOLE_SIZE, and positive for a nonempty image |
| Img.ApplyBarriers | src/apps/img.rs:162-178 | applying barriers keeps the set of tracked images; what the barriers of a run achieve is stated by `Img.PlanLayoutsConsistent` |
| Img.Replay | src/apps/img.rs:81-153 | replaying commands keeps the set of tracked images; `Img.PlanLayoutsConsistent` replays the whole run through it |
| Img.ImgPlan | src/apps/img.rs:81-153 | the run submits five batches |
| Img.ReplayAppend | src/apps/img.rs:81-153 | replaying a concatenation replays its parts in turn |
| Img.FlattenPlan | src/apps/img.rs:81-153 | the plan's commands, in submission order |
| Img.PlanLayoutsConsistent | src/apps/img.rs:81-153 | every barrier and copy of the run names the layout its image is in at that point; both images end in GENERAL |
| Img.HoldTransferDst | src/apps/img.rs:81-98 | the first barrier, on the transfer family, makes that family the source image's owner, with undefined contents |
| Img.HoldCopyIn | src/apps/img.rs:100 | the copy-in on the transfer family defines the source image's contents |
| Img.HoldGeneral | src/apps/img.rs:102-134 | the GENERAL transitions on the compute family: the source image keeps its contents iff the transfer family is that family; the result image becomes the compute family's, undefined |
| Img.HoldDispatch | src/apps/img.rs:136-151 | the dispatch defines the result image exactly when the source image is defined |
| Img.HoldCopyOut | src/apps/img.rs:153 | the copy-out on the transfer family reads defined texels iff the result image is defined and the compute family is the transfer family |
| Img.OwnershipAsWritten | src/apps/img.rs:81-153 | as written, every barrier passes QUEUE_FAMILY_IGNORED for both families, and the texels copied back are defined iff the transfer and the compute pool share a queue family |
| Img.OwnedPlan | src/apps/img.rs:81-153 | corrected: the five batches, with ownership transfers where the families differ; with one family they are exactly the batches of the run |
| Img.HoldReleasingCopyIn | src/apps/img.rs:100 | corrected: the copy-in defines the source image, and the release hands it to the compute family |
| Img.HoldAcquiringGeneral | src/apps/img.rs:102-134 | corrected: the compute family acquires the source image with its contents |
| Img.HoldReleasingDispatch | src/apps/img.rs:136-151 | corrected: the dispatch defines the result image, and the release hands it to the transfer family |
| Img.HoldAcquiringCopyOut | src/apps/img.rs:153 | corrected: the transfer family acquires the result image and the copy-out reads defined texels |
| Img.OwnershipTransferred | src/apps/img.rs:81-153 | corrected: with the ownership transfers, the texels copied back are defined for any two queue families |
| Img.ImgWrites | src/apps/img.rs:142-143 | both writes target bindings 0 and 1 as storage images, through the images' views in GENERAL, with a null sampler |
| Img.ImgCompute | src/apps/img.rs:37-160 | fails without a memory type, at the first failed submission, or without a descriptor set; otherwise the saved texels are the kernel's output for the input, the transfer pool submits the TRANSFER_DST transition, the copy-in and the copy-out, and the compute pool submits the GENERAL transitions and the dispatch; and the run's batches leave the texels copied back defined iff the two pools share a queue family (see "Findings") |
| Img.Execute | src/apps/img.rs:81-158 | with memory in place, the same outcomes and batches as `Img.ImgCompute`; the saved texels are `process` of the staged bytes, which reach the source image only through the recorded copy |
| Img.AllocateAll | src/apps/img.rs:44-79 | staging memory and both image memories exist iff every memory type is found; the images are fresh, distinct, undefined and unbound until bound at 0 |
| Img.Transitions | src/apps/img.rs:81-134 | the TRANSFER_DST transition, the copy-in and the pair of GENERAL transitions are submitted in that order; each layout is updated only after its submission succeeds; stops at the first failure |
| Img.DispatchAndCopyOut | src/apps/img.rs:100-158 | with the layouts in place: the device runs the recorded copy-in; fails without a descriptor set; on a failed submission no later step is answered; saves exactly when both the dispatch and the copy-out were answered, and then the saved texels are `process` of the staged bytes |
| Img.ProcessAndCopyOut | src/apps/img.rs:148-158 | the device runs the recorded dispatch and copy-out; the bytes read back are `process` of the source image's texels exactly when the copy-out was answered; one batch is logged |
| Img.BindAndDispatch | src/apps/img.rs:136-151 | writes the two image descriptors, creating each image's view, and submits the dispatch; fails without a descriptor set or when the submission fails |
| Img.CopyOut | src/apps/img.rs:153-158 | submits the copy-out batch; once the device ran that copy, the bytes read back at the result image's offset are the result image's texels |
| Img.DeviceCopyIn | src/core/buffer.rs:56-70 | the image receives the bytes the recorded region spans, starting at the buffer's bound offset plus the region's buffer offset |
| Img.DeviceDispatch | src/apps/img.rs:142-148 | a dispatch of one invocation per texel over the set that binds the source view at 0 and the result view at 1 leaves `process` of the source texels in the result image |
| Img.DeviceCopyOut | src/core/image.rs:124-138 | the image's texels are stored at the buffer's bound offset plus the region's buffer offset, and no other byte changes |
| Img.ImageMalloc | src/apps/img.rs:180-203 | an undefined, unbound RGBA8 image of the given extent, and device-local memory of the required size iff such a type exists |
| Img.StageIn | src/apps/img.rs:46-62 | the staging buffer is bound at 0 and mapped, and its first bytes are the input |
| Img.SubmitOneShot | src/apps/img.rs:86-97 | one batch holding the one-shot buffer's commands is submitted |
| Img.SubmitPair | src/apps/img.rs:112-131 | one batch holding both buffers' commands is submitted |
| Img.CopyIn | src/apps/img.rs:100 | the copy into the image is submitted as one batch |

## Left out

- Windowing, the event loop, the render thread and its channel (`src/dock/mod.rs`, `start_render_thread`), `main.rs` and logging are left out. The model covers what one call does, not thread scheduling.
- File I/O is left out: reading SPIR-V files, and loading and saving the JPEG and PNG in `img`. The image is a byte-sequence parameter and the saved result is the returned texels.
- Shader kernels are not modelled. The compute shaders of `sqr` and `img` are parameters (`kernel`, `process`), because their SPIR-V is not part of this model.
- Floating point is not modelled: vertex positions and colours, clear colours, viewport sizes, line width and blend constants. Vertices are compared by position only.
- Surface creation (`src/core/surface.rs`), the render-pass description and `create_pipeline_layout` with no sets are left out. Their handles are parameters.
- Object destruction outside the swapchain (the `Drop` impls of memory, buffers, images, pools, pipelines and shaders) is left out. Freeing a handle has no effect the model could observe.
- Sizes use unbounded integers. The u64 sum `b_size + offset` in `rd_visible_mem`/`wr_visible_mem` cannot wrap in the model; memory sizes stay far below 2^64 in practice.
- Context.MakeApiVersion: does not state the loss of high bits when major is 128 or more. The round trip is proved only for fields within their widths.
- `FlatVertex` is assumed to be laid out as two floats followed by three floats (20 bytes). The host is assumed little-endian.
- Memory is assumed host-coherent where it is mapped. Flushes and invalidations are not modelled.
- The arena contents the driver hands out are a parameter. `img` starts its memories zeroed, which is enough for its claims.
- `KewBuffer::wr_visible_mem`, called from `src/core/model.rs:58-59`, does not exist on `KewBuffer`. `Models.WriteToMemory` therefore records the two write requests instead of performing them.
- `get_bound_cmd_buffer`, called at `src/apps/sqr.rs:73` and `src/apps/img.rs:146`, is not defined in the source. It is modelled as `get_command_buffer` followed by the compute bind commands.
- `copy_to_buffer` takes a command buffer, but `src/apps/img.rs:153` passes the transfer pool. The call is modelled as a one-shot buffer of that pool, submitted at once.
- `allocate_command_buffers::<N>` is called at `src/dock/dock.rs:131-132` but is not defined. It is modelled as `create_command_buffers(N)`.
- Commands.CommandPool.CreateCommandBuffers: drops the `level` argument of src/core/command.rs:34-40. Both callers (src/dock/dock.rs:132 and src/dock/render.rs:134) pass PRIMARY, so every buffer is modelled as primary and submittable.
- `is_frame_available` is called at `src/dock/render.rs:165` but is not defined. It is a boolean input, with the polarity as written: the frame is dropped when it answers true.
- The renderer's five-argument `submit_and_present` and four-argument `KewSwapchain::new` do not match their definitions. The submission is recorded as a `Render.SubmitRequest`, and the renderer is given an existing swapchain.
- Driver failures are assumed away in the calls below. The model treats each as succeeding, where the source would panic on its error:
  - the fence-status query of `frame_in_use` (src/core/swapchain.rs:206-211);
  - beginning and ending command buffers (src/dock/dock.rs:186 and 192, src/dock/render.rs:188 and 197, src/core/command.rs:64 and 74);
  - allocating and mapping memory (src/core/memory.rs:34 and 48);
  - allocating command buffers (src/core/command.rs:46 and 61);
  - the creation and binding calls in src/core/buffer.rs, image.rs, shader.rs, pipeline.rs and descriptor.rs, and the creation calls of `KewSwapchain::new` and `KewDevice::new`;
  - enumerating the physical devices (src/core/context.rs:87-89);
  - the surface-support query of each queue family (src/core/device.rs:100-104); its answer is the input `present` of `Device.NewQueueIndices`;
  - the surface capability, present-mode and format queries (src/core/swapchain.rs:54-56, 61-63 and 295-297);
  - fetching the swapchain images (src/core/swapchain.rs:221);
  - the wait on all fences when the swapchain is dropped (src/core/swapchain.rs:326-328). `Swapchains.Swapchain.Teardown` assumes this wait succeeds: it always logs the whole teardown sequence and leaves every fence signalled.
- Dock.DockRenderer.CloseFrame: after a failed reset, submit or present the renderer's invariant is not promised, because the source panics there and the renderer is not used again. The same holds for `FinishScene`, and for `RenderScene` when it ends in `PresentPanic`.
- Suboptimal swapchains are not recreated (the source leaves a TODO). The flag is ignored, as in the source.
- Sqr.SqrCompute: requires non-empty data. Vulkan forbids zero-sized buffers and allocations. The shader program `sqr.spv` is not part of this model; what one invocation computes is the parameter `kernel`.
- Img.ImgCompute: requires 0 < width and 0 < height, distinct images and pools, and a staging memory requirement at least the buffer size. Vulkan guarantees or demands each of these. The run sizes its buffers with the corrected `Img.ImageByteSize`, not the 32-bit product of src/apps/img.rs:44 and 187, so it departs from the source when width times height times 4 is at least 2^32 (see "Findings"). The device steps (`Img.DeviceCopyIn`, `Img.DeviceDispatch`, `Img.DeviceCopyOut`) carry each image's texels from one queue family to the next, so `texels == process(raw)` assumes queue family ownership does not matter. Vulkan lets the texels through only when the transfer and the compute pool share a family, or with the ownership transfers of `Img.OwnedPlan`; the run's own batches have none (`Img.OwnershipAsWritten`).
- Img.Execute: makes the same assumption about queue family ownership as `Img.ImgCompute`.
- Img.DispatchAndCopyOut: makes the same assumption: the copy-in's texels reach the compute queue's dispatch.
- Img.ProcessAndCopyOut: makes the same assumption: the dispatch's result reaches the transfer queue's copy-out.
- Img.CopyOut: reads at `dst_img.get_offset()` (0) in the staging memory, as written. The device stores the result at the staging buffer's own offset plus the region's buffer offset, which is also 0, so the two coincide in this run.
- Img.DeviceDispatch: the shader program `img.spv` is not part of this model; what the dispatch computes over the whole image is the parameter `process`.
- The debug-utils messenger is modelled only through its callback and subscribed severities. Creating it, and the `None` it returns on failure, are left out.

## Findings

| source | as written | input that shows it | evidently intended | confidence | as-written member | corrected member |
|---|---|---|---|---|---|---|
| src/core/memory.rs:75-81, 100-106 | the bounds check compares `b_size + offset` with the whole allocation size, but the pointer it guards starts at the mapping offset and may cover less than the allocation | 16-byte allocation mapped with `map(8, 8)`; a 16-byte access at offset 0 passes the check but touches bytes 8 to 23 | check against the mapped window | not executed | Memory.SourceBoundsCheckAdmitsOverrun | Memory.WindowCheckStaysInAllocation |
| src/core/device.rs:145-146 | `Vec::dedup` removes only adjacent duplicates, so a family can be requested twice | families [G\|C\|T, C]: gfx 0, cmp 1, tfr 0 give [0, 1, 0], two create infos for family 0 | each family requested once | not executed | Device.DuplicateQueueFamilyExample | Device.DeviceQueueFamilies |
| src/core/device.rs:13-21, 144-155 | the present family is never requested, but presentation uses a queue of that family | families [G\|C\|T, G\|C\|T] with presentation only on family 1: no queue of family 1 is created | include prs among the requested families | not executed | Device.PresentFamilyNotRequestedExample | Device.DeviceQueueCreateInfos |
| src/apps/img.rs:44, 187 | `(img_dx * img_dy * 4) as u64` multiplies in u32 before widening: it wraps in release builds and panics in debug builds | a 32768 × 32768 image gives size 0 | multiply in u64 | not executed | Img.ByteSizeWrapsExample | Img.ByteSizeTexels |
| src/apps/img.rs:81-153 | both images are created with exclusive sharing (src/core/image.rs:45), and every barrier passes QUEUE_FAMILY_IGNORED for both families (src/core/image.rs:109-110), yet the source image goes from the transfer queue to the compute queue and the result image back, without an ownership transfer | a device whose dedicated transfer family differs from the compute family, which src/core/device.rs:109-131 prefers: Vulkan leaves the texels undefined for the second family, so the saved image is undefined | release and acquire barriers between the two families, or one family for both pools | not executed | Img.OwnershipAsWritten | Img.OwnershipTransferred |

=== FILE: buffer.dfy ===
/** A device buffer with its memory binding (src/core/buffer.rs). */
module Buffers {
  import opened Vk
  import Memory
  import Images
  import Commands

  /** VkDescriptorBufferInfo */
  datatype DescriptorBufferInfo = DescriptorBufferInfo(buffer: Handle, offset: nat, range: nat)

  /** KewBuffer */
  class Buffer {
    const handle: Handle
    const size: nat
    var binding: Option<Memory.MemoryBinding>

    /** `KewBuffer::new`: an unbound buffer of `size` bytes. */
    constructor (handle: Handle, size: nat)
      ensures this.handle == handle && this.size == size && binding == None
    {
      this.handle := handle;
      this.size := size;
      binding := None;
    }

    /** `bind_memory`: only the first call binds; later calls are skipped. */
    method BindMemory(memory: Memory.Arena, offset: nat)
      modifies this`binding
      ensures old(binding).None? ==> binding == Some(Memory.MemoryBinding(memory, offset))
      ensures old(binding).Some? ==> binding == old(binding)
      ensures old(binding).None? ==> Offset() == Some(offset)
    {
      if binding.None? {
        binding := Some(Memory.MemoryBinding(memory, offset));
      }
    }

    /** `get_offset`: the bound offset; None where the source panics because the
        buffer is unbound. */
    function Offset(): (r: Option<nat>)
      reads this
      ensures r.Some? <==> binding.Some?
      ensures r.Some? ==> r.value == binding.value.offset
    {
      if binding.Some? then Some(binding.value.offset) else None
    }

    /** `descriptor_info`: the whole buffer, from offset 0 over its size. The
        offset is relative to the buffer, so the memory binding plays no part. */
    function DescriptorInfo(): (d: DescriptorBufferInfo)
      ensures d.buffer == handle && d.offset == 0 && d.range == size
    {
      DescriptorBufferInfo(handle, 0, size)
    }

    /** `copy_to_image`: records into a fresh one-shot buffer of `pool` a copy of
        this buffer, from offset 0, over the whole of `image`, which must be in
        the transfer-destination layout whatever its recorded layout says, and
        submits it. `ok` is false where the source's `unwrap` panics. */
    method CopyToImage(image: Images.Image, pool: Commands.CommandPool, submitStatus: Status, waitStatus: Status)
      returns (ok: bool)
      requires pool.Valid()
      modifies pool
      ensures pool.Valid()
      ensures ok <==> submitStatus.Ok? && waitStatus.Ok?
      ensures exists cb :: (cb !in old(pool.states)
        && pool.events == old(pool.events) + Commands.SubmitEvents([cb], [[CopyCmd(image)]], submitStatus, waitStatus))
    {
      var cb := pool.GetCommandBuffer();
      pool.Record(cb, [CopyCmd(image)]);
      assert pool.recorded[cb] == [CopyCmd(image)];
      assert pool.Contents([cb]) == [[CopyCmd(image)]];
      var result := pool.SubmitCommandBuffers([cb], submitStatus, waitStatus);
      ok := result.Ok?;
    }

    /** The command `copy_to_image` records. */
    function CopyCmd(image: Images.Image): (c: Cmd)
      reads image
      ensures c.CopyBufferToImage? && c.srcBuffer == handle && c.dstImage == image.handle
      ensures c.dstLayout == TransferDstOptimal
      ensures c.region == Images.WholeImageRegion(image.extent, image.range)
    {
      CopyBufferToImage(handle, image.handle, TransferDstOptimal, Images.WholeImageRegion(image.extent, image.range))
    }
  }

  /** The copy of `copy_to_image` targets the transfer-destination layout even
      when the image is recorded in another layout, and covers the whole
      image from buffer offset 0. */
  lemma CopyIgnoresRecordedLayout(b: Buffer, image: Images.Image)
    requires image.layout != TransferDstOptimal
    ensures b.CopyCmd(image).dstLayout != image.layout
    ensures b.CopyCmd(image).region.bufferOffset == 0 && b.CopyCmd(image).region.imageExtent == image.extent
  {
  }
}

=== FILE: bytes.dfy ===
/** Little-endian byte views of 32-bit words, the host order in which the
    applications copy `u32`/`i32` data into mapped memory. */
module Bytes {
  /** The four bytes of `w`, least significant first. */
  function WordBytes(w: bv32): (r: seq<bv8>)
    ensures |r| == 4
  {
    [(w & 0xFF) as bv8, ((w >> 8) & 0xFF) as bv8, ((w >> 16) & 0xFF) as bv8, ((w >> 24) & 0xFF) as bv8]
  }

  /** The word whose little-endian bytes are `b`. */
  function WordOf(b: seq<bv8>): bv32
    requires |b| == 4
  {
    (b[0] as bv32) | ((b[1] as bv32) << 8) | ((b[2] as bv32) << 16) | ((b[3] as bv32) << 24)
  }

  lemma WordRoundTrip(w: bv32)
    ensures WordOf(WordBytes(w)) == w
  {
  }

  lemma BytesRoundTrip(b: seq<bv8>)
    requires |b| == 4
    ensures WordBytes(WordOf(b)) == b
  {
  }

  /** The bytes of `ws`, word after word; `FromWords` reads them back
      (WordsRoundTrip). */
  function Words(ws: seq<bv32>): (r: seq<bv8>)
    ensures |r| == 4 * |ws|
  {
    if ws == [] then [] else WordBytes(ws[0]) + Words(ws[1..])
  }

  /** The whole words whose bytes begin `b`; bytes after the last whole word
      are ignored. */
  function FromWords(b: seq<bv8>): (r: seq<bv32>)
    ensures 4 * |r| <= |b| < 4 * |r| + 4
  {
    if |b| < 4 then [] else [WordOf(b[..4])] + FromWords(b[4..])
  }

  lemma {:induction false} WordsRoundTrip(ws: seq<bv32>)
    ensures FromWords(Words(ws)) == ws
  {
    if ws != [] {
      var b := Words(ws);
      assert b[..4] == WordBytes(ws[0]);
      assert b[4..] == Words(ws[1..]);
      WordRoundTrip(ws[0]);
      WordsRoundTrip(ws[1..]);
    }
  }

  /** The bytes of two word sequences, one after the other. */
  lemma {:induction false} WordsAppend(a: seq<bv32>, b: seq<bv32>)
    ensures Words(a + b) == Words(a) + Words(b)
    decreases |a|
  {
    if a == [] {
      assert a + b == b;
    } else {
      assert (a + b)[0] == a[0] && (a + b)[1..] == a[1..] + b;
      WordsAppend(a[1..], b);
    }
  }

  /** The words of two byte sequences one after the other, the first made of
      `k` whole words. */
  lemma {:induction false} FromWordsAppend(x: seq<bv8>, y: seq<bv8>, k: nat)
    requires |x| == 4 * k
    ensures FromWords(x + y) == FromWords(x) + FromWords(y)
    decreases k
  {
    if k == 0 {
      assert x + y == y;
    } else {
      assert (x + y)[..4] == x[..4] && (x + y)[4..] == x[4..] + y;
      FromWordsAppend(x[4..], y, k - 1);
    }
  }

  /** The words of the bytes of `ws` followed by other bytes. */
  lemma WordsThenBytes(ws: seq<bv32>, rest: seq<bv8>)
    ensures FromWords(Words(ws) + rest) == ws + FromWords(rest)
  {
    FromWordsAppend(Words(ws), rest, |ws|);
    WordsRoundTrip(ws);
  }

  /** Dropping the first `m` of the `n` words at `at` in `x`. */
  lemma WordsSplit(x: seq<bv8>, at: nat, m: nat, n: nat)
    requires m <= n && at + 4 * n <= |x|
    ensures FromWords(x[at + 4 * m..at + 4 * n]) == FromWords(x[at..at + 4 * n])[m..]
  {
    assert x[at..at + 4 * n] == x[at..at + 4 * m] + x[at + 4 * m..at + 4 * n];
    FromWordsAppend(x[at..at + 4 * m], x[at + 4 * m..at + 4 * n], m);
  }

  /** The first `k` words' bytes of `ws` are the bytes of its first `k`
      words. */
  lemma {:induction false} WordsPrefix(ws: seq<bv32>, k: nat)
    requires k <= |ws|
    ensures Words(ws)[..4 * k] == Words(ws[..k])
    decreases k
  {
    if k > 0 {
      assert ws[..k][0] == ws[0] && ws[..k][1..] == ws[1..][..k - 1];
      WordsPrefix(ws[1..], k - 1);
    }
  }

  /** The first `k` words of the bytes of `ws`, found at `at` in `x`, are the
      first `k` elements of `ws`. */
  lemma LeadingWords(x: seq<bv8>, at: nat, ws: seq<bv32>, k: nat)
    requires at + 4 * |ws| <= |x| && x[at..at + 4 * |ws|] == Words(ws) && k <= |ws|
    ensures FromWords(x[at..at + 4 * k]) == ws[..k]
  {
    assert x[at..at + 4 * k] == Words(ws)[..4 * k];
    WordsPrefix(ws, k);
    WordsRoundTrip(ws[..k]);
  }
}

=== FILE: command.dfy ===
/** A command pool and the life of the command buffers it hands out
    (src/core/command.rs). Each buffer moves through the states of the Vulkan
    command-buffer life cycle; what the pool asks of its queue is kept as a log. */
module Commands {
  import opened Vk

  /** The Vulkan life-cycle state of one command buffer. Buffers handed to the
      queue are kept in the executable state; completion is the queue's
      business. */
  datatype CmdState = Initial | Recording(oneTimeSubmit: bool) | Executable | Freed

  /** What the pool asks of the driver, in order. */
  datatype PoolEvent =
    | EndCommandBuffer(buffer: Handle)
    | QueueSubmit(buffers: seq<Handle>, commands: seq<seq<Cmd>>, fence: Option<Handle>)
    | QueueWaitIdle
    | FreeCommandBuffers(buffers: seq<Handle>)

  /** The events of one `submit_command_buffers` call that reaches the submit:
      one end per buffer, in order, then a single fenceless batch; then, if
      the submit succeeded, the idle wait; and, if that also succeeded, the
      free. */
  function SubmitEvents(buffers: seq<Handle>, commands: seq<seq<Cmd>>, submit: Status, wait: Status): (r: seq<PoolEvent>)
    ensures |r| == |buffers| + 1 + (if submit.Ok? then 1 else 0) + (if submit.Ok? && wait.Ok? then 1 else 0)
    ensures forall i :: 0 <= i < |buffers| ==> r[i] == EndCommandBuffer(buffers[i])
    ensures r[|buffers|] == QueueSubmit(buffers, commands, None)
    ensures submit.Ok? ==> r[|buffers| + 1] == QueueWaitIdle
    ensures (FreeCommandBuffers(buffers) in r) <==> submit.Ok? && wait.Ok?
  {
    EndEvents(buffers) + [QueueSubmit(buffers, commands, None)] + AfterSubmit(buffers, submit, wait)
  }

  /** What follows the submit: nothing if it failed, else the idle wait and,
      if that succeeded, the free. */
  function AfterSubmit(buffers: seq<Handle>, submit: Status, wait: Status): (r: seq<PoolEvent>)
    ensures forall i :: 0 <= i < |r| ==> !r[i].QueueSubmit?
  {
    if submit.Failed? then []
    else if wait.Failed? then [QueueWaitIdle]
    else [QueueWaitIdle, FreeCommandBuffers(buffers)]
  }

  /** Appending pieces to a log one at a time appends them all at once. */
  lemma Regroup(log: seq<PoolEvent>, a: seq<PoolEvent>, b: seq<PoolEvent>, c: seq<PoolEvent>)
    ensures log + a + b + c == log + (a + b + c)
  {
  }

  /** One `end_command_buffer` per buffer, in order. */
  function EndEvents(buffers: seq<Handle>): (r: seq<PoolEvent>)
    ensures |r| == |buffers|
    ensures forall i :: 0 <= i < |buffers| ==> r[i] == EndCommandBuffer(buffers[i])
  {
    seq(|buffers|, i requires 0 <= i < |buffers| => EndCommandBuffer(buffers[i]))
  }

  /** Ending one more buffer appends its event. */
  lemma EndEventsStep(buffers: seq<Handle>, i: nat)
    requires i < |buffers|
    ensures EndEvents(buffers[..i + 1]) == EndEvents(buffers[..i]) + [EndCommandBuffer(buffers[i])]
  {
    assert EndEvents(buffers[..i + 1])[i] == EndCommandBuffer(buffers[i]);
  }

  /** The result `submit_command_buffers` returns: the first error met. */
  function SubmitResult(submit: Status, wait: Status): (r: Status)
    ensures r.Ok? <==> submit.Ok? && wait.Ok?
    ensures submit.Failed? ==> r == submit
  {
    if submit.Failed? then submit else wait
  }

  predicate Distinct(s: seq<Handle>) {
    forall i, j :: 0 <= i < j < |s| ==> s[i] != s[j]
  }

  /** KewCommandPool: a pool for one queue family with its queue. `states` and
      `recorded` give every buffer allocated from the pool its life-cycle state
      and the commands recorded into it; `next` is the next handle the driver
      hands out. */
  class CommandPool {
    const handle: Handle
    const queue: Handle
    const queueFamily: nat
    var states: map<Handle, CmdState>
    var recorded: map<Handle, seq<Cmd>>
    var events: seq<PoolEvent>
    var next: Handle

    ghost predicate Valid()
      reads this`states, this`recorded, this`next
    {
      states.Keys == recorded.Keys
      && NULL_HANDLE < next
      && (forall h :: h in states ==> NULL_HANDLE < h < next)
    }

    /** `KewCommandPool::new`: a pool with no buffers on the family's first queue. */
    constructor (handle: Handle, queueFamily: nat, queue: Handle)
      ensures Valid()
      ensures this.handle == handle && this.queueFamily == queueFamily && this.queue == queue
      ensures states == map[] && events == []
    {
      this.handle := handle;
      this.queueFamily := queueFamily;
      this.queue := queue;
      states := map[];
      recorded := map[];
      events := [];
      next := 1;
    }

    /** The buffer is in the recording state. */
    predicate IsRecording(cb: Handle)
      reads this
    {
      cb in states && states[cb].Recording?
    }

    /** `create_command_buffers`: `count` new buffers, none of them begun. */
    method CreateCommandBuffers(count: nat) returns (buffers: seq<Handle>)
      requires Valid()
      modifies this
      ensures Valid() && events == old(events)
      ensures |buffers| == count && Distinct(buffers)
      ensures forall i :: 0 <= i < count ==> buffers[i] !in old(states)
      ensures states == old(states) + map h | h in buffers :: Initial
      ensures recorded == old(recorded) + map h | h in buffers :: []
    {
      var first := next;
      buffers := seq(count, i requires 0 <= i < count => first + i);
      assert forall h :: h in buffers ==> first <= h < first + count;
      states := states + map h | h in buffers :: Initial;
      recorded := recorded + map h | h in buffers :: [];
      next := first + count;
    }

    /** `get_command_buffer`: one new primary buffer, already begun with the
        one-time-submit flag. */
    method GetCommandBuffer() returns (cb: Handle)
      requires Valid()
      modifies this
      ensures Valid() && events == old(events)
      ensures cb !in old(states)
      ensures states == old(states)[cb := Recording(true)]
      ensures recorded == old(recorded)[cb := []]
    {
      cb := next;
      states := states[cb := Recording(true)];
      recorded := recorded[cb := []];
      next := next + 1;
    }

    /** `begin_command_buffer` on a buffer of this pool. The pool is created with
        RESET_COMMAND_BUFFER, so beginning an executable buffer resets it. */
    method Begin(cb: Handle, oneTimeSubmit: bool)
      requires Valid() && cb in states && (states[cb].Initial? || states[cb].Executable?)
      modifies this
      ensures Valid() && events == old(events) && next == old(next)
      ensures states == old(states)[cb := Recording(oneTimeSubmit)]
      ensures recorded == old(recorded)[cb := []]
    {
      states := states[cb := Recording(oneTimeSubmit)];
      recorded := recorded[cb := []];
    }

    /** The `cmd_*` calls: commands appended to a recording buffer. */
    method Record(cb: Handle, cmds: seq<Cmd>)
      requires Valid() && IsRecording(cb)
      modifies this`recorded
      ensures Valid()
      ensures recorded == old(recorded)[cb := old(recorded)[cb] + cmds]
    {
      recorded := recorded[cb := recorded[cb] + cmds];
    }

    /** `end_command_buffer` on a recording buffer of this pool. */
    method End(cb: Handle)
      requires Valid() && IsRecording(cb)
      modifies this`states, this`events
      ensures Valid()
      ensures states == old(states)[cb := Executable]
      ensures events == old(events) + [EndCommandBuffer(cb)]
    {
      states := states[cb := Executable];
      events := events + [EndCommandBuffer(cb)];
    }

    /** The commands recorded into each of `buffers`. */
    function Contents(buffers: seq<Handle>): (r: seq<seq<Cmd>>)
      requires Valid() && forall i :: 0 <= i < |buffers| ==> buffers[i] in states
      reads this
      ensures |r| == |buffers|
    {
      var rec := recorded;
      seq(|buffers|, i requires 0 <= i < |buffers| => rec[buffers[i]])
    }

    /** `submit_command_buffers`: ends every buffer, submits them as one batch
        without a fence, waits for the queue to go idle and frees them. The
        driver's answers to the submit and the wait are `submitStatus` and
        `waitStatus`; on the first failure the error is returned and the
        buffers stay allocated. */
    method SubmitCommandBuffers(buffers: seq<Handle>, submitStatus: Status, waitStatus: Status)
      returns (result: Status)
      requires Valid() && Distinct(buffers)
      requires forall i :: 0 <= i < |buffers| ==> buffers[i] in states && states[buffers[i]].Recording?
      modifies this
      ensures Valid() && next == old(next) && recorded == old(recorded)
      ensures states.Keys == old(states).Keys
      ensures result == SubmitResult(submitStatus, waitStatus)
      ensures events == old(events) + SubmitEvents(buffers, old(Contents(buffers)), submitStatus, waitStatus)
      ensures forall i :: 0 <= i < |buffers| ==> states[buffers[i]] == (if result.Ok? then Freed else Executable)
      ensures forall h :: h in states && h !in buffers ==> states[h] == old(states)[h]
    {
      var commands := Contents(buffers);
      EndAll(buffers);
      events := events + [QueueSubmit(buffers, commands, None)];
      result := AwaitAndFree(buffers, submitStatus, waitStatus);
      Regroup(old(events), EndEvents(buffers), [QueueSubmit(buffers, commands, None)], AfterSubmit(buffers, submitStatus, waitStatus));
    }

    /** The end of `submit_command_buffers` once the batch is queued: a failed
        submit returns its error, then the queue is waited idle, a failed wait
        returns its error, and otherwise the buffers are freed. */
    method AwaitAndFree(buffers: seq<Handle>, submitStatus: Status, waitStatus: Status) returns (result: Status)
      requires Valid() && forall i :: 0 <= i < |buffers| ==> buffers[i] in states
      modifies this`states, this`events
      ensures Valid() && states.Keys == old(states).Keys
      ensures result == SubmitResult(submitStatus, waitStatus)
      ensures events == old(events) + AfterSubmit(buffers, submitStatus, waitStatus)
      ensures forall i :: 0 <= i < |buffers| ==> states[buffers[i]] == (if result.Ok? then Freed else old(states)[buffers[i]])
      ensures forall h :: h in states && h !in buffers ==> states[h] == old(states)[h]
    {
      if submitStatus.Failed? {
        return submitStatus;
      }
      events := events + [QueueWaitIdle];
      if waitStatus.Failed? {
        return waitStatus;
      }
      events := events + [FreeCommandBuffers(buffers)];
      SetAll(buffers, Freed);
      result := Ok;
    }

    /** The loop of `submit_command_buffers` calling `end_command_buffer` on each
        buffer in turn. */
    method EndAll(buffers: seq<Handle>)
      requires Valid() && Distinct(buffers)
      requires forall i :: 0 <= i < |buffers| ==> buffers[i] in states && states[buffers[i]].Recording?
      modifies this`states, this`events
      ensures Valid() && states.Keys == old(states).Keys
      ensures forall i :: 0 <= i < |buffers| ==> buffers[i] in states && states[buffers[i]] == Executable
      ensures forall h :: h in states && h !in buffers ==> states[h] == old(states)[h]
      ensures events == old(events) + EndEvents(buffers)
    {
      for i := 0 to |buffers|
        invariant Valid() && states.Keys == old(states).Keys
        invariant forall k :: 0 <= k < i ==> states[buffers[k]] == Executable
        invariant forall k :: i <= k < |buffers| ==> states[buffers[k]] == old(states)[buffers[k]]
        invariant forall h :: h in states && h !in buffers ==> states[h] == old(states)[h]
        invariant events == old(events) + EndEvents(buffers[..i])
      {
        assert forall k :: 0 <= k < |buffers| && k != i ==> buffers[k] != buffers[i];
        End(buffers[i]);
        EndEventsStep(buffers, i);
      }
      assert buffers[..|buffers|] == buffers;
    }

    /** Puts every one of `buffers` in state `st` (the driver's bookkeeping of a
        batch free). */
    method SetAll(buffers: seq<Handle>, st: CmdState)
      requires Valid() && forall i :: 0 <= i < |buffers| ==> buffers[i] in states
      modifies this`states
      ensures Valid() && states.Keys == old(states).Keys
      ensures forall i :: 0 <= i < |buffers| ==> states[buffers[i]] == st
      ensures forall h :: h in states && h !in buffers ==> states[h] == old(states)[h]
    {
      states := map h | h in states :: if h in buffers then st else states[h];
    }
  }

  /** A successful submit frees every buffer it was given, and only after the
      batch was submitted and the queue waited idle. */
  lemma {:induction false} FreeComesLast(buffers: seq<Handle>, commands: seq<seq<Cmd>>, submit: Status, wait: Status, k: nat)
    requires k < |SubmitEvents(buffers, commands, submit, wait)|
    requires SubmitEvents(buffers, commands, submit, wait)[k].FreeCommandBuffers?
    ensures submit.Ok? && wait.Ok? && k == |buffers| + 2
    ensures SubmitEvents(buffers, commands, submit, wait)[k - 1] == QueueWaitIdle
    ensures SubmitEvents(buffers, commands, submit, wait)[k - 2] == QueueSubmit(buffers, commands, None)
  {
    var r := SubmitEvents(buffers, commands, submit, wait);
    if k < |buffers| + 2 {
      assert false;
    }
  }

  /** The command lists of every batch submitted in `events`, in submission
      order. BatchesAppend splits it over a log's parts, and
      SubmitEventsOneBatch shows one submit adds exactly one batch. */
  function SubmittedBatches(events: seq<PoolEvent>): (r: seq<seq<seq<Cmd>>>)
    ensures |r| <= |events|
  {
    if events == [] then []
    else (if events[0].QueueSubmit? then [events[0].commands] else []) + SubmittedBatches(events[1..])
  }

  lemma {:induction false} BatchesAppend(a: seq<PoolEvent>, b: seq<PoolEvent>)
    ensures SubmittedBatches(a + b) == SubmittedBatches(a) + SubmittedBatches(b)
    decreases |a|
  {
    if a != [] {
      assert (a + b)[0] == a[0] && (a + b)[1..] == a[1..] + b;
      BatchesAppend(a[1..], b);
      var head := if a[0].QueueSubmit? then [a[0].commands] else [];
      assert SubmittedBatches(a + b) == head + (SubmittedBatches(a[1..]) + SubmittedBatches(b));
      assert SubmittedBatches(a) == head + SubmittedBatches(a[1..]);
    } else {
      assert a + b == b;
    }
  }

  lemma {:induction false} NoSubmitNoBatch(events: seq<PoolEvent>)
    requires forall i :: 0 <= i < |events| ==> !events[i].QueueSubmit?
    ensures SubmittedBatches(events) == []
    decreases |events|
  {
    if events != [] {
      NoSubmitNoBatch(events[1..]);
    }
  }

  /** One `submit_command_buffers` call submits exactly one batch, whatever
      the driver answers. */
  lemma SubmitEventsOneBatch(buffers: seq<Handle>, commands: seq<seq<Cmd>>, submit: Status, wait: Status)
    ensures SubmittedBatches(SubmitEvents(buffers, commands, submit, wait)) == [commands]
  {
    var ends := EndEvents(buffers);
    var batch := QueueSubmit(buffers, commands, None);
    var tail := AfterSubmit(buffers, submit, wait);
    NoSubmitNoBatch(ends);
    NoSubmitNoBatch(tail);
    BatchesAppend(ends + [batch], tail);
    BatchesAppend(ends, [batch]);
    assert SubmittedBatches([batch]) == [commands];
  }
}

=== FILE: config.dfy ===
/** The dock's static configuration (src/dock/config.rs): its two shader
    stages and its table of graphics pipeline configurations. */
module Config {
  import opened Vk
  import Models
  import Shaders
  import Pipelines
  import Buffers

  /** VERT_SHADER_CONFIG */
  const VERT_SHADER_CONFIG: Shaders.ShaderStageConfig :=
    Shaders.ShaderStageConfig("main", "./shader/kew.vert.spv", [], STAGE_VERTEX, 0)

  /** FRAG_SHADER_CONFIG */
  const FRAG_SHADER_CONFIG: Shaders.ShaderStageConfig :=
    Shaders.ShaderStageConfig("main", "./shader/kew.frag.spv", [], STAGE_FRAGMENT, 0)

  const NULL_VERT_CONFIG: nat := 0
  const FLAT_VERT_CONFIG: nat := 1

  /** The primitive state both entries share. */
  const TRIANGLES: Pipelines.PrimitiveState :=
    Pipelines.PrimitiveState(Pipelines.TriangleList, false, Pipelines.Fill, false, Pipelines.CULL_NONE, Pipelines.Clockwise)

  /** The one colour target both entries share. */
  const OPAQUE_RGBA: Pipelines.ColorTarget := Pipelines.ColorTarget(None, None, COLOR_RGBA)

  /** PIPELINE_CONFIGS */
  const PIPELINE_CONFIGS: seq<Pipelines.GfxPipelineConfig> :=
    [Pipelines.GfxPipelineConfig(TRIANGLES, [OPAQUE_RGBA], Models.Null),
     Pipelines.GfxPipelineConfig(TRIANGLES, [OPAQUE_RGBA], Models.Flat)]

  /** The index constants select the entries with the vertex type they are
      named after. */
  lemma IndicesSelectTheirVertexType()
    ensures NULL_VERT_CONFIG < |PIPELINE_CONFIGS| && FLAT_VERT_CONFIG < |PIPELINE_CONFIGS|
    ensures PIPELINE_CONFIGS[NULL_VERT_CONFIG].vertexType == Models.Null
    ensures PIPELINE_CONFIGS[FLAT_VERT_CONFIG].vertexType == Models.Flat
  {
  }

  /** Every entry draws filled, unculled, clockwise triangle lists without
      restart or depth clamp into one colour target with blending disabled and
      every channel written. */
  lemma EntriesOpaqueTriangles(i: nat, a: Pipelines.BlendAttachment)
    requires i < |PIPELINE_CONFIGS|
    requires Pipelines.AttachmentOf(PIPELINE_CONFIGS[i].colorTargets[0], a)
    ensures PIPELINE_CONFIGS[i].primitive == TRIANGLES
    ensures |PIPELINE_CONFIGS[i].colorTargets| == 1
    ensures !a.blendEnable && a.writeMask == COLOR_RGBA
  {
  }

  /** Neither stage declares a descriptor binding, so the shaders built from
      them have empty set layouts and accept no descriptor write. */
  lemma StagesHaveNoBindings(s: Shaders.Shader, config: Shaders.ShaderStageConfig, binding: nat,
                             info: Buffers.DescriptorBufferInfo, descriptorSet: Handle)
    requires config == VERT_SHADER_CONFIG || config == FRAG_SHADER_CONFIG
    requires Shaders.BuiltFrom(s.bindings, config)
    ensures s.bindings == []
    ensures Shaders.WriteBuffer(s, binding, info, descriptorSet).None?
  {
  }
}

=== FILE: context.dfy ===
/** Instance creation and physical-device choice (src/core/context.rs): the
    instance extensions and layers, the application version parsed from the
    package version string, the device pick and the debug messenger's
    callback. */
module Context {
  import opened Vk

  // ---------------------------------------------------------------------------
  // Instance extensions and layers

  /** The operating system the crate is compiled for. */
  datatype TargetOs = Windows | Linux | OtherOs

  const SURFACE_EXTENSION: string := "VK_KHR_surface"
  const WIN32_SURFACE_EXTENSION: string := "VK_KHR_win32_surface"
  const WAYLAND_SURFACE_EXTENSION: string := "VK_KHR_wayland_surface"
  const DEBUG_UTILS_EXTENSION: string := "VK_EXT_debug_utils"
  const VALIDATION_LAYER: string := "VK_LAYER_KHRONOS_validation"

  /** `get_extensions`: the surface extension, then the platform's surface
      extension, then debug utils in debug builds. */
  method GetExtensions(os: TargetOs, debug: bool) returns (r: seq<string>)
    ensures |r| >= 1 && r[0] == SURFACE_EXTENSION
    ensures os.Windows? ==> |r| >= 2 && r[1] == WIN32_SURFACE_EXTENSION && WAYLAND_SURFACE_EXTENSION !in r
    ensures os.Linux? ==> |r| >= 2 && r[1] == WAYLAND_SURFACE_EXTENSION && WIN32_SURFACE_EXTENSION !in r
    ensures os.OtherOs? ==> WIN32_SURFACE_EXTENSION !in r && WAYLAND_SURFACE_EXTENSION !in r
    ensures (DEBUG_UTILS_EXTENSION in r) <==> debug
    ensures debug ==> r[|r| - 1] == DEBUG_UTILS_EXTENSION
    ensures |r| == 1 + (if os.OtherOs? then 0 else 1) + (if debug then 1 else 0)
    ensures forall i, j :: 0 <= i < j < |r| ==> r[i] != r[j]
  {
    r := [];
    r := r + [SURFACE_EXTENSION];
    if os.Windows? {
      r := r + [WIN32_SURFACE_EXTENSION];
    }
    if os.Linux? {
      r := r + [WAYLAND_SURFACE_EXTENSION];
    }
    if debug {
      r := r + [DEBUG_UTILS_EXTENSION];
    }
  }

  // ---------------------------------------------------------------------------
  // The version number

  /** `str::split('.')`: the pieces between the separators, empty pieces
      included; a string without separator is one piece. */
  function Split(s: string, sep: char): (r: seq<string>)
    ensures |r| >= 1
    ensures forall i :: 0 <= i < |r| ==> sep !in r[i]
    decreases |s|
  {
    if |s| == 0 then [""]
    else if s[0] == sep then [""] + Split(s[1..], sep)
    else
      var rest := Split(s[1..], sep);
      [[s[0]] + rest[0]] + rest[1..]
  }

  /** The pieces glued back together with `sep` between them. */
  function Join(pieces: seq<string>, sep: char): string
    requires |pieces| >= 1
    decreases |pieces|
  {
    if |pieces| == 1 then pieces[0] else pieces[0] + [sep] + Join(pieces[1..], sep)
  }

  /** Splitting loses nothing: joining the pieces gives the string back. */
  lemma {:induction false} SplitJoin(s: string, sep: char)
    ensures Join(Split(s, sep), sep) == s
    decreases |s|
  {
    if |s| > 0 {
      SplitJoin(s[1..], sep);
      var rest := Split(s[1..], sep);
      if s[0] == sep {
        assert Split(s, sep)[1..] == rest;
      } else if |rest| == 1 {
        assert Split(s, sep) == [[s[0]] + rest[0]];
      } else {
        assert Split(s, sep)[1..] == rest[1..];
        assert Join(rest, sep) == rest[0] + [sep] + Join(rest[1..], sep);
      }
    }
  }

  /** Splitting a string whose first piece is `a` (no separator in it): that
      piece, then the pieces of what follows the separator. */
  lemma {:induction false} SplitAfter(a: string, sep: char, b: string)
    requires sep !in a
    ensures Split(a + [sep] + b, sep) == [a] + Split(b, sep)
    decreases |a|
  {
    if |a| == 0 {
      assert a + [sep] + b == [sep] + b;
      assert ([sep] + b)[1..] == b;
    } else {
      assert (a + [sep] + b)[1..] == a[1..] + [sep] + b;
      SplitAfter(a[1..], sep, b);
      assert [a[0]] + a[1..] == a;
    }
  }

  predicate IsDigit(c: char) {
    '0' <= c <= '9'
  }

  /** The value of a string of decimal digits, most significant first. */
  function DigitsValue(s: string): nat
    requires forall i :: 0 <= i < |s| ==> IsDigit(s[i])
    decreases |s|
  {
    if |s| == 0 then 0
    else
      assert IsDigit(s[|s| - 1]);
      DigitsValue(s[..|s| - 1]) * 10 + (s[|s| - 1] as int - '0' as int)
  }

  /** `str::parse::<u32>`: an optional `+`, then one or more decimal digits whose
      value fits in 32 bits. None where the parse fails. */
  function ParseU32(s: string): (r: Option<nat>)
    ensures r.Some? ==> r.value <= U32_MAX
    ensures r.Some? ==> |s| > 0
  {
    if |Unsigned(s)| == 0 || exists i :: 0 <= i < |Unsigned(s)| && !IsDigit(Unsigned(s)[i]) then None
    else if DigitsValue(Unsigned(s)) > U32_MAX then None
    else Some(DigitsValue(Unsigned(s)))
  }

  /** `s` without its leading `+`, if it has one. */
  function Unsigned(s: string): string {
    if |s| > 0 && s[0] == '+' then s[1..] else s
  }

  /** The decimal digits of `n`, without leading zeros (`to_string`). */
  function Decimal(n: nat): (r: string)
    ensures |r| > 0 && forall i :: 0 <= i < |r| ==> IsDigit(r[i])
    decreases n
  {
    if n < 10 then [('0' as int + n) as char]
    else Decimal(n / 10) + [('0' as int + n % 10) as char]
  }

  /** Reading back the decimal digits of a number gives the number. */
  lemma {:induction false} DecimalValue(n: nat)
    ensures DigitsValue(Decimal(n)) == n
    decreases n
  {
    if n >= 10 {
      DecimalValue(n / 10);
      var d := Decimal(n);
      assert d[..|d| - 1] == Decimal(n / 10);
    }
  }

  /** Every 32-bit number survives printing and parsing. */
  lemma ParseDecimal(n: nat)
    requires n <= U32_MAX
    ensures ParseU32(Decimal(n)) == Some(n)
  {
    DecimalValue(n);
  }

  /** `vk::make_api_version`: variant in bits 29-31, major in 22-28, minor in
      12-21, patch in 0-11, shifted and or-ed in 32 bits (bits shifted past bit
      31 are lost). */
  function MakeApiVersion(variant: bv32, major: bv32, minor: bv32, patch: bv32): bv32 {
    (variant << 29) | (major << 22) | (minor << 12) | patch
  }

  /** The field extractors of the "Version Numbers" section of the Vulkan
      specification. */
  function ApiVersionVariant(v: bv32): bv32 { v >> 29 }
  function ApiVersionMajor(v: bv32): bv32 { (v >> 22) & 0x7F }
  function ApiVersionMinor(v: bv32): bv32 { (v >> 12) & 0x3FF }
  function ApiVersionPatch(v: bv32): bv32 { v & 0xFFF }

  /** Fields within their widths are packed without loss. */
  lemma ApiVersionRoundTrip(variant: bv32, major: bv32, minor: bv32, patch: bv32)
    requires variant < 8 && major < 0x80 && minor < 0x400 && patch < 0x1000
    ensures ApiVersionVariant(MakeApiVersion(variant, major, minor, patch)) == variant
    ensures ApiVersionMajor(MakeApiVersion(variant, major, minor, patch)) == major
    ensures ApiVersionMinor(MakeApiVersion(variant, major, minor, patch)) == minor
    ensures ApiVersionPatch(MakeApiVersion(variant, major, minor, patch)) == patch
  {
  }

  /** `vk::API_VERSION_1_3` */
  const API_VERSION_1_3: bv32 := 0x0040_3000

  /** The three numbers `get_version` reads: the first three dot-separated
      pieces parsed as u32; further pieces are ignored. None where the source
      panics: fewer than three pieces, or a piece that does not parse. */
  function ParseVersion(pkgVersion: string): (r: Option<(nat, nat, nat)>)
    ensures r.Some? ==> |Split(pkgVersion, '.')| >= 3
    ensures r.Some? ==> r.value.0 <= U32_MAX && r.value.1 <= U32_MAX && r.value.2 <= U32_MAX
  {
    var parts := Split(pkgVersion, '.');
    if |parts| < 3 then None
    else
      var major, minor, patch := ParseU32(parts[0]), ParseU32(parts[1]), ParseU32(parts[2]);
      if major.None? || minor.None? || patch.None? then None
      else Some((major.value, minor.value, patch.value))
  }

  /** `get_version`: the numbers packed with variant 0. */
  function GetVersion(pkgVersion: string): (r: Option<bv32>)
    ensures r.Some? <==> ParseVersion(pkgVersion).Some?
  {
    var p := ParseVersion(pkgVersion);
    if p.None? then None
    else Some(MakeApiVersion(0, p.value.0 as bv32, p.value.1 as bv32, p.value.2 as bv32))
  }

  /** The version string "major.minor.patch", with ".rest" appended when
      `rest` is given. */
  function VersionString(major: nat, minor: nat, patch: nat, rest: Option<string>): string {
    Decimal(major) + "." + Decimal(minor) + "." + Decimal(patch) + (if rest.Some? then "." + rest.value else "")
  }

  /** The three numbers of a version string "major.minor.patch" are read
      back, whatever follows a further dot; `ApiVersionRoundTrip` then gives
      them back from the packed value when they fit their fields. */
  lemma ParseVersionReadsFields(major: nat, minor: nat, patch: nat, rest: Option<string>)
    requires major <= U32_MAX && minor <= U32_MAX && patch <= U32_MAX
    ensures ParseVersion(VersionString(major, minor, patch, rest)) == Some((major, minor, patch))
  {
    SplitVersion(major, minor, patch, rest);
    ParseDecimal(major);
    ParseDecimal(minor);
    ParseDecimal(patch);
  }

  /** The first three pieces of a version string are its three numbers. */
  lemma SplitVersion(major: nat, minor: nat, patch: nat, rest: Option<string>)
    ensures var parts := Split(VersionString(major, minor, patch, rest), '.');
            |parts| >= 3 && parts[0] == Decimal(major) && parts[1] == Decimal(minor) && parts[2] == Decimal(patch)
  {
    var a, b, c := Decimal(major), Decimal(minor), Decimal(patch);
    var tail := if rest.Some? then "." + rest.value else "";
    DigitsHaveNoDot(a);
    DigitsHaveNoDot(b);
    DigitsHaveNoDot(c);
    var s3 := c + tail;
    var s2 := b + ['.'] + s3;
    assert VersionString(major, minor, patch, rest) == a + ['.'] + s2;
    if rest.Some? {
      assert s3 == c + ['.'] + rest.value;
      SplitAfter(c, '.', rest.value);
    } else {
      assert s3 == c;
      SplitOfPiece(c, '.');
    }
    assert |Split(s3, '.')| >= 1 && Split(s3, '.')[0] == c;
    SplitAfter(b, '.', s3);
    SplitAfter(a, '.', s2);
  }

  lemma DigitsHaveNoDot(s: string)
    requires forall i :: 0 <= i < |s| ==> IsDigit(s[i])
    ensures '.' !in s
  {
  }

  /** A string without separator is one piece. */
  lemma {:induction false} SplitOfPiece(a: string, sep: char)
    requires sep !in a
    ensures Split(a, sep) == [a]
    decreases |a|
  {
    if |a| > 0 {
      SplitOfPiece(a[1..], sep);
      assert [a[0]] + a[1..] == a;
    }
  }

  /** A version string with fewer than three pieces is rejected. */
  lemma ShortVersionRejected(major: nat, minor: nat)
    ensures GetVersion(Decimal(major) + "." + Decimal(minor)).None?
  {
    var a, b := Decimal(major), Decimal(minor);
    DigitsHaveNoDot(a);
    DigitsHaveNoDot(b);
    SplitAfter(a, '.', b);
    SplitOfPiece(b, '.');
  }

  /** A prerelease version such as "1.2.3-rc1" is rejected: its third piece
      "3-rc1" is not a u32, where the source panics on the patch number. */
  lemma PrereleaseRejected(major: nat, minor: nat, patch: nat, tag: string)
    requires '.' !in tag
    ensures GetVersion(Decimal(major) + "." + Decimal(minor) + "." + Decimal(patch) + "-" + tag).None?
  {
    var a, b, third := Decimal(major), Decimal(minor), Decimal(patch) + "-" + tag;
    var s := Decimal(major) + "." + Decimal(minor) + "." + Decimal(patch) + "-" + tag;
    TaggedPiece(Decimal(patch), tag);
    DigitsHaveNoDot(a);
    DigitsHaveNoDot(b);
    assert Split(s, '.') == [a, b, third] by {
      SplitOfPiece(third, '.');
      SplitAfter(b, '.', third);
      SplitAfter(a, '.', b + ['.'] + third);
      Regroup(a, b, Decimal(patch), tag);
    }
    assert ParseVersion(s).None?;
  }

  /** Regrouping the concatenation of a tagged version string. */
  lemma Regroup(a: string, b: string, c: string, tag: string)
    ensures a + "." + b + "." + c + "-" + tag == a + ['.'] + (b + ['.'] + (c + "-" + tag))
  {
  }

  /** Digits followed by a dash and a dot-free tag form one piece that does
      not parse as a u32. */
  lemma TaggedPiece(digits: string, tag: string)
    requires |digits| > 0 && forall i :: 0 <= i < |digits| ==> IsDigit(digits[i])
    requires '.' !in tag
    ensures '.' !in digits + "-" + tag
    ensures ParseU32(digits + "-" + tag).None?
  {
    var t := digits + "-" + tag;
    forall i | 0 <= i < |t|
      ensures t[i] != '.'
    {
      if i > |digits| {
        assert t[i] == tag[i - |digits| - 1];
      }
    }
    assert t[0] == digits[0] && t[|digits|] == '-';
    assert 0 <= |digits| < |t| && !IsDigit(t[|digits|]);
    assert !(|t| > 0 && t[0] == '+');
    assert Unsigned(t) == t;
  }

  /** VkApplicationInfo and VkInstanceCreateInfo, as far as the source fills
      them. */
  datatype InstanceCreateInfo = InstanceCreateInfo(
    apiVersion: bv32, applicationName: string, applicationVersion: bv32,
    engineName: string, engineVersion: bv32,
    extensions: seq<string>, layers: seq<string>)

  /** `create_instance`: Vulkan 1.3, "kew" as application and engine with the
      package version, the instance extensions, and the validation layer
      exactly when validation layers are enabled (in debug builds). None where
      the source panics on the version. */
  method CreateInstanceInfo(pkgVersion: string, os: TargetOs, debug: bool) returns (r: Option<InstanceCreateInfo>)
    ensures r.Some? <==> GetVersion(pkgVersion).Some?
    ensures r.Some? ==> r.value.apiVersion == API_VERSION_1_3
    ensures r.Some? ==> r.value.applicationName == "kew" && r.value.engineName == "kew"
    ensures r.Some? ==> r.value.applicationVersion == GetVersion(pkgVersion).value
    ensures r.Some? ==> r.value.engineVersion == r.value.applicationVersion
    ensures r.Some? ==> (r.value.layers != [] <==> debug)
    ensures r.Some? ==> r.value.layers == [] || r.value.layers == [VALIDATION_LAYER]
    ensures r.Some? ==> |r.value.extensions| >= 1 && r.value.extensions[0] == SURFACE_EXTENSION
    ensures r.Some? ==> ((DEBUG_UTILS_EXTENSION in r.value.extensions) <==> debug)
  {
    var version := GetVersion(pkgVersion);
    if version.None? {
      return None;
    }
    var extensions := GetExtensions(os, debug);
    var enableValidationLayers := debug;
    var layers := if enableValidationLayers then [VALIDATION_LAYER] else [];
    r := Some(InstanceCreateInfo(API_VERSION_1_3, "kew", version.value, "kew", version.value, extensions, layers));
  }

  /** The 1.3 constant is major 1, minor 3, patch 0. */
  lemma ApiVersion13()
    ensures API_VERSION_1_3 == MakeApiVersion(0, 1, 3, 0)
  {
  }

  // ---------------------------------------------------------------------------
  // Physical device

  /** VkPhysicalDeviceType */
  datatype DeviceType = OtherDevice | IntegratedGpu | DiscreteGpu | VirtualGpu | Cpu

  /** An enumerated device and the type its properties report. */
  datatype PhysicalDevice = PhysicalDevice(handle: Handle, deviceType: DeviceType)

  /** The first discrete GPU at or after `i`, by position. */
  function FirstDiscrete(devices: seq<PhysicalDevice>, i: nat): (r: Option<nat>)
    requires i <= |devices|
    ensures r.Some? ==> i <= r.value < |devices| && devices[r.value].deviceType.DiscreteGpu?
    ensures r.Some? ==> forall k :: i <= k < r.value ==> !devices[k].deviceType.DiscreteGpu?
    ensures r.None? ==> forall k :: i <= k < |devices| ==> !devices[k].deviceType.DiscreteGpu?
    decreases |devices| - i
  {
    if i == |devices| then None
    else if devices[i].deviceType.DiscreteGpu? then Some(i)
    else FirstDiscrete(devices, i + 1)
  }

  /** `pick_physical_device`: the first discrete GPU in enumeration order, else
      the first device. None where the source panics because there is none. */
  function PickPhysicalDevice(devices: seq<PhysicalDevice>): (r: Option<Handle>)
    ensures r.None? <==> |devices| == 0
    ensures (exists k :: 0 <= k < |devices| && devices[k].deviceType.DiscreteGpu?) ==>
              exists k :: (&& 0 <= k < |devices| && devices[k].deviceType.DiscreteGpu?
                           && r == Some(devices[k].handle)
                           && forall j :: 0 <= j < k ==> !devices[j].deviceType.DiscreteGpu?)
    ensures |devices| > 0 && (forall k :: 0 <= k < |devices| ==> !devices[k].deviceType.DiscreteGpu?) ==>
              r == Some(devices[0].handle)
  {
    var d := FirstDiscrete(devices, 0);
    if d.Some? then Some(devices[d.value].handle)
    else if |devices| > 0 then Some(devices[0].handle)
    else None
  }

  // ---------------------------------------------------------------------------
  // Debug messenger

  /** VkDebugUtilsMessageSeverityFlagBitsEXT */
  const SEVERITY_VERBOSE: bv32 := 0x1
  const SEVERITY_INFO: bv32 := 0x10
  const SEVERITY_WARNING: bv32 := 0x100
  const SEVERITY_ERROR: bv32 := 0x1000

  /** The severities the messenger is created to report. */
  const MESSENGER_SEVERITIES: bv32 := SEVERITY_ERROR | SEVERITY_WARNING

  datatype LogLevel = LogError | LogInfo | LogWarn

  /** What `vulkan_debug_callback` does with a message: the log level it prints
      the message at, if any, and the value it returns (true would ask the
      layer to skip the Vulkan call). */
  datatype CallbackOutcome = CallbackOutcome(logged: Option<LogLevel>, skipCall: bool)

  /** `vulkan_debug_callback`: logs errors, infos and warnings at their level,
      anything else not at all, and never asks for the call to be skipped. */
  function DebugCallback(severity: bv32): (r: CallbackOutcome)
    ensures !r.skipCall
    ensures r.logged.Some? <==> severity == SEVERITY_ERROR || severity == SEVERITY_INFO || severity == SEVERITY_WARNING
    ensures r.logged == Some(LogError) <==> severity == SEVERITY_ERROR
    ensures r.logged == Some(LogInfo) <==> severity == SEVERITY_INFO
    ensures r.logged == Some(LogWarn) <==> severity == SEVERITY_WARNING
  {
    var level := if severity == SEVERITY_ERROR then Some(LogError)
                 else if severity == SEVERITY_INFO then Some(LogInfo)
                 else if severity == SEVERITY_WARNING then Some(LogWarn)
                 else None;
    CallbackOutcome(level, false)
  }

  /** Every single severity the messenger reports reaches the log. */
  lemma ReportedSeveritiesLogged(severity: bv32)
    requires severity == SEVERITY_ERROR || severity == SEVERITY_WARNING
    ensures severity & MESSENGER_SEVERITIES == severity
    ensures DebugCallback(severity).logged.Some?
  {
  }
}

=== FILE: descriptor.dfy ===
/** Descriptor pools, their builder and descriptor-set allocation
    (src/core/descriptor.rs). */
module Descriptors {
  import opened Vk

  /** VkDescriptorPoolSize */
  datatype PoolSize = PoolSize(descriptorType: DescriptorType, count: nat)

  /** KewDescriptorPoolBuilder: the sizes gathered so far, the creation flags and
      the most sets the pool may hand out. The builder is moved through its
      calls, so each call is a function from the old builder to the new. */
  datatype PoolBuilder = PoolBuilder(poolSizes: seq<PoolSize>, flags: bv32, maxSets: nat)

  /** VkDescriptorPoolCreateInfo */
  datatype PoolCreateInfo = PoolCreateInfo(poolSizes: seq<PoolSize>, maxSets: nat, flags: bv32)

  /** KewDescriptorPool: the pool handle and what it was created with. */
  datatype DescriptorPool = DescriptorPool(handle: Handle, info: PoolCreateInfo)

  /** `KewDescriptorPoolBuilder::new`: no sizes, no flags. */
  function NewBuilder(maxSets: nat): (b: PoolBuilder)
    ensures b.poolSizes == [] && b.flags == 0 && b.maxSets == maxSets
  {
    PoolBuilder([], 0, maxSets)
  }

  /** `add_pool_size`: one more size at the end; nothing else changes. */
  function AddPoolSize(b: PoolBuilder, descriptorType: DescriptorType, count: nat): (r: PoolBuilder)
    ensures |r.poolSizes| == |b.poolSizes| + 1
    ensures r.poolSizes[..|b.poolSizes|] == b.poolSizes
    ensures r.poolSizes[|b.poolSizes|] == PoolSize(descriptorType, count)
    ensures r.flags == b.flags && r.maxSets == b.maxSets
  {
    b.(poolSizes := b.poolSizes + [PoolSize(descriptorType, count)])
  }

  /** `build` via `KewDescriptorPool::new`: the pool is created with the
      builder's sizes, in order, its flags and its set limit. `handle` is the
      pool the driver created. */
  function Build(b: PoolBuilder, handle: Handle): (p: DescriptorPool)
    ensures p.handle == handle
    ensures p.info.poolSizes == b.poolSizes && p.info.flags == b.flags && p.info.maxSets == b.maxSets
  {
    DescriptorPool(handle, PoolCreateInfo(b.poolSizes, b.maxSets, b.flags))
  }

  /** The sizes a builder started with `maxSets` collects from a sequence of
      `add_pool_size` calls. */
  function AddAll(b: PoolBuilder, sizes: seq<PoolSize>): (r: PoolBuilder)
    decreases |sizes|
  {
    if sizes == [] then b
    else AddAll(AddPoolSize(b, sizes[0].descriptorType, sizes[0].count), sizes[1..])
  }

  /** A chain of `add_pool_size` calls on a new builder creates a pool with
      exactly those sizes, in call order, no flags and the requested set limit. */
  lemma {:induction false} ChainBuildsPool(maxSets: nat, sizes: seq<PoolSize>, handle: Handle)
    ensures Build(AddAll(NewBuilder(maxSets), sizes), handle).info == PoolCreateInfo(sizes, maxSets, 0)
  {
    AddAllAppends(NewBuilder(maxSets), sizes);
  }

  lemma {:induction false} AddAllAppends(b: PoolBuilder, sizes: seq<PoolSize>)
    ensures AddAll(b, sizes) == b.(poolSizes := b.poolSizes + sizes)
    decreases |sizes|
  {
    if sizes != [] {
      var b' := AddPoolSize(b, sizes[0].descriptorType, sizes[0].count);
      AddAllAppends(b', sizes[1..]);
      assert b'.poolSizes + sizes[1..] == b.poolSizes + sizes;
    }
  }

  /** VkDescriptorSetAllocateInfo */
  datatype SetAllocateInfo = SetAllocateInfo(pool: Handle, setLayouts: seq<Handle>)

  /** The allocation request of `allocate_descriptor_set`: one set of the given
      layout from this pool. */
  function AllocateInfo(p: DescriptorPool, layout: Handle): (r: SetAllocateInfo)
    ensures r.pool == p.handle && r.setLayouts == [layout]
  {
    SetAllocateInfo(p.handle, [layout])
  }

  /** `allocate_descriptor_set`: the first of the sets the driver hands back for
      `AllocateInfo(p, layout)` (`returned`, None on failure). None where the
      source panics on the failure. The driver returns one set per requested
      layout. */
  function AllocateDescriptorSet(p: DescriptorPool, layout: Handle, returned: Option<seq<Handle>>): (r: Option<Handle>)
    requires returned.Some? ==> |returned.value| == |AllocateInfo(p, layout).setLayouts|
    ensures r.Some? <==> returned.Some?
    ensures r.Some? ==> returned.value == [r.value]
  {
    if returned.Some? then Some(returned.value[0]) else None
  }
}

=== FILE: device.dfy ===
/** The logical-device helpers of src/core/device.rs: the memory-type search, the
    queue-family selection heuristic and the queue create infos derived from it. */
module Device {
  import opened Vk

  /** VK_MAX_MEMORY_TYPES: the length of the fixed `memory_types` array. */
  const MAX_MEMORY_TYPES: nat := 32

  /** VkPhysicalDeviceMemoryProperties, reduced to the property flags of each
      memory type; only the first `count` entries are meaningful. */
  datatype MemoryProperties = MemoryProperties(typeFlags: seq<bv32>, count: nat)

  /** What the driver guarantees of the table it reports. */
  predicate WellFormed(p: MemoryProperties) {
    |p.typeFlags| == MAX_MEMORY_TYPES && p.count <= MAX_MEMORY_TYPES
  }

  /** Bit `i` of `mask`, tested as `(1 << i) as u32 & mask != 0`. */
  predicate BitSet(mask: bv32, i: nat)
    requires i < 32
  {
    (1 as bv32 << i) & mask != 0
  }

  /** Memory type `i` is allowed by the resource and offers every requested flag. */
  predicate Suitable(p: MemoryProperties, typeBits: bv32, want: bv32, i: nat)
    requires WellFormed(p) && i < p.count
  {
    BitSet(typeBits, i) && Has(p.typeFlags[i], want)
  }

  /** The search of `find_memory_type` from index `i` on. */
  function FindFrom(p: MemoryProperties, typeBits: bv32, want: bv32, i: nat): (r: Option<nat>)
    requires WellFormed(p) && i <= p.count
    decreases p.count - i
    ensures r.Some? ==> i <= r.value < p.count && Suitable(p, typeBits, want, r.value)
    ensures r.Some? ==> forall j :: i <= j < r.value ==> !Suitable(p, typeBits, want, j)
    ensures r.None? <==> forall j :: i <= j < p.count ==> !Suitable(p, typeBits, want, j)
  {
    if i == p.count then None
    else if Suitable(p, typeBits, want, i) then Some(i)
    else FindFrom(p, typeBits, want, i + 1)
  }

  /** `find_memory_type`: the smallest suitable memory type index, or None when
      no valid index qualifies. */
  function FindMemoryType(p: MemoryProperties, typeBits: bv32, want: bv32): (r: Option<nat>)
    requires WellFormed(p)
    ensures r.Some? ==> r.value < p.count && BitSet(typeBits, r.value) && Has(p.typeFlags[r.value], want)
    ensures r.Some? ==> forall j :: 0 <= j < r.value ==> !Suitable(p, typeBits, want, j)
    ensures r.None? <==> forall j :: 0 <= j < p.count ==> !Suitable(p, typeBits, want, j)
  {
    FindFrom(p, typeBits, want, 0)
  }

  // ---------------------------------------------------------------------------
  // Queue-family selection

  /** The capability tests the heuristic applies to a family's queue flags. */
  datatype Role = Graphics | Compute | Transfer | ComputeOnly | DedicatedTransfer

  predicate Fits(role: Role, flags: bv32) {
    match role
    case Graphics => Has(flags, QUEUE_GRAPHICS)
    case Compute => Has(flags, QUEUE_COMPUTE)
    case Transfer => Has(flags, QUEUE_TRANSFER)
    case ComputeOnly => Has(flags, QUEUE_COMPUTE) && !Has(flags, QUEUE_GRAPHICS)
    // `!contains(GRAPHICS | COMPUTE)`: not both graphics and compute
    case DedicatedTransfer => Has(flags, QUEUE_TRANSFER) && !Has(flags, QUEUE_GRAPHICS | QUEUE_COMPUTE)
  }

  /** The first index below `n` where `s` holds. */
  function FirstTrue(s: seq<bool>, n: nat): (r: Option<nat>)
    requires n <= |s|
    ensures r.Some? ==> r.value < n
  {
    if n == 0 then None
    else
      var before := FirstTrue(s, n - 1);
      if before.Some? then before
      else if s[n - 1] then Some(n - 1)
      else None
  }

  /** FirstTrue finds the first index where `s` holds, and nothing exactly when
      `s` holds nowhere below `n`. */
  lemma {:induction false} FirstTrueMeaning(s: seq<bool>, n: nat)
    requires n <= |s|
    ensures FirstTrue(s, n).Some? ==>
      var k := FirstTrue(s, n).value;
      s[k] && forall j :: 0 <= j < k ==> !s[j]
    ensures FirstTrue(s, n).None? <==> forall j :: 0 <= j < n ==> !s[j]
  {
    if n > 0 {
      FirstTrueMeaning(s, n - 1);
    }
  }

  function RoleMask(families: seq<bv32>, role: Role): (m: seq<bool>)
    ensures |m| == |families|
    ensures forall i :: 0 <= i < |m| ==> m[i] == Fits(role, families[i])
  {
    seq(|families|, i requires 0 <= i < |families| => Fits(role, families[i]))
  }

  /** Families where the transfer preference can fire: a dedicated transfer family
      that is not the family where the compute preference fired (that iteration
      ends with `continue`). */
  function TransferPreferredMask(families: seq<bv32>): (m: seq<bool>)
    ensures |m| == |families|
  {
    seq(|families|, i requires 0 <= i < |families| =>
      Fits(DedicatedTransfer, families[i])
      && FirstTrue(RoleMask(families, ComputeOnly), i + 1) != Some(i))
  }

  /** The compute choice after `n` families: the first compute-without-graphics
      family if one was seen, else the first compute family. */
  function ComputeChoice(families: seq<bv32>, n: nat): Option<nat>
    requires n <= |families|
  {
    var preferred := FirstTrue(RoleMask(families, ComputeOnly), n);
    if preferred.Some? then preferred else FirstTrue(RoleMask(families, Compute), n)
  }

  /** The transfer choice after `n` families. */
  function TransferChoice(families: seq<bv32>, n: nat): Option<nat>
    requires n <= |families|
  {
    var preferred := FirstTrue(TransferPreferredMask(families), n);
    if preferred.Some? then preferred else FirstTrue(RoleMask(families, Transfer), n)
  }

  /** KewQueueIndices */
  datatype QueueIndices = QueueIndices(gfx: nat, cmp: nat, tfr: nat, prs: nat)

  /** What `KewQueueIndices::new` computes: None where it panics because one of
      the four indices was not found. */
  function QueueIndicesSpec(families: seq<bv32>, present: seq<bool>): Option<QueueIndices>
    requires |present| == |families|
  {
    var n := |families|;
    var gfx := FirstTrue(RoleMask(families, Graphics), n);
    var cmp := ComputeChoice(families, n);
    var tfr := TransferChoice(families, n);
    var prs := FirstTrue(present, n);
    if gfx.Some? && cmp.Some? && tfr.Some? && prs.Some?
    then Some(QueueIndices(gfx.value, cmp.value, tfr.value, prs.value))
    else None
  }

  /** One family of the pass for the compute choice: the first compute family
      is taken while none is held, and a compute family without graphics
      replaces it the first time one is seen. */
  lemma ComputeStep(families: seq<bv32>, i: nat, cmp: Option<nat>, preferred: bool)
    requires i < |families|
    requires cmp == ComputeChoice(families, i)
    requires preferred <==> FirstTrue(RoleMask(families, ComputeOnly), i).Some?
    ensures var f := families[i];
      var seen := if cmp.None? && Has(f, QUEUE_COMPUTE) then Some(i) else cmp;
      var fires := seen.Some? && !preferred && Has(f, QUEUE_COMPUTE) && !Has(f, QUEUE_GRAPHICS);
      && (fires <==> FirstTrue(RoleMask(families, ComputeOnly), i + 1) == Some(i))
      && (fires ==> ComputeChoice(families, i + 1) == Some(i))
      && (!fires ==> ComputeChoice(families, i + 1) == seen)
      && (preferred || fires <==> FirstTrue(RoleMask(families, ComputeOnly), i + 1).Some?)
  {
    assert RoleMask(families, ComputeOnly)[i] == Fits(ComputeOnly, families[i]);
    assert RoleMask(families, Compute)[i] == Fits(Compute, families[i]);
  }

  /** One family of the pass for the transfer choice: as for compute, except
      that the preference is skipped on the family where the compute
      preference fired (that iteration ends with `continue`). */
  lemma TransferStep(families: seq<bv32>, i: nat, tfr: Option<nat>, preferred: bool)
    requires i < |families|
    requires tfr == TransferChoice(families, i)
    requires preferred <==> FirstTrue(TransferPreferredMask(families), i).Some?
    ensures var f := families[i];
      var seen := if tfr.None? && Has(f, QUEUE_TRANSFER) then Some(i) else tfr;
      var fires := seen.Some? && !preferred && Has(f, QUEUE_TRANSFER) && !Has(f, QUEUE_GRAPHICS | QUEUE_COMPUTE)
                   && FirstTrue(RoleMask(families, ComputeOnly), i + 1) != Some(i);
      && (fires ==> TransferChoice(families, i + 1) == Some(i))
      && (!fires ==> TransferChoice(families, i + 1) == seen)
      && (preferred || fires <==> FirstTrue(TransferPreferredMask(families), i + 1).Some?)
  {
    assert TransferPreferredMask(families)[i]
        == (Fits(DedicatedTransfer, families[i]) && FirstTrue(RoleMask(families, ComputeOnly), i + 1) != Some(i));
    assert RoleMask(families, Transfer)[i] == Fits(Transfer, families[i]);
  }

  /** The running values of the pass in `KewQueueIndices::new`. */
  datatype Scan = Scan(gfx: Option<nat>, cmp: Option<nat>, cmpPreferred: bool,
                       tfr: Option<nat>, tfrPreferred: bool, prs: Option<nat>)

  /** One iteration of the pass over family `i` with queue flags `flags`: the
      first family of each kind is taken, then the compute preference and,
      unless that fired (`continue`), the transfer preference. */
  function Visit(sc: Scan, i: nat, flags: bv32, canPresent: bool): Scan {
    var gfx := if sc.gfx.None? && Has(flags, QUEUE_GRAPHICS) then Some(i) else sc.gfx;
    var cmp := if sc.cmp.None? && Has(flags, QUEUE_COMPUTE) then Some(i) else sc.cmp;
    var tfr := if sc.tfr.None? && Has(flags, QUEUE_TRANSFER) then Some(i) else sc.tfr;
    var prs := if sc.prs.None? && canPresent then Some(i) else sc.prs;
    if cmp.Some? && !sc.cmpPreferred && Has(flags, QUEUE_COMPUTE) && !Has(flags, QUEUE_GRAPHICS) then
      Scan(gfx, Some(i), true, tfr, sc.tfrPreferred, prs)
    else if tfr.Some? && !sc.tfrPreferred && Has(flags, QUEUE_TRANSFER) && !Has(flags, QUEUE_GRAPHICS | QUEUE_COMPUTE) then
      Scan(gfx, cmp, sc.cmpPreferred, Some(i), true, prs)
    else
      Scan(gfx, cmp, sc.cmpPreferred, tfr, sc.tfrPreferred, prs)
  }

  /** The running values after the first `n` families. */
  function ScanUpTo(families: seq<bv32>, present: seq<bool>, n: nat): Scan
    requires |present| == |families| && n <= |families|
  {
    if n == 0 then Scan(None, None, false, None, false, None)
    else Visit(ScanUpTo(families, present, n - 1), n - 1, families[n - 1], present[n - 1])
  }

  /** After `n` families the pass holds the first graphics family, the first
      presenting family and the compute and transfer choices with their
      preferences. */
  lemma {:induction false} ScanMeaning(families: seq<bv32>, present: seq<bool>, n: nat)
    requires |present| == |families| && n <= |families|
    ensures var sc := ScanUpTo(families, present, n);
      && sc.gfx == FirstTrue(RoleMask(families, Graphics), n)
      && sc.prs == FirstTrue(present, n)
      && sc.cmp == ComputeChoice(families, n)
      && (sc.cmpPreferred <==> FirstTrue(RoleMask(families, ComputeOnly), n).Some?)
      && sc.tfr == TransferChoice(families, n)
      && (sc.tfrPreferred <==> FirstTrue(TransferPreferredMask(families), n).Some?)
  {
    if n > 0 {
      var i := n - 1;
      ScanMeaning(families, present, i);
      var sc := ScanUpTo(families, present, i);
      ComputeStep(families, i, sc.cmp, sc.cmpPreferred);
      TransferStep(families, i, sc.tfr, sc.tfrPreferred);
      assert RoleMask(families, Graphics)[i] == Has(families[i], QUEUE_GRAPHICS);
    }
  }

  /** `KewQueueIndices::new`: one pass over the queue families reported by the
      driver (`families[i]` are the queue flags of family i, `present[i]` its
      surface support), with the two `continue`-guarded preferences. */
  method NewQueueIndices(families: seq<bv32>, present: seq<bool>) returns (r: Option<QueueIndices>)
    requires |present| == |families|
    ensures r == QueueIndicesSpec(families, present)
  {
    var gfx: Option<nat> := None;
    var cmp: Option<nat> := None;
    var cmpPreferred := false;
    var tfr: Option<nat> := None;
    var tfrPreferred := false;
    var prs: Option<nat> := None;
    for i := 0 to |families|
      invariant Scan(gfx, cmp, cmpPreferred, tfr, tfrPreferred, prs) == ScanUpTo(families, present, i)
    {
      var flags := families[i];
      if gfx.None? && Has(flags, QUEUE_GRAPHICS) {
        gfx := Some(i);
      }
      if cmp.None? && Has(flags, QUEUE_COMPUTE) {
        cmp := Some(i);
      }
      if tfr.None? && Has(flags, QUEUE_TRANSFER) {
        tfr := Some(i);
      }
      if prs.None? && present[i] {
        prs := Some(i);
      }
      // prefer a compute family without graphics
      if cmp.Some? && !cmpPreferred && Has(flags, QUEUE_COMPUTE) && !Has(flags, QUEUE_GRAPHICS) {
        cmp := Some(i);
        cmpPreferred := true;
        continue;
      }
      // prefer a transfer family that is not both graphics and compute
      if tfr.Some? && !tfrPreferred && Has(flags, QUEUE_TRANSFER)
         && !Has(flags, QUEUE_GRAPHICS | QUEUE_COMPUTE)
      {
        tfr := Some(i);
        tfrPreferred := true;
        continue;
      }
    }
    ScanMeaning(families, present, |families|);
    if gfx.Some? && cmp.Some? && tfr.Some? && prs.Some? {
      r := Some(QueueIndices(gfx.value, cmp.value, tfr.value, prs.value));
    } else {
      r := None;
    }
  }

  /** What the selected indices mean, family by family. */
  lemma QueueIndicesMeaning(families: seq<bv32>, present: seq<bool>)
    requires |present| == |families|
    ensures QueueIndicesSpec(families, present).Some? <==>
      (exists i :: 0 <= i < |families| && Fits(Graphics, families[i]))
      && (exists i :: 0 <= i < |families| && Fits(Compute, families[i]))
      && (exists i :: 0 <= i < |families| && Fits(Transfer, families[i]))
      && (exists i :: 0 <= i < |families| && present[i])
    ensures QueueIndicesSpec(families, present).Some? ==>
      var q := QueueIndicesSpec(families, present).value;
      && q.gfx < |families| && Fits(Graphics, families[q.gfx])
      && (forall j :: 0 <= j < q.gfx ==> !Fits(Graphics, families[j]))
      && q.prs < |families| && present[q.prs]
      && (forall j :: 0 <= j < q.prs ==> !present[j])
      && q.cmp < |families| && Fits(Compute, families[q.cmp])
      && q.tfr < |families| && Fits(Transfer, families[q.tfr])
  {
    var n := |families|;
    RoleFirstMeaning(families, Graphics);
    ComputeChoiceMeaning(families);
    TransferChoiceMeaning(families);
    FirstTrueMeaning(present, n);
  }

  /** The first family that fits `role`, if any family does. */
  lemma RoleFirstMeaning(families: seq<bv32>, role: Role)
    ensures FirstTrue(RoleMask(families, role), |families|).Some? <==>
      exists i :: 0 <= i < |families| && Fits(role, families[i])
    ensures FirstTrue(RoleMask(families, role), |families|).Some? ==>
      var k := FirstTrue(RoleMask(families, role), |families|).value;
      Fits(role, families[k]) && forall j :: 0 <= j < k ==> !Fits(role, families[j])
  {
    var mask := RoleMask(families, role);
    FirstTrueMeaning(mask, |families|);
    if FirstTrue(mask, |families|).None? {
      forall i | 0 <= i < |families| ensures !Fits(role, families[i]) {
        assert !mask[i];
      }
    }
  }

  /** The compute choice is a compute family, found exactly when one exists. */
  lemma ComputeChoiceMeaning(families: seq<bv32>)
    ensures ComputeChoice(families, |families|).Some? <==>
      exists i :: 0 <= i < |families| && Fits(Compute, families[i])
    ensures ComputeChoice(families, |families|).Some? ==>
      var k := ComputeChoice(families, |families|).value;
      k < |families| && Fits(Compute, families[k])
  {
    RoleFirstMeaning(families, ComputeOnly);
    RoleFirstMeaning(families, Compute);
  }

  /** The transfer choice is a transfer family, found exactly when one exists. */
  lemma TransferChoiceMeaning(families: seq<bv32>)
    ensures TransferChoice(families, |families|).Some? <==>
      exists i :: 0 <= i < |families| && Fits(Transfer, families[i])
    ensures TransferChoice(families, |families|).Some? ==>
      var k := TransferChoice(families, |families|).value;
      k < |families| && Fits(Transfer, families[k])
  {
    var preferred := TransferPreferredMask(families);
    FirstTrueMeaning(preferred, |families|);
    RoleFirstMeaning(families, Transfer);
    var tp := FirstTrue(preferred, |families|);
    if tp.Some? {
      assert preferred[tp.value];
      assert Fits(Transfer, families[tp.value]);
    }
  }

  /** The compute preference: when some family has compute without graphics, the
      compute index is the first such family. */
  lemma ComputePreference(families: seq<bv32>, present: seq<bool>, k: nat)
    requires |present| == |families|
    requires QueueIndicesSpec(families, present).Some?
    requires k < |families| && Fits(ComputeOnly, families[k])
    ensures var q := QueueIndicesSpec(families, present).value;
      Fits(ComputeOnly, families[q.cmp]) && q.cmp <= k
      && forall j :: 0 <= j < q.cmp ==> !Fits(ComputeOnly, families[j])
  {
    var mask := RoleMask(families, ComputeOnly);
    assert mask[k];
    FirstTrueMeaning(mask, |families|);
    var first := FirstTrue(mask, |families|);
    assert first.Some? && mask[first.value];
  }

  /** The transfer preference skips the family where the compute preference fired:
      with a graphics+compute+transfer family followed by a compute+transfer
      family, the transfer index stays on the first family. */
  lemma TransferSkipsComputeFamily()
    ensures QueueIndicesSpec([QUEUE_GRAPHICS | QUEUE_COMPUTE | QUEUE_TRANSFER, QUEUE_COMPUTE | QUEUE_TRANSFER], [true, true])
         == Some(QueueIndices(0, 1, 0, 0))
  {
    var fams: seq<bv32> := [QUEUE_GRAPHICS | QUEUE_COMPUTE | QUEUE_TRANSFER, QUEUE_COMPUTE | QUEUE_TRANSFER];
    assert Fits(ComputeOnly, fams[1]);
    assert !Fits(ComputeOnly, fams[0]);
    assert FirstTrue(RoleMask(fams, ComputeOnly), 2) == Some(1);
    assert !TransferPreferredMask(fams)[0];
    assert !TransferPreferredMask(fams)[1];
    assert RoleMask(fams, Graphics)[0];
    assert FirstTrue(RoleMask(fams, Graphics), 2) == Some(0);
    assert RoleMask(fams, Transfer)[0];
    assert FirstTrue(RoleMask(fams, Transfer), 2) == Some(0);
    assert FirstTrue([true, true], 2) == Some(0);
  }

  // ---------------------------------------------------------------------------
  // Queue create infos

  /** `Vec::dedup`: drop every element equal to the one before it. */
  function Dedup(s: seq<nat>): (r: seq<nat>)
    ensures |r| <= |s|
    ensures s != [] ==> r != [] && r[0] == s[0]
  {
    if |s| <= 1 then s
    else if s[0] == s[1] then Dedup(s[1..])
    else [s[0]] + Dedup(s[1..])
  }

  /** Dedup keeps every value, adds none, and leaves no two neighbours equal. */
  lemma {:induction false} DedupMeaning(s: seq<nat>)
    ensures forall x :: x in Dedup(s) <==> x in s
    ensures forall i :: 0 <= i < |Dedup(s)| - 1 ==> Dedup(s)[i] != Dedup(s)[i + 1]
  {
    if |s| > 1 {
      DedupMeaning(s[1..]);
      assert s == [s[0]] + s[1..];
    }
  }

  /** Whether `Vec::dedup` keeps index `i` of `s`: the first element, and every
      element that differs from the one before it. */
  predicate Kept(s: seq<nat>, i: nat)
    requires i < |s|
  {
    i == 0 || s[i] != s[i - 1]
  }

  /** The elements of `s` at the kept indices from `i` on, in index order. */
  function KeptFrom(s: seq<nat>, i: nat): (r: seq<nat>)
    requires i <= |s|
    ensures |r| <= |s| - i
    decreases |s| - i
  {
    if i == |s| then []
    else (if Kept(s, i) then [s[i]] else []) + KeptFrom(s, i + 1)
  }

  /** Dedup keeps exactly the elements at the kept indices, in order: the
      first element, and each element that differs from its predecessor. */
  lemma DedupKeeps(s: seq<nat>)
    ensures Dedup(s) == KeptFrom(s, 0)
  {
    if s != [] {
      DedupSuffix(s, 0);
    }
  }

  /** From index `i` on, Dedup keeps the element at `i` and then the kept
      elements after it. */
  lemma {:induction false} DedupSuffix(s: seq<nat>, i: nat)
    requires i < |s|
    ensures Dedup(s[i..]) == [s[i]] + KeptFrom(s, i + 1)
    decreases |s| - i
  {
    if i + 1 < |s| {
      DedupSuffix(s, i + 1);
      assert s[i..][1..] == s[i + 1..];
      assert s[i..][1] == s[i + 1];
    }
  }

  /** One VkDeviceQueueCreateInfo: a family and one queue (one priority). */
  datatype QueueCreateInfo = QueueCreateInfo(family: nat, queueCount: nat)

  /** The families of `get_queue_create_infos`: gfx, cmp, tfr with adjacent
      repeats removed; the present family is not among the inputs. */
  function QueueCreateFamilies(q: QueueIndices): (r: seq<nat>)
    ensures q.gfx == q.cmp && q.cmp == q.tfr ==> r == [q.gfx]
    ensures q.gfx == q.cmp && q.cmp != q.tfr ==> r == [q.gfx, q.tfr]
    ensures q.gfx != q.cmp && q.cmp == q.tfr ==> r == [q.gfx, q.cmp]
    ensures q.gfx != q.cmp && q.cmp != q.tfr ==> r == [q.gfx, q.cmp, q.tfr]
  {
    var s := [q.gfx, q.cmp, q.tfr];
    assert s[1..] == [q.cmp, q.tfr] && s[1..][1..] == [q.tfr];
    assert Dedup(s[1..]) == if q.cmp == q.tfr then [q.tfr] else [q.cmp, q.tfr];
    Dedup(s)
  }

  /** `get_queue_create_infos`, as written. */
  function QueueCreateInfos(q: QueueIndices): (r: seq<QueueCreateInfo>)
    ensures |r| == |QueueCreateFamilies(q)| && 1 <= |r| <= 3
    ensures forall i :: 0 <= i < |r| ==> r[i] == QueueCreateInfo(QueueCreateFamilies(q)[i], 1)
  {
    var fams := QueueCreateFamilies(q);
    seq(|fams|, i requires 0 <= i < |fams| => QueueCreateInfo(fams[i], 1))
  }

  /** The families requested are exactly gfx, cmp and tfr; neighbours differ. */
  lemma QueueCreateFamiliesMeaning(q: QueueIndices)
    ensures forall f :: f in QueueCreateFamilies(q) <==> f == q.gfx || f == q.cmp || f == q.tfr
    ensures forall i :: 0 <= i < |QueueCreateFamilies(q)| - 1 ==>
      QueueCreateFamilies(q)[i] != QueueCreateFamilies(q)[i + 1]
  {
    DedupMeaning([q.gfx, q.cmp, q.tfr]);
  }

  /** As written, a device whose first family has graphics, compute and transfer
      and whose second has compute only (a compute family need not report the
      transfer bit) yields queue indices (0, 1, 0, 0) and create infos for
      families [0, 1, 0]: family 0 twice, which the Vulkan specification forbids
      (queue family indices in VkDeviceCreateInfo must be unique). */
  lemma DuplicateQueueFamilyExample()
    ensures QueueIndicesSpec([QUEUE_GRAPHICS | QUEUE_COMPUTE | QUEUE_TRANSFER, QUEUE_COMPUTE], [true, false])
         == Some(QueueIndices(0, 1, 0, 0))
    ensures QueueCreateFamilies(QueueIndices(0, 1, 0, 0)) == [0, 1, 0]
  {
    var fams: seq<bv32> := [QUEUE_GRAPHICS | QUEUE_COMPUTE | QUEUE_TRANSFER, QUEUE_COMPUTE];
    assert Fits(ComputeOnly, fams[1]);
    assert !Fits(ComputeOnly, fams[0]);
    assert FirstTrue(RoleMask(fams, ComputeOnly), 2) == Some(1);
    assert !TransferPreferredMask(fams)[0];
    assert !TransferPreferredMask(fams)[1];
    assert FirstTrue(RoleMask(fams, Transfer), 2) == Some(0);
    assert FirstTrue(RoleMask(fams, Graphics), 2) == Some(0);
    assert FirstTrue([true, false], 2) == Some(0);
  }

  /** As written, the present family is never requested: with two
      graphics+compute+transfer families of which only the second can present,
      the create infos name family 0 only while the present queue is fetched
      from family 1. */
  lemma PresentFamilyNotRequestedExample()
    ensures QueueIndicesSpec([QUEUE_GRAPHICS | QUEUE_COMPUTE | QUEUE_TRANSFER, QUEUE_GRAPHICS | QUEUE_COMPUTE | QUEUE_TRANSFER], [false, true])
         == Some(QueueIndices(0, 0, 0, 1))
    ensures 1 !in QueueCreateFamilies(QueueIndices(0, 0, 0, 1))
  {
    var f: bv32 := QUEUE_GRAPHICS | QUEUE_COMPUTE | QUEUE_TRANSFER;
    var fams: seq<bv32> := [f, f];
    assert !Fits(ComputeOnly, f);
    assert !Fits(DedicatedTransfer, f);
    assert !TransferPreferredMask(fams)[0];
    assert !TransferPreferredMask(fams)[1];
    assert FirstTrue(TransferPreferredMask(fams), 2) == None;
    assert RoleMask(fams, Graphics)[0];
    assert FirstTrue(RoleMask(fams, Graphics), 2) == Some(0);
    assert RoleMask(fams, Compute)[0];
    assert FirstTrue(RoleMask(fams, Compute), 2) == Some(0);
    assert RoleMask(fams, Transfer)[0];
    assert FirstTrue(RoleMask(fams, Transfer), 2) == Some(0);
    assert FirstTrue([false, true], 2) == Some(1);
  }

  /** Distinct values of `s` in order of first occurrence. */
  function Unique(s: seq<nat>): (r: seq<nat>)
    decreases |s|
    ensures forall x :: x in r <==> x in s
    ensures forall i, j :: 0 <= i < j < |r| ==> r[i] != r[j]
    ensures s != [] ==> r != [] && r[0] == s[0]
  {
    if s == [] then []
    else
      var front := Unique(s[..|s| - 1]);
      assert forall x :: x in s <==> x in s[..|s| - 1] || x == s[|s| - 1];
      if s[|s| - 1] in front then front else front + [s[|s| - 1]]
  }

  /** The queue families the device must request so that every queue the core
      fetches (graphics, compute, transfer and present) exists: each family
      exactly once, graphics first. */
  function DeviceQueueFamilies(q: QueueIndices): (r: seq<nat>)
    ensures forall f :: f in r <==> f == q.gfx || f == q.cmp || f == q.tfr || f == q.prs
    ensures forall i, j :: 0 <= i < j < |r| ==> r[i] != r[j]
    ensures |r| > 0 && r[0] == q.gfx
  {
    Unique([q.gfx, q.cmp, q.tfr, q.prs])
  }

  /** The queue create infos of the logical device, one per distinct family. */
  function DeviceQueueCreateInfos(q: QueueIndices): (r: seq<QueueCreateInfo>)
    ensures forall f :: (exists i :: 0 <= i < |r| && r[i].family == f) <==> f in DeviceQueueFamilies(q)
    ensures forall i, j :: 0 <= i < j < |r| ==> r[i].family != r[j].family
    ensures forall i :: 0 <= i < |r| ==> r[i].queueCount == 1
  {
    var fams := DeviceQueueFamilies(q);
    var r := seq(|fams|, i requires 0 <= i < |fams| => QueueCreateInfo(fams[i], 1));
    assert forall f :: f in fams ==> exists i :: 0 <= i < |r| && r[i].family == f by {
      forall f | f in fams ensures exists i :: 0 <= i < |r| && r[i].family == f {
        var i :| 0 <= i < |fams| && fams[i] == f;
        assert r[i].family == f;
      }
    }
    r
  }
}

=== FILE: dock.dfy ===
/** The dock's frame pacer (src/dock/dock.rs): a renderer that records each
    frame into the command buffer of the current frame slot, drops the frame
    softly while a frame is open or the slot is still in flight, and moves to
    the next slot when it closes a frame. */
module Dock {
  import opened Vk
  import Swapchains
  import Commands
  import Pipelines

  /** The number of frame slots. */
  const N: nat := Swapchains.MAX_IN_FLIGHT_FRAMES

  // ---------------------------------------------------------------------------
  // The pacer as a state machine

  /** `current_frame_idx`, `current_image_idx` and `frame_opened`. */
  datatype PacerState = PacerState(frameIdx: nat, imageIdx: nat, frameOpen: bool)

  /** The state `DockRenderer::new` starts in. */
  const INITIAL: PacerState := PacerState(0, 0, false)

  /** How `open_frame` ends: with an open frame, with the soft error of a dropped
      frame, or in the `todo!()` that an acquire error reaches. A call of
      `render_scene` ends in one of these or, once its frame is open, in the
      panic of a failed fence reset, submit or present (`PresentPanic`). */
  datatype OpenResult = OpenedFrame | DroppedFrame | AcquirePanic | PresentPanic

  /** `open_frame` on the pacer state; `inUse` is `frame_in_use` of the current
      slot and `acquire` the driver's answer to the acquire. */
  function OpenStep(s: PacerState, inUse: bool, acquire: Swapchains.AcquireResult): (r: (PacerState, OpenResult))
    ensures r.1.DroppedFrame? <==> s.frameOpen || inUse
    ensures r.1.AcquirePanic? <==> !s.frameOpen && !inUse && acquire.AcquireFailed?
    ensures !r.1.PresentPanic?
    ensures !r.1.OpenedFrame? ==> r.0 == s
    ensures r.1.OpenedFrame? ==> r.0.frameOpen && r.0.frameIdx == s.frameIdx && r.0.imageIdx == acquire.index
  {
    if s.frameOpen || inUse then (s, DroppedFrame)
    else if acquire.AcquireFailed? then (s, AcquirePanic)
    else (s.(frameOpen := true, imageIdx := acquire.index), OpenedFrame)
  }

  /** `close_frame` on the pacer state, once `submit_and_present` has
      returned. */
  function CloseStep(s: PacerState): (r: PacerState)
    ensures !r.frameOpen && r.imageIdx == s.imageIdx
    ensures r.frameIdx < N
    ensures s.frameIdx < N ==> r.frameIdx == if s.frameIdx + 1 == N then 0 else s.frameIdx + 1
  {
    PacerState((s.frameIdx + 1) % N, s.imageIdx, false)
  }

  /** What the environment answers during one `render_scene` call: the slot's
      `frame_in_use`, the acquire, and the three calls of `submit_and_present`. */
  datatype FrameInput = FrameInput(inUse: bool, acquire: Swapchains.AcquireResult, present: Swapchains.PresentAnswers)

  /** `render_scene` on the pacer state: a frame that opens is closed once,
      unless `submit_and_present` panics, which leaves the frame open on its
      slot. */
  function RenderStep(s: PacerState, input: FrameInput): (r: (PacerState, OpenResult))
    ensures var step := OpenStep(s, input.inUse, input.acquire);
            r.1.PresentPanic? <==> step.1.OpenedFrame? && Swapchains.PresentStatus(input.present).Failed?
    ensures !r.1.PresentPanic? ==> r.1 == OpenStep(s, input.inUse, input.acquire).1
    ensures r.1.OpenedFrame? ==> r.0 == CloseStep(OpenStep(s, input.inUse, input.acquire).0)
    ensures r.1.PresentPanic? ==> r.0 == OpenStep(s, input.inUse, input.acquire).0
    ensures r.1.DroppedFrame? || r.1.AcquirePanic? ==> r.0 == s
  {
    var (t, o) := OpenStep(s, input.inUse, input.acquire);
    if !o.OpenedFrame? then (t, o)
    else if Swapchains.PresentStatus(input.present).Failed? then (t, PresentPanic)
    else (CloseStep(t), o)
  }

  /** Whether a result is one of the panics, which end the program. */
  predicate Panics(o: OpenResult) {
    o.AcquirePanic? || o.PresentPanic?
  }

  /** The state after a run of `render_scene` calls, up to a panic, and whether
      the run ended in one. */
  function Run(s: PacerState, inputs: seq<FrameInput>): (PacerState, bool)
    decreases |inputs|
  {
    if inputs == [] then (s, false)
    else
      var (t, o) := RenderStep(s, inputs[0]);
      if Panics(o) then (t, true) else Run(t, inputs[1..])
  }

  /** The slots of the frames a run renders and presents, in order. */
  function Slots(s: PacerState, inputs: seq<FrameInput>): seq<nat>
    decreases |inputs|
  {
    if inputs == [] then []
    else
      var (t, o) := RenderStep(s, inputs[0]);
      if Panics(o) then []
      else (if o.OpenedFrame? then [s.frameIdx] else []) + Slots(t, inputs[1..])
  }

  /** Rendered frames take the slots round robin from the starting slot: the
      k-th rendered frame uses slot (start + k) mod N, dropped frames do not
      advance the slot, and the run ends on the slot after the last rendered
      frame, with no frame open unless a failed submit or present left one
      open in its panic. */
  lemma {:induction false} RoundRobin(s: PacerState, inputs: seq<FrameInput>)
    requires s.frameIdx < N && !s.frameOpen
    ensures forall k :: 0 <= k < |Slots(s, inputs)| ==> Slots(s, inputs)[k] == (s.frameIdx + k) % N
    ensures Run(s, inputs).0.frameIdx == (s.frameIdx + |Slots(s, inputs)|) % N
    ensures Run(s, inputs).0.frameOpen ==> Run(s, inputs).1
    decreases |inputs|
  {
    if inputs != [] {
      var step := RenderStep(s, inputs[0]);
      var t, tail := step.0, inputs[1..];
      if step.1.OpenedFrame? {
        assert Slots(s, inputs) == [s.frameIdx] + Slots(t, tail);
        assert Run(s, inputs) == Run(t, tail);
        assert t.frameIdx == (s.frameIdx + 1) % N && !t.frameOpen;
        RoundRobin(t, tail);
        forall k | 0 <= k < |Slots(t, tail)|
          ensures Slots(t, tail)[k] == (s.frameIdx + 1 + k) % N
        {
          ShiftSlot(s.frameIdx + 1, k);
        }
        ShiftSlot(s.frameIdx + 1, |Slots(t, tail)|);
      } else if step.1.DroppedFrame? {
        assert Slots(s, inputs) == Slots(s, tail);
        assert Run(s, inputs) == Run(s, tail);
        RoundRobin(s, tail);
      }
    }
  }

  /** Taking the slot first and then counting on lands on the same slot. */
  lemma ShiftSlot(a: nat, k: nat)
    ensures (a % N + k) % N == (a + k) % N
  {
  }

  /** Consecutive rendered frames never share a slot. */
  lemma ConsecutiveSlotsDiffer(s: PacerState, inputs: seq<FrameInput>)
    requires s.frameIdx < N && !s.frameOpen
    ensures forall k :: 0 <= k < |Slots(s, inputs)| - 1 ==> Slots(s, inputs)[k] != Slots(s, inputs)[k + 1]
  {
    RoundRobin(s, inputs);
  }

  // ---------------------------------------------------------------------------
  // The renderer

  /** What `render_scene` records for image `imageIdx`: the render pass over
      that image's framebuffer with viewport and scissor, the scene's pipeline,
      a three-vertex draw, the end of the pass. */
  function SceneCmds(swapchain: Swapchains.Swapchain, imageIdx: nat, scene: Pipelines.GfxPipeline): (r: seq<Cmd>)
    requires imageIdx < |swapchain.frameBundles|
    reads swapchain
    ensures |r| == 6
    ensures r[0] == BeginRenderPass(swapchain.renderPass, swapchain.frameBundles[imageIdx].framebuffer, swapchain.extent)
    ensures r[1].SetViewport? && r[2].SetScissor?
    ensures r[3] == BindPipeline(GraphicsBindPoint, scene.pipeline)
    ensures r[4] == Draw(3, 1, 0, 0) && r[5] == EndRenderPass
  {
    swapchain.BeginRenderPassCmds(imageIdx) + Pipelines.GfxBindCmds(scene) + [Draw(3, 1, 0, 0)] + swapchain.EndRenderPassCmds()
  }

  /** DockRenderer: the swapchain, the graphics command pool with one command
      buffer per frame slot, and the pacer state. */
  class DockRenderer {
    const swapchain: Swapchains.Swapchain
    const pool: Commands.CommandPool
    const cmdBuffers: seq<Handle>
    var frameIdx: nat
    var imageIdx: nat
    var frameOpened: bool

    function State(): PacerState
      reads this
    {
      PacerState(frameIdx, imageIdx, frameOpened)
    }

    /** The slot index is in range; an open frame is being recorded into its
        slot's buffer, for an existing image, on a slot whose fence is
        signalled; every other slot's buffer can be begun again. */
    ghost predicate Valid()
      reads this, swapchain, pool
    {
      && swapchain.Valid() && !swapchain.destroyed && pool.Valid()
      && |cmdBuffers| == N && Commands.Distinct(cmdBuffers)
      && (forall i :: 0 <= i < N ==> cmdBuffers[i] in pool.states)
      && frameIdx < N
      && (frameOpened ==> && pool.states[cmdBuffers[frameIdx]].Recording?
                          && imageIdx < |swapchain.frameBundles|
                          && swapchain.signalled[frameIdx])
      && (forall i :: 0 <= i < N && !(frameOpened && i == frameIdx) ==>
            pool.states[cmdBuffers[i]].Initial? || pool.states[cmdBuffers[i]].Executable?)
    }

    /** `DockRenderer::new`: one primary buffer per slot from the pool, slot 0,
        image 0, no frame open. */
    constructor (swapchain: Swapchains.Swapchain, pool: Commands.CommandPool)
      requires swapchain.Valid() && !swapchain.destroyed && pool.Valid()
      modifies pool
      ensures Valid() && State() == INITIAL
      ensures this.swapchain == swapchain && this.pool == pool
      ensures pool.states == old(pool.states) + map h | h in cmdBuffers :: Commands.Initial
      ensures forall i :: 0 <= i < N ==> cmdBuffers[i] !in old(pool.states)
    {
      var buffers := pool.CreateCommandBuffers(N);
      this.swapchain := swapchain;
      this.pool := pool;
      cmdBuffers := buffers;
      frameIdx := 0;
      imageIdx := 0;
      frameOpened := false;
    }

    /** `open_frame`. A frame already open or a slot still in flight drops the
        frame and changes nothing. Otherwise an image is acquired with the
        slot's image-available semaphore; an error ends in the panic, a success
        opens the frame on the acquired image (a suboptimal swapchain is only
        reported) and begins the slot's buffer, which is returned. */
    method OpenFrame(acquire: Swapchains.AcquireResult) returns (result: OpenResult, cb: Option<Handle>)
      requires Valid()
      requires acquire.Acquired? ==> acquire.index < |swapchain.frameBundles|
      modifies this, swapchain`events, pool
      ensures Valid()
      ensures (State(), result) == OpenStep(old(State()), old(swapchain.FrameInUse(frameIdx)), acquire)
      ensures cb.Some? <==> result.OpenedFrame?
      ensures result.OpenedFrame? ==> cb.value == cmdBuffers[frameIdx]
      ensures result.DroppedFrame? ==> swapchain.events == old(swapchain.events)
      ensures !result.DroppedFrame? ==>
                swapchain.events == old(swapchain.events) + [Swapchains.AcquireNextImage(swapchain.handle, swapchain.imageAvailable[frameIdx])]
      ensures result.OpenedFrame? ==>
                && pool.states == old(pool.states)[cmdBuffers[frameIdx] := Commands.Recording(false)]
                && pool.recorded == old(pool.recorded)[cmdBuffers[frameIdx] := []]
      ensures !result.OpenedFrame? ==> pool.states == old(pool.states) && pool.recorded == old(pool.recorded)
      ensures pool.events == old(pool.events)
    {
      if frameOpened || swapchain.FrameInUse(frameIdx) {
        return DroppedFrame, None;
      }
      var acquired := swapchain.NextImageIdx(frameIdx, acquire);
      if acquired.AcquireFailed? {
        return AcquirePanic, None;
      }
      frameOpened := true;
      imageIdx := acquired.index;
      var buffer := cmdBuffers[frameIdx];
      pool.Begin(buffer, false);
      return OpenedFrame, Some(buffer);
    }

    /** `close_frame`: ends the buffer, submits it and presents the frame's image
        through the swapchain, closes the frame and moves to the next slot.
        `answers` are the driver's answers inside `submit_and_present`; when
        one of them fails, the call panics with the frame still open and the
        slot unchanged, and the renderer is no longer usable. */
    method CloseFrame(cb: Handle, answers: Swapchains.PresentAnswers) returns (status: Status)
      requires Valid() && frameOpened && cb == cmdBuffers[frameIdx]
      modifies this, swapchain`signalled, swapchain`events, pool`states, pool`events
      ensures status == Swapchains.PresentStatus(answers)
      ensures status.Ok? ==> Valid() && State() == CloseStep(old(State()))
      ensures status.Failed? ==> State() == old(State())
      ensures swapchain.Valid() && !swapchain.destroyed && pool.Valid()
      ensures pool.states == old(pool.states)[cb := Commands.Executable]
      ensures pool.events == old(pool.events) + [Commands.EndCommandBuffer(cb)]
      ensures swapchain.signalled == if answers.reset.Ok? then old(swapchain.signalled)[old(frameIdx) := false]
                                     else old(swapchain.signalled)
      ensures var f := old(frameIdx);
              swapchain.events == old(swapchain.events) +
                swapchain.SubmitPresentEvents(cb, old(imageIdx), f, pool.queue, answers)
    {
      pool.End(cb);
      status := swapchain.SubmitAndPresent(cb, imageIdx, frameIdx, pool.queue, answers);
      if status.Failed? {
        return;
      }
      frameOpened := false;
      frameIdx := (frameIdx + 1) % N;
    }

    /** `render_scene`: on an opened frame, records the render pass over the
        acquired image's framebuffer, the scene pipeline and a three-vertex
        draw, then closes the frame; on a dropped frame nothing happens. A
        panic inside `close_frame` ends in `PresentPanic`. */
    method RenderScene(scene: Pipelines.GfxPipeline, acquire: Swapchains.AcquireResult, answers: Swapchains.PresentAnswers)
      returns (result: OpenResult)
      requires Valid()
      requires acquire.Acquired? ==> acquire.index < |swapchain.frameBundles|
      modifies this, swapchain`signalled, swapchain`events, pool
      ensures !result.PresentPanic? ==> Valid()
      ensures (State(), result) == RenderStep(old(State()), FrameInput(old(swapchain.FrameInUse(frameIdx)), acquire, answers))
      ensures result.DroppedFrame? ==> swapchain.events == old(swapchain.events) && pool.states == old(pool.states)
      ensures result.OpenedFrame? || result.PresentPanic? ==>
                var f := old(frameIdx);
                var cb := cmdBuffers[f];
                && pool.recorded == old(pool.recorded)[cb := SceneCmds(swapchain, acquire.index, scene)]
                && pool.states == old(pool.states)[cb := Commands.Executable]
                && swapchain.signalled == (if answers.reset.Ok? then old(swapchain.signalled)[f := false]
                                           else old(swapchain.signalled))
                && swapchain.events == old(swapchain.events) + [Swapchains.AcquireNextImage(swapchain.handle, swapchain.imageAvailable[f])] +
                     swapchain.SubmitPresentEvents(cb, acquire.index, f, pool.queue, answers)
    {
      ghost var states0, recorded0, events0 := pool.states, pool.recorded, swapchain.events;
      var cb;
      result, cb := OpenFrame(acquire);
      if result.OpenedFrame? {
        ghost var f := frameIdx;
        ghost var acquired := swapchain.events;
        var status := FinishScene(cb.value, scene, answers);
        result := if status.Ok? then OpenedFrame else PresentPanic;
        assert pool.recorded == recorded0[cb.value := SceneCmds(swapchain, acquire.index, scene)];
        assert pool.states == states0[cb.value := Commands.Executable];
        assert swapchain.events == acquired + swapchain.SubmitPresentEvents(cb.value, acquire.index, f, pool.queue, answers);
      }
    }

    /** The rest of `render_scene` once a frame is open: the scene is recorded
        into the slot's buffer, which is ended and submitted, the image is
        presented, and the pacer moves to the next slot; a failure inside
        `submit_and_present` leaves the frame open. */
    method FinishScene(cb: Handle, scene: Pipelines.GfxPipeline, answers: Swapchains.PresentAnswers) returns (status: Status)
      requires Valid() && frameOpened && cb == cmdBuffers[frameIdx] && pool.recorded[cb] == []
      modifies this, swapchain`signalled, swapchain`events, pool
      ensures status == Swapchains.PresentStatus(answers)
      ensures status.Ok? ==> Valid() && State() == CloseStep(old(State()))
      ensures status.Failed? ==> State() == old(State())
      ensures pool.recorded == old(pool.recorded)[cb := SceneCmds(swapchain, old(imageIdx), scene)]
      ensures pool.states == old(pool.states)[cb := Commands.Executable]
      ensures swapchain.signalled == if answers.reset.Ok? then old(swapchain.signalled)[old(frameIdx) := false]
                                     else old(swapchain.signalled)
      ensures var f := old(frameIdx);
              swapchain.events == old(swapchain.events) +
                swapchain.SubmitPresentEvents(cb, old(imageIdx), f, pool.queue, answers)
    {
      RecordScene(cb, scene);
      status := CloseFrame(cb, answers);
    }

    /** The recording part of `render_scene` into the open frame's buffer. */
    method RecordScene(cb: Handle, scene: Pipelines.GfxPipeline)
      requires Valid() && frameOpened && cb == cmdBuffers[frameIdx] && pool.recorded[cb] == []
      modifies pool`recorded
      ensures Valid()
      ensures pool.recorded == old(pool.recorded)[cb := SceneCmds(swapchain, imageIdx, scene)]
    {
      ghost var before := pool.recorded;
      ghost var head := swapchain.BeginRenderPassCmds(imageIdx) + Pipelines.GfxBindCmds(scene);
      BeginAndBind(cb, scene);
      assert pool.recorded == before[cb := head];
      DrawAndEnd(cb);
      assert pool.recorded == before[cb := head + [Draw(3, 1, 0, 0)] + swapchain.EndRenderPassCmds()];
    }

    /** The render pass begun over the current image's framebuffer and the
        scene's pipeline bound, into the open frame's empty buffer. */
    method BeginAndBind(cb: Handle, scene: Pipelines.GfxPipeline)
      requires Valid() && frameOpened && cb == cmdBuffers[frameIdx] && pool.recorded[cb] == []
      modifies pool`recorded
      ensures Valid()
      ensures pool.recorded == old(pool.recorded)[cb := swapchain.BeginRenderPassCmds(imageIdx) + Pipelines.GfxBindCmds(scene)]
    {
      ghost var before := pool.recorded;
      ghost var begin := swapchain.BeginRenderPassCmds(imageIdx);
      assert [] + begin == begin;
      pool.Record(cb, swapchain.BeginRenderPassCmds(imageIdx));
      assert pool.recorded == before[cb := begin];
      pool.Record(cb, Pipelines.GfxBindCmds(scene));
    }

    /** The three-vertex draw and the end of the render pass, appended to the
        open frame's buffer. */
    method DrawAndEnd(cb: Handle)
      requires Valid() && frameOpened && cb == cmdBuffers[frameIdx]
      modifies pool`recorded
      ensures Valid()
      ensures pool.recorded == old(pool.recorded)[cb := old(pool.recorded)[cb] + [Draw(3, 1, 0, 0)] + swapchain.EndRenderPassCmds()]
    {
      ghost var before := pool.recorded;
      pool.Record(cb, [Draw(3, 1, 0, 0)]);
      assert pool.recorded == before[cb := before[cb] + [Draw(3, 1, 0, 0)]];
      pool.Record(cb, swapchain.EndRenderPassCmds());
    }

    /** The device finishing the work of slot `slot`, which signals its fence. */
    method DeviceCompletes(slot: nat)
      requires Valid() && slot < N
      modifies swapchain`signalled
      ensures Valid() && State() == old(State())
      ensures swapchain.signalled == old(swapchain.signalled)[slot := true]
    {
      swapchain.Complete(slot);
    }
  }
}

=== FILE: image.dfy ===
/** A two-dimensional image with its memory binding, its view and the layout the
    application believes it is in (src/core/image.rs). */
module Images {
  import opened Vk
  import Memory

  /** The subresource every image of the core uses: colour aspect, mip level 0,
      one level, array layer 0, one layer. */
  const COLOR_RANGE: SubresourceRange := SubresourceRange(ASPECT_COLOR, 0, 1, 0, 1)

  /** The one-layer subresource a copy addresses within `range`. */
  function CopyLayers(range: SubresourceRange): (r: SubresourceLayers)
    ensures r.aspectMask == range.aspectMask && r.mipLevel == range.baseMipLevel
    ensures r.baseArrayLayer == range.baseArrayLayer && r.layerCount == 1
  {
    SubresourceLayers(range.aspectMask, range.baseMipLevel, range.baseArrayLayer, 1)
  }

  /** The copy region of both directions of buffer/image copy: tightly packed
      texels from buffer offset 0, image offset (0, 0, 0), the whole extent. */
  function WholeImageRegion(extent: Extent3D, range: SubresourceRange): (r: BufferImageCopy)
    ensures r.bufferOffset == 0 && r.bufferRowLength == 0 && r.bufferImageHeight == 0
    ensures r.imageOffset == Offset3D(0, 0, 0) && r.imageExtent == extent
    ensures r.subresource == CopyLayers(range)
  {
    BufferImageCopy(0, 0, 0, CopyLayers(range), Offset3D(0, 0, 0), extent)
  }

  /** The bytes of an image of `extent` in RGBA8 texels, tightly packed: four
      bytes per texel, row after row. */
  function TexelBytes(extent: Extent3D): nat
  {
    extent.width * extent.height * extent.depth * 4
  }

  /** VkDescriptorImageInfo */
  datatype DescriptorImageInfo = DescriptorImageInfo(layout: ImageLayout, view: Handle, sampler: Handle)

  /** KewImage. `layout` is public in the source and callers assign it once the
      transition they recorded has been submitted. */
  class Image {
    const handle: Handle
    const format: Format
    const size: nat
    const extent: Extent3D
    const range: SubresourceRange
    var layout: ImageLayout
    var binding: Option<Memory.MemoryBinding>
    var view: Option<Handle>
    /** The texels the device holds for the image, row after row, four bytes
        each. The host never reads them directly; only the device's copies
        and dispatches change them. */
    var texels: seq<bv8>

    /** `KewImage::new`: a 2D image of `width` x `height` with one mip level and
        one layer, created in the undefined layout, unbound and without view. */
    constructor (handle: Handle, width: nat, height: nat, format: Format, size: nat)
      ensures this.handle == handle && this.format == format && this.size == size
      ensures extent == Extent3D(width, height, 1)
      ensures range == COLOR_RANGE
      ensures layout == Undefined && binding == None && view == None && texels == []
    {
      this.handle := handle;
      this.format := format;
      this.size := size;
      extent := Extent3D(width, height, 1);
      range := COLOR_RANGE;
      layout := Undefined;
      binding := None;
      view := None;
      texels := [];
    }

    /** `recreate_image_view`: stores the view the driver created for the image. */
    method RecreateImageView(newView: Handle)
      modifies this`view
      ensures view == Some(newView)
    {
      view := Some(newView);
    }

    /** `bind_memory`: only the first call binds; later calls are skipped. */
    method BindMemory(memory: Memory.Arena, offset: nat)
      modifies this`binding
      ensures old(binding).None? ==> binding == Some(Memory.MemoryBinding(memory, offset))
      ensures old(binding).Some? ==> binding == old(binding)
      ensures old(binding).None? ==> Offset() == Some(offset)
    {
      if binding.None? {
        binding := Some(Memory.MemoryBinding(memory, offset));
      }
    }

    /** `get_offset`: the bound offset; None where the source panics because the
        image is unbound. */
    function Offset(): (r: Option<nat>)
      reads this
      ensures r.Some? <==> binding.Some?
      ensures r.Some? ==> r.value == binding.value.offset
    {
      if binding.Some? then Some(binding.value.offset) else None
    }

    /** `get_memory_barrier`: a transition of the whole subresource from the
        layout the image is recorded in to `dst`, with no ownership transfer. */
    function MemoryBarrier(dst: ImageLayout, srcAccess: bv32, dstAccess: bv32): (b: ImageBarrier)
      reads this
      ensures b.oldLayout == layout && b.newLayout == dst
      ensures b.srcQueueFamily == QUEUE_FAMILY_IGNORED && b.dstQueueFamily == QUEUE_FAMILY_IGNORED
      ensures b.image == handle && b.range == range
      ensures b.srcAccess == srcAccess && b.dstAccess == dstAccess
    {
      ImageBarrier(layout, dst, QUEUE_FAMILY_IGNORED, QUEUE_FAMILY_IGNORED, handle, range, srcAccess, dstAccess)
    }

    /** `copy_to_buffer`: the command that copies the whole image, read in the
        layout it is recorded in, to `buffer` from offset 0. */
    function CopyToBufferCmd(buffer: Handle): (c: Cmd)
      reads this
      ensures c.CopyImageToBuffer? && c.srcImage == handle && c.dstBuffer == buffer
      ensures c.srcLayout == layout
      ensures c.region == WholeImageRegion(extent, range)
    {
      CopyImageToBuffer(handle, layout, buffer, WholeImageRegion(extent, range))
    }

    /** `descriptor_info`: the image's view, created with `newView` when there is
        none yet, in the recorded layout, with a null sampler. */
    method DescriptorInfo(newView: Handle) returns (info: DescriptorImageInfo)
      modifies this`view
      ensures old(view).Some? ==> view == old(view)
      ensures view.Some? && info.view == view.value
      ensures old(view).None? ==> view == Some(newView)
      ensures info.layout == layout && info.sampler == NULL_HANDLE
    {
      if view.None? {
        RecreateImageView(newView);
      }
      info := DescriptorImageInfo(layout, view.value, NULL_HANDLE);
    }
  }
}

=== FILE: img.dfy ===
/** The image compute application (src/apps/img.rs): an RGBA image is staged
    through a host-visible buffer into a storage image, a compute shader writes
    a second storage image from it, and the result is copied back through the
    same staging buffer. Decoding and saving the image file are outside the
    model (the decoded texels and the dimensions are inputs), and so is the
    shader program: what it computes from the source image is `process`. */
module Img {
  import opened Vk
  import Device
  import Memory
  import Buffers
  import Images
  import Commands
  import Descriptors
  import Shaders
  import Pipelines

  // ---------------------------------------------------------------------------
  // Shader configuration

  /** One storage image seen by the compute stage. */
  const STORAGE_IMAGE_BINDING: Shaders.BindingInfo := Shaders.BindingInfo(StorageImage, 1, STAGE_COMPUTE)

  /** IMG_SHADER_CONFIG: entry `main` of `./shader/img.spv`, the source image at
      binding 0 and the result image at binding 1. */
  const IMG_SHADER_CONFIG: Shaders.ShaderStageConfig :=
    Shaders.ShaderStageConfig("main", "./shader/img.spv", [STORAGE_IMAGE_BINDING, STORAGE_IMAGE_BINDING], STAGE_COMPUTE, 0)

  // ---------------------------------------------------------------------------
  // Byte size of the image

  /** `(img_dx * img_dy * 4) as u64` as written: both products are taken in
      `u32`, which wraps in a release build (a debug build panics instead), and
      only the wrapped value is widened. */
  function ImageByteSizeAsWritten(dx: nat, dy: nat): (r: nat)
    requires dx < U32_LIMIT && dy < U32_LIMIT
    ensures r < U32_LIMIT
    ensures r % 4 == 0
  {
    var texels := (dx * dy) % U32_LIMIT;
    WrapKeepsMultipleOf4(texels);
    (texels * 4) % U32_LIMIT
  }

  /** Wrapping at 2^32 keeps a multiple of 4 a multiple of 4. */
  lemma WrapKeepsMultipleOf4(w: nat)
    ensures (w * 4) % U32_LIMIT % 4 == 0
  {
    var q, r := (w * 4) / U32_LIMIT, (w * 4) % U32_LIMIT;
    assert w * 4 == q * U32_LIMIT + r;
    assert r == 4 * (w - q * 0x4000_0000);
  }

  /** The byte size of a tightly packed RGBA8 image: four bytes per texel,
      computed without overflow. The rest of the model uses this one. */
  function ImageByteSize(dx: nat, dy: nat): nat
  {
    Images.TexelBytes(Extent3D(dx, dy, 1))
  }

  /** A 32768 x 32768 image needs 4 GiB, but the `u32` product wraps to 0: the
      staging buffer would be created with size 0 and nothing copied. */
  lemma ByteSizeWrapsExample()
    ensures ImageByteSizeAsWritten(32768, 32768) == 0
    ensures ImageByteSize(32768, 32768) == U32_LIMIT
  {
  }

  /** Below 4 GiB the two computations agree; at and above it the one as
      written falls short of the image. */
  lemma ByteSizeAgreesBelowLimit(dx: nat, dy: nat)
    requires dx < U32_LIMIT && dy < U32_LIMIT
    ensures ImageByteSize(dx, dy) < U32_LIMIT ==> ImageByteSizeAsWritten(dx, dy) == ImageByteSize(dx, dy)
    ensures ImageByteSize(dx, dy) >= U32_LIMIT ==> ImageByteSizeAsWritten(dx, dy) < ImageByteSize(dx, dy)
  {
    var p := dx * dy;
    if p * 4 < U32_LIMIT {
      assert p < U32_LIMIT;
      assert p % U32_LIMIT == p;
    }
  }

  /** The size is a whole number of texels, never VK_WHOLE_SIZE. */
  lemma ByteSizeTexels(dx: nat, dy: nat)
    ensures ImageByteSize(dx, dy) % 4 == 0 && ImageByteSize(dx, dy) / 4 == dx * dy
    ensures ImageByteSize(dx, dy) != WHOLE_SIZE
    ensures 0 < dx && 0 < dy ==> 0 < ImageByteSize(dx, dy)
  {
    var p := dx * dy;
    assert ImageByteSize(dx, dy) == p * 4;
    if 0 < dx && 0 < dy {
      assert 0 < p by {
        Positive(dx, dy);
      }
    }
  }

  lemma Positive(x: nat, y: nat)
    requires 0 < x && 0 < y
    ensures 0 < x * y
  {
    assert x * y == (x - 1) * y + y;
  }

  // ---------------------------------------------------------------------------
  // Image layouts along the submitted work

  /** An image memory barrier over the whole colour subresource, without an
      ownership transfer. */
  function Transition(image: Handle, oldLayout: ImageLayout, newLayout: ImageLayout, srcAccess: bv32, dstAccess: bv32): ImageBarrier
  {
    ImageBarrier(oldLayout, newLayout, QUEUE_FAMILY_IGNORED, QUEUE_FAMILY_IGNORED, image, Images.COLOR_RANGE, srcAccess, dstAccess)
  }

  /** The layouts after `bs`, each of which must name the layout its image is
      in; None where one does not. PlanLayoutsConsistent applies it to the
      barriers of a whole run. */
  function ApplyBarriers(layouts: map<Handle, ImageLayout>, bs: seq<ImageBarrier>): (r: Option<map<Handle, ImageLayout>>)
    ensures r.Some? ==> r.value.Keys == layouts.Keys
    decreases |bs|
  {
    if bs == [] then Some(layouts)
    else if bs[0].image in layouts && layouts[bs[0].image] == bs[0].oldLayout then
      ApplyBarriers(layouts[bs[0].image := bs[0].newLayout], bs[1..])
    else None
  }

  /** The layouts after the commands `cmds` run in order, where every barrier
      names the layout its image is in and every copy the layout its image is
      in; None where a command does not. Other commands leave layouts alone.
      PlanLayoutsConsistent replays a whole run through it. */
  function Replay(layouts: map<Handle, ImageLayout>, cmds: seq<Cmd>): (r: Option<map<Handle, ImageLayout>>)
    ensures r.Some? ==> r.value.Keys == layouts.Keys
    decreases |cmds|
  {
    if cmds == [] then Some(layouts)
    else
      var next :=
        match cmds[0]
        case PipelineBarrier(_, _, _, bs) => ApplyBarriers(layouts, bs)
        case CopyBufferToImage(_, image, layout, _) =>
          if image in layouts && layouts[image] == layout then Some(layouts) else None
        case CopyImageToBuffer(image, layout, _, _) =>
          if image in layouts && layouts[image] == layout then Some(layouts) else None
        case _ => Some(layouts);
      if next.None? then None else Replay(next.value, cmds[1..])
  }

  /** The commands of every buffer of every batch, in submission order. */
  function Flatten(batches: seq<seq<seq<Cmd>>>): (r: seq<Cmd>)
    decreases |batches|
  {
    if batches == [] then [] else Concat(batches[0]) + Flatten(batches[1..])
  }

  function Concat(buffers: seq<seq<Cmd>>): (r: seq<Cmd>)
    decreases |buffers|
  {
    if buffers == [] then [] else buffers[0] + Concat(buffers[1..])
  }

  /** The handles the driver hands out during a run. */
  datatype ImgHandles = ImgHandles(
    stageBuffer: Handle, stageMemory: Handle,
    srcImage: Handle, srcMemory: Handle, srcView: Handle,
    dstImage: Handle, dstMemory: Handle, dstView: Handle,
    shaderModule: Handle, setLayout: Handle, descriptorPool: Handle,
    pipelineLayout: Handle, pipeline: Handle)

  /** The copy region of a whole `dx` x `dy` image. */
  function Region(dx: nat, dy: nat): BufferImageCopy
  {
    Images.WholeImageRegion(Extent3D(dx, dy, 1), Images.COLOR_RANGE)
  }

  /** The five batches `img_compute` submits, in order: the source image made a
      transfer destination (transfer queue), the staged texels copied into it
      (transfer queue), both images moved to the general layout (compute
      queue, two buffers), the bound dispatch over one invocation per texel
      (compute queue), and the result image copied to the staging buffer
      (transfer queue). */
  function ImgPlan(h: ImgHandles, descriptorSet: Handle, dx: nat, dy: nat): (r: seq<seq<seq<Cmd>>>)
    ensures |r| == 5
  {
    [TransferDstBatch(h), CopyInBatch(h, dx, dy), GeneralBatch(h), DispatchBatch(h, descriptorSet, dx, dy), CopyOutBatch(h, dx, dy)]
  }

  function TransferDstBatch(h: ImgHandles): seq<seq<Cmd>>
  {
    [[PipelineBarrier(TopOfPipe, TransferStage, true,
        [Transition(h.srcImage, Undefined, TransferDstOptimal, ACCESS_NONE, ACCESS_TRANSFER_WRITE)])]]
  }

  function CopyInBatch(h: ImgHandles, dx: nat, dy: nat): seq<seq<Cmd>>
  {
    [[CopyBufferToImage(h.stageBuffer, h.srcImage, TransferDstOptimal, Region(dx, dy))]]
  }

  function GeneralBatch(h: ImgHandles): seq<seq<Cmd>>
  {
    [[PipelineBarrier(TransferStage, ComputeShader, true,
        [Transition(h.srcImage, TransferDstOptimal, General, ACCESS_TRANSFER_WRITE, ACCESS_SHADER_READ)])],
     [PipelineBarrier(TopOfPipe, ComputeShader, true,
        [Transition(h.dstImage, Undefined, General, ACCESS_NONE, ACCESS_SHADER_WRITE)])]]
  }

  function DispatchBatch(h: ImgHandles, descriptorSet: Handle, dx: nat, dy: nat): seq<seq<Cmd>>
  {
    [Pipelines.CmpBindCmds(Pipelines.CmpPipeline(h.pipelineLayout, h.pipeline), descriptorSet) + [Dispatch(dx, dy, 1)]]
  }

  function CopyOutBatch(h: ImgHandles, dx: nat, dy: nat): seq<seq<Cmd>>
  {
    [[CopyImageToBuffer(h.dstImage, General, h.stageBuffer, Region(dx, dy))]]
  }

  /** Replaying two command lists one after the other is replaying their
      concatenation. */
  lemma {:induction false} ReplayAppend(m: map<Handle, ImageLayout>, a: seq<Cmd>, b: seq<Cmd>)
    ensures Replay(m, a + b) == if Replay(m, a).None? then None else Replay(Replay(m, a).value, b)
    decreases |a|
  {
    if a == [] {
      assert a + b == b;
    } else {
      assert (a + b)[0] == a[0] && (a + b)[1..] == a[1..] + b;
      var next :=
        match a[0]
        case PipelineBarrier(_, _, _, bs) => ApplyBarriers(m, bs)
        case CopyBufferToImage(_, image, layout, _) =>
          if image in m && m[image] == layout then Some(m) else None
        case CopyImageToBuffer(image, layout, _, _) =>
          if image in m && m[image] == layout then Some(m) else None
        case _ => Some(m);
      if next.Some? {
        ReplayAppend(next.value, a[1..], b);
      }
    }
  }

  lemma FlattenPlan(h: ImgHandles, descriptorSet: Handle, dx: nat, dy: nat)
    ensures Flatten(ImgPlan(h, descriptorSet, dx, dy)) ==
              Concat(ImgPlan(h, descriptorSet, dx, dy)[0]) + Concat(ImgPlan(h, descriptorSet, dx, dy)[1])
              + Concat(ImgPlan(h, descriptorSet, dx, dy)[2]) + Concat(ImgPlan(h, descriptorSet, dx, dy)[3])
              + Concat(ImgPlan(h, descriptorSet, dx, dy)[4])
  {
    var p := ImgPlan(h, descriptorSet, dx, dy);
    assert p[4..][1..] == [];
    assert Flatten(p[4..]) == Concat(p[4]);
    assert p[3..][1..] == p[4..];
    assert Flatten(p[3..]) == Concat(p[3]) + Flatten(p[4..]);
    assert p[2..][1..] == p[3..];
    assert Flatten(p[2..]) == Concat(p[2]) + Flatten(p[3..]);
    assert p[1..][1..] == p[2..];
    assert Flatten(p[1..]) == Concat(p[1]) + Flatten(p[2..]);
    assert Flatten(p) == Concat(p[0]) + Flatten(p[1..]);
  }

  lemma ConcatOne(c: seq<Cmd>)
    ensures Concat([c]) == c
  {
    assert [c][1..] == [];
  }

  lemma ConcatTwo(c: seq<Cmd>, e: seq<Cmd>)
    ensures Concat([c, e]) == c + e
  {
    assert [c, e][1..] == [e];
    ConcatOne(e);
  }

  /** Every barrier and copy `img_compute` submits names the layout its image
      is in at that point, starting from the undefined layout both images are
      created in, and both images end in the general layout. In particular the
      source image is never moved out of the undefined layout after its texels
      arrive, which would let the driver discard them. */
  lemma PlanLayoutsConsistent(h: ImgHandles, descriptorSet: Handle, dx: nat, dy: nat)
    requires h.srcImage != h.dstImage
    ensures Replay(map[h.srcImage := Undefined, h.dstImage := Undefined], Flatten(ImgPlan(h, descriptorSet, dx, dy)))
            == Some(map[h.srcImage := General, h.dstImage := General])
  {
    var p := ImgPlan(h, descriptorSet, dx, dy);
    var s, d := h.srcImage, h.dstImage;
    FlattenPlan(h, descriptorSet, dx, dy);
    var c0: seq<Cmd> := p[0][0];
    var c1: seq<Cmd> := p[1][0];
    var c2: seq<Cmd> := p[2][0] + p[2][1];
    var c3: seq<Cmd> := p[3][0];
    var c4: seq<Cmd> := p[4][0];
    ConcatOne(c0); ConcatOne(c1); ConcatOne(c3); ConcatOne(c4);
    ConcatTwo(p[2][0], p[2][1]);
    assert Flatten(p) == c0 + c1 + c2 + c3 + c4;

    var m0 := map[s := Undefined, d := Undefined];
    var m1 := m0[s := TransferDstOptimal];
    var m2 := m1[s := General];
    var m3 := m2[d := General];
    assert m3 == map[s := General, d := General];

    assert Replay(m0, c0) == Some(m1) by {
      assert ApplyBarriers(m0, [Transition(s, Undefined, TransferDstOptimal, ACCESS_NONE, ACCESS_TRANSFER_WRITE)]) == Some(m1);
      assert c0[1..] == [];
    }
    assert Replay(m1, c1) == Some(m1) by {
      assert c1[1..] == [];
    }
    assert Replay(m1, c2) == Some(m3) by {
      var b1 := [Transition(s, TransferDstOptimal, General, ACCESS_TRANSFER_WRITE, ACCESS_SHADER_READ)];
      var b2 := [Transition(d, Undefined, General, ACCESS_NONE, ACCESS_SHADER_WRITE)];
      assert c2 == [PipelineBarrier(TransferStage, ComputeShader, true, b1), PipelineBarrier(TopOfPipe, ComputeShader, true, b2)];
      assert ApplyBarriers(m1, b1) == Some(m2);
      assert ApplyBarriers(m2, b2) == Some(m3);
      assert c2[1..][1..] == [];
      assert Replay(m2, c2[1..]) == Some(m3);
    }
    assert Replay(m3, c3) == Some(m3) by {
      assert c3[1..][1..][1..] == [];
      assert Replay(m3, c3[1..][1..]) == Some(m3);
      assert Replay(m3, c3[1..]) == Some(m3);
    }
    assert Replay(m3, c4) == Some(m3) by {
      assert c4[1..] == [];
    }
    ReplayAppend(m0, c0, c1);
    ReplayAppend(m0, c0 + c1, c2);
    ReplayAppend(m0, c0 + c1 + c2, c3);
    ReplayAppend(m0, c0 + c1 + c2 + c3, c4);
  }

  // ---------------------------------------------------------------------------
  // Queue family ownership of the images

  /** What the "Queue Family Ownership Transfer" section of the Vulkan
      specification lets a queue family assume of an image created with
      exclusive sharing, as both images of the run are: the family that owns
      it (None before its first use), the family a release has handed it to,
      and whether its contents are defined. */
  datatype Holding = Holding(owner: Option<nat>, released: Option<nat>, defined: bool)

  /** The holdings of the tracked images, and whether the last copy out of an
      image read defined contents. */
  datatype Holdings = Holdings(images: map<Handle, Holding>, readBack: bool)

  /** Both images freshly created: unowned, contents undefined. */
  function Created(h: ImgHandles): Holdings
  {
    Pair(h, NEW_HOLDING, NEW_HOLDING)
  }

  /** `family` uses `image` without an ownership transfer. A family other
      than the owner takes ownership as of a new image: the contents become
      undefined. */
  function Use(m: map<Handle, Holding>, image: Handle, family: nat): (r: map<Handle, Holding>)
    ensures r.Keys == m.Keys
  {
    if image !in m then m
    else if m[image].owner.None? || m[image].owner == Some(family) then m[image := m[image].(owner := Some(family))]
    else m[image := Holding(Some(family), None, false)]
  }

  /** The barrier names two different queue families: it is the release or
      the acquire half of an ownership transfer. */
  predicate Transfers(b: ImageBarrier) {
    && b.srcQueueFamily != QUEUE_FAMILY_IGNORED && b.dstQueueFamily != QUEUE_FAMILY_IGNORED
    && b.srcQueueFamily != b.dstQueueFamily
  }

  /** The barrier `b` executed on a queue of `family`: a release by the owner,
      an acquire by the family released to, or else a plain use. A transition
      out of the undefined layout discards the contents. */
  function BarrierHolding(m: map<Handle, Holding>, b: ImageBarrier, family: nat): (r: map<Handle, Holding>)
    ensures r.Keys == m.Keys
  {
    var kept :=
      if b.image !in m then m
      else if Transfers(b) && family == b.srcQueueFamily && m[b.image].owner == Some(family) then
        m[b.image := m[b.image].(released := Some(b.dstQueueFamily))]
      else if Transfers(b) && family == b.dstQueueFamily && m[b.image].released == Some(family) then
        m[b.image := Holding(Some(family), None, m[b.image].defined)]
      else Use(m, b.image, family);
    if b.image in kept && b.oldLayout == Undefined then kept[b.image := kept[b.image].(defined := false)] else kept
  }

  function BarriersHolding(m: map<Handle, Holding>, bs: seq<ImageBarrier>, family: nat): (r: map<Handle, Holding>)
    ensures r.Keys == m.Keys
    decreases |bs|
  {
    if bs == [] then m else BarriersHolding(BarrierHolding(m, bs[0], family), bs[1..], family)
  }

  /** The command `cmd` executed on a queue of `family`. A copy into an image
      defines its contents from the staging buffer, which only the transfer
      queue touches; a copy out reads them; the dispatch reads the image bound
      at binding 0 (`src`) and defines the one at binding 1 (`dst`) from it. */
  function CmdHolding(st: Holdings, cmd: Cmd, family: nat, src: Handle, dst: Handle): Holdings
  {
    match cmd
    case PipelineBarrier(_, _, _, bs) => Holdings(BarriersHolding(st.images, bs, family), st.readBack)
    case CopyBufferToImage(_, image, _, _) =>
      var m := Use(st.images, image, family);
      Holdings(if image in m then m[image := m[image].(defined := true)] else m, st.readBack)
    case CopyImageToBuffer(image, _, _, _) =>
      var m := Use(st.images, image, family);
      Holdings(m, image in m && m[image].defined)
    case Dispatch(_, _, _) =>
      var m := Use(Use(st.images, src, family), dst, family);
      Holdings(if src in m && dst in m then m[dst := m[dst].(defined := m[src].defined)] else m, st.readBack)
    case _ => st
  }

  function CmdsHolding(st: Holdings, cmds: seq<Cmd>, family: nat, src: Handle, dst: Handle): Holdings
    decreases |cmds|
  {
    if cmds == [] then st else CmdsHolding(CmdHolding(st, cmds[0], family, src, dst), cmds[1..], family, src, dst)
  }

  /** The batches run in order, each on a queue of its family. */
  function BatchesHolding(st: Holdings, batches: seq<seq<seq<Cmd>>>, families: seq<nat>, src: Handle, dst: Handle): Holdings
    requires |families| == |batches|
    decreases |batches|
  {
    if batches == [] then st
    else BatchesHolding(CmdsHolding(st, Concat(batches[0]), families[0], src, dst), batches[1..], families[1..], src, dst)
  }

  /** Run as `img_compute` submits them, the first two batches and the last on
      the transfer family `t`, the middle two on the compute family `c`, the
      five batches of `plan` copy defined texels out of the result image. */
  predicate ContentsSurvive(plan: seq<seq<seq<Cmd>>>, h: ImgHandles, t: nat, c: nat)
    requires |plan| == 5
  {
    BatchesHolding(Created(h), plan, [t, t, c, c, t], h.srcImage, h.dstImage).readBack
  }

  /** Running five one-family batches in order is running each in turn. */
  lemma BatchesInTurn(st: Holdings, p: seq<seq<seq<Cmd>>>, t: nat, c: nat, src: Handle, dst: Handle)
    requires |p| == 5
    ensures BatchesHolding(st, p, [t, t, c, c, t], src, dst)
            == var s1 := CmdsHolding(st, Concat(p[0]), t, src, dst);
               var s2 := CmdsHolding(s1, Concat(p[1]), t, src, dst);
               var s3 := CmdsHolding(s2, Concat(p[2]), c, src, dst);
               var s4 := CmdsHolding(s3, Concat(p[3]), c, src, dst);
               CmdsHolding(s4, Concat(p[4]), t, src, dst)
  {    var f := [t, t, c, c, t];
    var s1 := CmdsHolding(st, Concat(p[0]), t, src, dst);
    var s2 := CmdsHolding(s1, Concat(p[1]), t, src, dst);
    var s3 := CmdsHolding(s2, Concat(p[2]), c, src, dst);
    var s4 := CmdsHolding(s3, Concat(p[3]), c, src, dst);
    var s5 := CmdsHolding(s4, Concat(p[4]), t, src, dst);
    assert p[4..][1..] == [] && f[4..][1..] == [];
    assert BatchesHolding(s4, p[4..], f[4..], src, dst) == s5;
    assert p[3..][1..] == p[4..] && f[3..][1..] == f[4..];
    assert BatchesHolding(s3, p[3..], f[3..], src, dst) == s5;
    assert p[2..][1..] == p[3..] && f[2..][1..] == f[3..];
    assert BatchesHolding(s2, p[2..], f[2..], src, dst) == s5;
    assert p[1..][1..] == p[2..] && f[1..][1..] == f[2..];
    assert BatchesHolding(s1, p[1..], f[1..], src, dst) == s5;
  }

  /** The holdings of the source and the result image, before any copy out. */
  function Pair(h: ImgHandles, src: Holding, dst: Holding): Holdings
  {
    Holdings(map[h.srcImage := src, h.dstImage := dst], false)
  }

  /** The unowned, undefined holding of a new image. */
  const NEW_HOLDING := Holding(None, None, false)

  lemma PairSrc(h: ImgHandles, src: Holding, dst: Holding, src': Holding)
    requires h.srcImage != h.dstImage
    ensures Pair(h, src, dst).images[h.srcImage := src'] == Pair(h, src', dst).images
  {
  }

  lemma PairDst(h: ImgHandles, src: Holding, dst: Holding, dst': Holding)
    requires h.srcImage != h.dstImage
    ensures Pair(h, src, dst).images[h.dstImage := dst'] == Pair(h, src, dst').images
  {
  }

  lemma BarriersOne(m: map<Handle, Holding>, b: ImageBarrier, family: nat)
    ensures BarriersHolding(m, [b], family) == BarrierHolding(m, b, family)
  {
    assert [b][1..] == [];
  }

  /** The owner using an image changes nothing. */
  lemma UseByOwner(m: map<Handle, Holding>, image: Handle, family: nat)
    requires image in m && m[image].owner == Some(family)
    ensures Use(m, image, family) == m
  {
    assert m[image := m[image]] == m;
  }

  lemma CmdsCons(st: Holdings, x: Cmd, rest: seq<Cmd>, family: nat, src: Handle, dst: Handle)
    ensures CmdsHolding(st, [x] + rest, family, src, dst) == CmdsHolding(CmdHolding(st, x, family, src, dst), rest, family, src, dst)
  {
    assert ([x] + rest)[1..] == rest;
  }

  lemma CmdsOne(st: Holdings, x: Cmd, family: nat, src: Handle, dst: Handle)
    ensures CmdsHolding(st, [x], family, src, dst) == CmdHolding(st, x, family, src, dst)
  {
    assert [x][1..] == [];
  }

  lemma CmdsTwo(st: Holdings, x: Cmd, y: Cmd, family: nat, src: Handle, dst: Handle)
    ensures CmdsHolding(st, [x, y], family, src, dst) == CmdHolding(CmdHolding(st, x, family, src, dst), y, family, src, dst)
  {
    assert [x, y][1..] == [y];
    CmdsOne(CmdHolding(st, x, family, src, dst), y, family, src, dst);
  }

  /** The first batch on the transfer family takes the source image. */
  lemma HoldTransferDst(h: ImgHandles, t: nat)
    requires h.srcImage != h.dstImage
    ensures CmdsHolding(Created(h), Concat(TransferDstBatch(h)), t, h.srcImage, h.dstImage)
            == Pair(h, Holding(Some(t), None, false), NEW_HOLDING)
  {
    var b := TransferDstBatch(h)[0][0];
    var taken := Holding(Some(t), None, false);
    ConcatOne([b]);
    CmdsOne(Created(h), b, t, h.srcImage, h.dstImage);
    BarriersOne(Created(h).images, b.barriers[0], t);
    PairSrc(h, NEW_HOLDING, NEW_HOLDING, taken);
    PairSrc(h, taken, NEW_HOLDING, taken);
  }

  /** The copy-in defines the source image's contents. */
  lemma HoldCopyIn(h: ImgHandles, dx: nat, dy: nat, t: nat)
    requires h.srcImage != h.dstImage
    ensures CmdsHolding(Pair(h, Holding(Some(t), None, false), NEW_HOLDING), Concat(CopyInBatch(h, dx, dy)), t, h.srcImage, h.dstImage)
            == Pair(h, Holding(Some(t), None, true), NEW_HOLDING)
  {
    var x := CopyInBatch(h, dx, dy)[0][0];
    ConcatOne([x]);
    CmdsOne(Pair(h, Holding(Some(t), None, false), NEW_HOLDING), x, t, h.srcImage, h.dstImage);
  }

  /** The GENERAL transitions on the compute family: without an ownership
      transfer the source image keeps its contents only if its owner was that
      family already; the result image is taken undefined. */
  lemma HoldGeneral(h: ImgHandles, t: nat, c: nat)
    requires h.srcImage != h.dstImage
    ensures CmdsHolding(Pair(h, Holding(Some(t), None, true), NEW_HOLDING), Concat(GeneralBatch(h)), c, h.srcImage, h.dstImage)
            == Pair(h, Holding(Some(c), None, t == c), Holding(Some(c), None, false))
  {    var g := GeneralBatch(h);
    var x, y := g[0][0], g[1][0];
    var a, a', e := Holding(Some(t), None, true), Holding(Some(c), None, t == c), Holding(Some(c), None, false);
    ConcatTwo([x], [y]);
    CmdsTwo(Pair(h, a, NEW_HOLDING), x, y, c, h.srcImage, h.dstImage);
    BarriersOne(Pair(h, a, NEW_HOLDING).images, x.barriers[0], c);
    PairSrc(h, a, NEW_HOLDING, a');
    BarriersOne(Pair(h, a', NEW_HOLDING).images, y.barriers[0], c);
    PairDst(h, a', NEW_HOLDING, e);
    PairDst(h, a', e, e);
  }

  /** The dispatch defines the result image from the source image. */
  lemma HoldDispatch(h: ImgHandles, descriptorSet: Handle, dx: nat, dy: nat, c: nat, defined: bool)
    requires h.srcImage != h.dstImage
    ensures CmdsHolding(Pair(h, Holding(Some(c), None, defined), Holding(Some(c), None, false)),
                        Concat(DispatchBatch(h, descriptorSet, dx, dy)), c, h.srcImage, h.dstImage)
            == Pair(h, Holding(Some(c), None, defined), Holding(Some(c), None, defined))
  {    var cmds := DispatchBatch(h, descriptorSet, dx, dy)[0];
    var a, b := Holding(Some(c), None, defined), Holding(Some(c), None, false);
    var st := Pair(h, a, b);
    ConcatOne(cmds);
    assert cmds == [cmds[0]] + ([cmds[1]] + [cmds[2]]);
    CmdsCons(st, cmds[0], [cmds[1]] + [cmds[2]], c, h.srcImage, h.dstImage);
    CmdsCons(st, cmds[1], [cmds[2]], c, h.srcImage, h.dstImage);
    CmdsOne(st, cmds[2], c, h.srcImage, h.dstImage);
    UseByOwner(st.images, h.srcImage, c);
    UseByOwner(st.images, h.dstImage, c);
    PairDst(h, a, b, a);
  }

  /** The copy-out on the transfer family reads defined texels only if the
      compute family is that family. */
  lemma HoldCopyOut(h: ImgHandles, dx: nat, dy: nat, t: nat, c: nat, defined: bool)
    requires h.srcImage != h.dstImage
    ensures CmdsHolding(Pair(h, Holding(Some(c), None, defined), Holding(Some(c), None, defined)),
                        Concat(CopyOutBatch(h, dx, dy)), t, h.srcImage, h.dstImage).readBack
            == (defined && t == c)
  {
    var x := CopyOutBatch(h, dx, dy)[0][0];
    ConcatOne([x]);
    CmdsOne(Pair(h, Holding(Some(c), None, defined), Holding(Some(c), None, defined)), x, t, h.srcImage, h.dstImage);
  }

  /** As written, the texels the run copies back are defined exactly when the
      transfer and the compute pools share a queue family. Every barrier of
      `img_compute` passes QUEUE_FAMILY_IGNORED for both families, so with two
      families the compute queue takes the source image after the copy-in,
      and the transfer queue the result image after the dispatch, without an
      ownership transfer: Vulkan leaves their contents undefined. */
  lemma OwnershipAsWritten(h: ImgHandles, descriptorSet: Handle, dx: nat, dy: nat, t: nat, c: nat)
    requires h.srcImage != h.dstImage
    ensures ContentsSurvive(ImgPlan(h, descriptorSet, dx, dy), h, t, c) <==> t == c
  {
    BatchesInTurn(Created(h), ImgPlan(h, descriptorSet, dx, dy), t, c, h.srcImage, h.dstImage);
    HoldTransferDst(h, t);
    HoldCopyIn(h, dx, dy, t);
    HoldGeneral(h, t, c);
    HoldDispatch(h, descriptorSet, dx, dy, c, t == c);
    HoldCopyOut(h, dx, dy, t, c, t == c);
  }

  /** One half of handing `image` from family `from` to family `to`: recorded
      on a queue of `from` it is the release, on a queue of `to` the acquire.
      Both halves name the same layouts. */
  function Handover(image: Handle, oldLayout: ImageLayout, newLayout: ImageLayout, srcAccess: bv32, dstAccess: bv32,
                    from: nat, to: nat): ImageBarrier
  {
    ImageBarrier(oldLayout, newLayout, from, to, image, Images.COLOR_RANGE, srcAccess, dstAccess)
  }

  /** The source image handed from the transfer family to the compute family,
      moving to GENERAL. */
  function SrcHandover(h: ImgHandles, t: nat, c: nat): ImageBarrier
  {
    Handover(h.srcImage, TransferDstOptimal, General, ACCESS_TRANSFER_WRITE, ACCESS_SHADER_READ, t, c)
  }

  /** The result image handed from the compute family back to the transfer
      family, staying GENERAL. */
  function DstHandover(h: ImgHandles, t: nat, c: nat): ImageBarrier
  {
    Handover(h.dstImage, General, General, ACCESS_SHADER_WRITE, ACCESS_TRANSFER_READ, c, t)
  }

  /** The copy-in, then the release of the source image. */
  function ReleasingCopyInBatch(h: ImgHandles, dx: nat, dy: nat, t: nat, c: nat): seq<seq<Cmd>>
  {
    [[CopyBufferToImage(h.stageBuffer, h.srcImage, TransferDstOptimal, Region(dx, dy)),
      PipelineBarrier(TransferStage, ComputeShader, true, [SrcHandover(h, t, c)])]]
  }

  /** The GENERAL transitions, the source image's being the acquire. */
  function AcquiringGeneralBatch(h: ImgHandles, t: nat, c: nat): seq<seq<Cmd>>
  {
    [[PipelineBarrier(TransferStage, ComputeShader, true, [SrcHandover(h, t, c)])],
     [PipelineBarrier(TopOfPipe, ComputeShader, true, [Transition(h.dstImage, Undefined, General, ACCESS_NONE, ACCESS_SHADER_WRITE)])]]
  }

  /** The bound dispatch, then the release of the result image. */
  function ReleasingDispatchBatch(h: ImgHandles, descriptorSet: Handle, dx: nat, dy: nat, t: nat, c: nat): seq<seq<Cmd>>
  {
    [Pipelines.CmpBindCmds(Pipelines.CmpPipeline(h.pipelineLayout, h.pipeline), descriptorSet)
       + [Dispatch(dx, dy, 1), PipelineBarrier(ComputeShader, TransferStage, true, [DstHandover(h, t, c)])]]
  }

  /** The acquire of the result image, then the copy-out. */
  function AcquiringCopyOutBatch(h: ImgHandles, dx: nat, dy: nat, t: nat, c: nat): seq<seq<Cmd>>
  {
    [[PipelineBarrier(ComputeShader, TransferStage, true, [DstHandover(h, t, c)]),
      CopyImageToBuffer(h.dstImage, General, h.stageBuffer, Region(dx, dy))]]
  }

  /** The batches with the ownership transfers the run needs when the transfer
      family `t` and the compute family `c` differ: the copy-in batch ends by
      releasing the source image to `c`, the GENERAL transition acquires it,
      the dispatch batch ends by releasing the result image to `t`, and the
      copy-out batch begins by acquiring it. With one family the batches are
      those of `img_compute`. */
  function OwnedPlan(h: ImgHandles, descriptorSet: Handle, dx: nat, dy: nat, t: nat, c: nat): (r: seq<seq<seq<Cmd>>>)
    ensures |r| == 5
    ensures t == c ==> r == ImgPlan(h, descriptorSet, dx, dy)
  {
    if t == c then ImgPlan(h, descriptorSet, dx, dy)
    else [TransferDstBatch(h), ReleasingCopyInBatch(h, dx, dy, t, c), AcquiringGeneralBatch(h, t, c),
          ReleasingDispatchBatch(h, descriptorSet, dx, dy, t, c), AcquiringCopyOutBatch(h, dx, dy, t, c)]
  }

  /** The copy-in defines the source image, and the release hands it to `c`. */
  lemma HoldReleasingCopyIn(h: ImgHandles, dx: nat, dy: nat, t: nat, c: nat)
    requires h.srcImage != h.dstImage && t != c && t < QUEUE_FAMILY_IGNORED && c < QUEUE_FAMILY_IGNORED
    ensures CmdsHolding(Pair(h, Holding(Some(t), None, false), NEW_HOLDING), Concat(ReleasingCopyInBatch(h, dx, dy, t, c)), t, h.srcImage, h.dstImage)
            == Pair(h, Holding(Some(t), Some(c), true), NEW_HOLDING)
  {    var b := ReleasingCopyInBatch(h, dx, dy, t, c)[0];
    var a0, a1, a2 := Holding(Some(t), None, false), Holding(Some(t), None, true), Holding(Some(t), Some(c), true);
    var st := Pair(h, a0, NEW_HOLDING);
    ConcatOne(b);
    CmdsTwo(st, b[0], b[1], t, h.srcImage, h.dstImage);
    UseByOwner(st.images, h.srcImage, t);
    PairSrc(h, a0, NEW_HOLDING, a1);
    BarriersOne(Pair(h, a1, NEW_HOLDING).images, b[1].barriers[0], t);
    PairSrc(h, a1, NEW_HOLDING, a2);
  }

  /** The compute family acquires the source image with its contents and
      takes the result image undefined. */
  lemma HoldAcquiringGeneral(h: ImgHandles, t: nat, c: nat)
    requires h.srcImage != h.dstImage && t != c && t < QUEUE_FAMILY_IGNORED && c < QUEUE_FAMILY_IGNORED
    ensures CmdsHolding(Pair(h, Holding(Some(t), Some(c), true), NEW_HOLDING), Concat(AcquiringGeneralBatch(h, t, c)), c, h.srcImage, h.dstImage)
            == Pair(h, Holding(Some(c), None, true), Holding(Some(c), None, false))
  {    var g := AcquiringGeneralBatch(h, t, c);
    var x, y := g[0][0], g[1][0];
    var a, a', e := Holding(Some(t), Some(c), true), Holding(Some(c), None, true), Holding(Some(c), None, false);
    ConcatTwo([x], [y]);
    CmdsTwo(Pair(h, a, NEW_HOLDING), x, y, c, h.srcImage, h.dstImage);
    BarriersOne(Pair(h, a, NEW_HOLDING).images, x.barriers[0], c);
    PairSrc(h, a, NEW_HOLDING, a');
    BarriersOne(Pair(h, a', NEW_HOLDING).images, y.barriers[0], c);
    PairDst(h, a', NEW_HOLDING, e);
    PairDst(h, a', e, e);
  }

  /** The dispatch defines the result image, and the release hands it to `t`. */
  lemma HoldReleasingDispatch(h: ImgHandles, descriptorSet: Handle, dx: nat, dy: nat, t: nat, c: nat)
    requires h.srcImage != h.dstImage && t != c && t < QUEUE_FAMILY_IGNORED && c < QUEUE_FAMILY_IGNORED
    ensures CmdsHolding(Pair(h, Holding(Some(c), None, true), Holding(Some(c), None, false)),
                        Concat(ReleasingDispatchBatch(h, descriptorSet, dx, dy, t, c)), c, h.srcImage, h.dstImage)
            == Pair(h, Holding(Some(c), None, true), Holding(Some(c), Some(t), true))
  {    var cmds := ReleasingDispatchBatch(h, descriptorSet, dx, dy, t, c)[0];
    var a, b, b', b'' := Holding(Some(c), None, true), Holding(Some(c), None, false), Holding(Some(c), None, true), Holding(Some(c), Some(t), true);
    var st := Pair(h, a, b);
    ConcatOne(cmds);
    assert cmds == [cmds[0]] + ([cmds[1]] + [cmds[2], cmds[3]]);
    CmdsCons(st, cmds[0], [cmds[1]] + [cmds[2], cmds[3]], c, h.srcImage, h.dstImage);
    CmdsCons(st, cmds[1], [cmds[2], cmds[3]], c, h.srcImage, h.dstImage);
    CmdsTwo(st, cmds[2], cmds[3], c, h.srcImage, h.dstImage);
    UseByOwner(st.images, h.srcImage, c);
    UseByOwner(st.images, h.dstImage, c);
    PairDst(h, a, b, b');
    BarriersOne(Pair(h, a, b').images, cmds[3].barriers[0], c);
    PairDst(h, a, b', b'');
  }

  /** The transfer family acquires the result image with its contents, and
      the copy-out reads them. */
  lemma HoldAcquiringCopyOut(h: ImgHandles, dx: nat, dy: nat, t: nat, c: nat)
    requires h.srcImage != h.dstImage && t != c && t < QUEUE_FAMILY_IGNORED && c < QUEUE_FAMILY_IGNORED
    ensures CmdsHolding(Pair(h, Holding(Some(c), None, true), Holding(Some(c), Some(t), true)),
                        Concat(AcquiringCopyOutBatch(h, dx, dy, t, c)), t, h.srcImage, h.dstImage).readBack
  {    var b := AcquiringCopyOutBatch(h, dx, dy, t, c)[0];
    var a, d, d' := Holding(Some(c), None, true), Holding(Some(c), Some(t), true), Holding(Some(t), None, true);
    var st := Pair(h, a, d);
    ConcatOne(b);
    CmdsTwo(st, b[0], b[1], t, h.srcImage, h.dstImage);
    BarriersOne(st.images, b[0].barriers[0], t);
    PairDst(h, a, d, d');
    UseByOwner(Pair(h, a, d').images, h.dstImage, t);
  }

  /** With the ownership transfers in place, the texels copied back are
      defined whatever the two families are. */
  lemma OwnershipTransferred(h: ImgHandles, descriptorSet: Handle, dx: nat, dy: nat, t: nat, c: nat)
    requires h.srcImage != h.dstImage
    requires t < QUEUE_FAMILY_IGNORED && c < QUEUE_FAMILY_IGNORED
    ensures ContentsSurvive(OwnedPlan(h, descriptorSet, dx, dy, t, c), h, t, c)
  {
    if t == c {
      OwnershipAsWritten(h, descriptorSet, dx, dy, t, c);
    } else {
      BatchesInTurn(Created(h), OwnedPlan(h, descriptorSet, dx, dy, t, c), t, c, h.srcImage, h.dstImage);
      HoldTransferDst(h, t);
      HoldReleasingCopyIn(h, dx, dy, t, c);
      HoldAcquiringGeneral(h, t, c);
      HoldReleasingDispatch(h, descriptorSet, dx, dy, t, c);
      HoldAcquiringCopyOut(h, dx, dy, t, c);
    }
  }

  // ---------------------------------------------------------------------------
  // The device's part

  /** Where a copy region starts in memory: the buffer's bound offset plus the
      region's own buffer offset. */
  function CopyBase(buffer: Buffers.Buffer, region: BufferImageCopy): nat
    reads buffer
    requires buffer.binding.Some?
  {
    buffer.binding.value.offset + region.bufferOffset
  }

  /** A region that covers the whole of an image of `extent` with tightly
      packed texels. */
  predicate WholePacked(region: BufferImageCopy, extent: Extent3D) {
    && region.bufferRowLength == 0 && region.bufferImageHeight == 0
    && region.imageOffset == Offset3D(0, 0, 0) && region.imageExtent == extent
  }

  /** The device executing the recorded buffer-to-image copy `cmd`: the image
      receives the bytes the region spans, from where the region starts in the
      memory the buffer is bound to. */
  method DeviceCopyIn(cmd: Cmd, buffer: Buffers.Buffer, memory: Memory.Arena, image: Images.Image)
    requires memory.Valid() && cmd.CopyBufferToImage?
    requires cmd.srcBuffer == buffer.handle && cmd.dstImage == image.handle
    requires WholePacked(cmd.region, image.extent)
    requires buffer.binding.Some? && buffer.binding.value.memory == memory
    requires CopyBase(buffer, cmd.region) + Images.TexelBytes(image.extent) <= memory.size
    modifies image`texels
    ensures image.texels == memory.data[CopyBase(buffer, cmd.region)..CopyBase(buffer, cmd.region) + Images.TexelBytes(image.extent)]
  {
    var at := CopyBase(buffer, cmd.region);
    image.texels := memory.data[at..at + Images.TexelBytes(image.extent)];
  }

  /** The device running the bound dispatch `cmds` over the set that `writes`
      fill: with one invocation per texel of the source image, bound through
      its view at binding 0, the result image bound at binding 1 receives
      `process` of the source's texels. */
  method DeviceDispatch(cmds: seq<Cmd>, writes: seq<Shaders.WriteDescriptorSet>, src: Images.Image, dst: Images.Image,
                        process: seq<bv8> -> seq<bv8>)
    requires |cmds| == 3 && cmds[1].BindDescriptorSets? && cmds[2].Dispatch?
    requires cmds[2].x == src.extent.width && cmds[2].y == src.extent.height && cmds[2].z == src.extent.depth
    requires |writes| == 2 && cmds[1].sets == [writes[0].dstSet] && writes[1].dstSet == writes[0].dstSet
    requires writes[0].dstBinding == 0 && writes[1].dstBinding == 1
    requires |writes[0].imageInfos| == 1 && |writes[1].imageInfos| == 1
    requires src.view == Some(writes[0].imageInfos[0].view) && dst.view == Some(writes[1].imageInfos[0].view)
    requires src != dst && dst.extent == src.extent
    modifies dst`texels
    ensures dst.texels == process(src.texels)
  {
    dst.texels := process(src.texels);
  }

  /** The device executing the recorded image-to-buffer copy `cmd`: the image's
      texels are stored where the region starts in the memory the buffer is
      bound to. */
  method DeviceCopyOut(cmd: Cmd, image: Images.Image, buffer: Buffers.Buffer, memory: Memory.Arena)
    requires memory.Valid() && cmd.CopyImageToBuffer?
    requires cmd.srcImage == image.handle && cmd.dstBuffer == buffer.handle
    requires WholePacked(cmd.region, image.extent) && |image.texels| == Images.TexelBytes(image.extent)
    requires buffer.binding.Some? && buffer.binding.value.memory == memory
    requires CopyBase(buffer, cmd.region) + |image.texels| <= memory.size
    modifies memory.data
    ensures memory.data[..] == Memory.Splice(old(memory.data[..]), CopyBase(buffer, cmd.region), image.texels)
  {
    memory.DeviceStore(CopyBase(buffer, cmd.region), image.texels);
  }

  // ---------------------------------------------------------------------------
  // The run

  /** How `img_compute` ends: the texels it saves, or the panic of an `unwrap`
      (the `step`-th submit, counting from 0, failing with `status`). */
  datatype ImgOutcome =
    | Saved(texels: seq<bv8>)
    | NoMemoryType
    | NoDescriptorSet
    | SubmitFailed(step: nat, status: Status)

  /** The driver's answers to the submit and to the idle wait of one
      `submit_command_buffers` call. */
  type Answer = (Status, Status)

  /** Both the submit and the wait succeeded. */
  predicate Answered(a: Answer) {
    a.0.Ok? && a.1.Ok?
  }

  /** The first `k` submits succeeded. */
  predicate OkUpTo(answers: seq<Answer>, k: nat) {
    forall i :: 0 <= i < k && i < |answers| ==> Answered(answers[i])
  }

  /** One more answered submit extends the succeeded prefix by one. */
  lemma OkUpToNext(answers: seq<Answer>, k: nat)
    requires k < |answers|
    ensures OkUpTo(answers, k + 1) <==> OkUpTo(answers, k) && Answered(answers[k])
  {
  }

  /** The staging memory and both image memories find a memory type. */
  predicate MemoryFound(props: Device.MemoryProperties, stageReqs: Memory.MemoryRequirements,
                        srcReqs: Memory.MemoryRequirements, dstReqs: Memory.MemoryRequirements)
    requires Device.WellFormed(props)
  {
    && Device.FindMemoryType(props, stageReqs.typeBits, MEMORY_HOST_VISIBLE | MEMORY_HOST_COHERENT).Some?
    && Device.FindMemoryType(props, srcReqs.typeBits, MEMORY_DEVICE_LOCAL).Some?
    && Device.FindMemoryType(props, dstReqs.typeBits, MEMORY_DEVICE_LOCAL).Some?
  }

  /** The descriptor writes of a run: both images, in the general layout,
      through their views, with a null sampler. */
  function ImgWrites(h: ImgHandles, descriptorSet: Handle): (r: seq<Shaders.WriteDescriptorSet>)
    ensures |r| == 2
    ensures forall i :: 0 <= i < 2 ==>
              && r[i].dstSet == descriptorSet && r[i].dstBinding == i
              && r[i].descriptorType == StorageImage && r[i].bufferInfos == []
              && |r[i].imageInfos| == 1 && r[i].imageInfos[0].layout == General
    ensures r[0].imageInfos[0].view == h.srcView && r[1].imageInfos[0].view == h.dstView
  {
    [Shaders.WriteDescriptorSet(descriptorSet, 0, StorageImage, [], [Images.DescriptorImageInfo(General, h.srcView, NULL_HANDLE)]),
     Shaders.WriteDescriptorSet(descriptorSet, 1, StorageImage, [], [Images.DescriptorImageInfo(General, h.dstView, NULL_HANDLE)])]
  }

  /** `img_compute`. The driver's part arrives as parameters: the memory
      properties and requirements, the created handles, the sets handed back
      and the answers to the five submits. The decoded image is `dx` x `dy`
      texels of four bytes, `raw`; the shader's effect is `process`, which
      yields an image of the same size. Vulkan forbids empty images, and the
      staging buffer's memory requirements cover at least its size. The
      device steps carry texels from one queue family to the next; the last
      postcondition says when Vulkan keeps them: only when both pools share a
      family, since the run transfers no ownership (`OwnershipAsWritten`). */
  method ImgCompute(props: Device.MemoryProperties, stageReqs: Memory.MemoryRequirements,
                    srcReqs: Memory.MemoryRequirements, dstReqs: Memory.MemoryRequirements,
                    cmpPool: Commands.CommandPool, tfrPool: Commands.CommandPool,
                    dx: nat, dy: nat, raw: seq<bv8>, process: seq<bv8> -> seq<bv8>,
                    h: ImgHandles, returnedSets: Option<seq<Handle>>, answers: seq<Answer>)
    returns (outcome: ImgOutcome, writes: seq<Shaders.WriteDescriptorSet>)
    requires Device.WellFormed(props) && cmpPool.Valid() && tfrPool.Valid() && cmpPool != tfrPool
    requires 0 < dx < U32_LIMIT && 0 < dy < U32_LIMIT && |raw| == ImageByteSize(dx, dy)
    requires ImageByteSize(dx, dy) <= stageReqs.size
    requires forall t: seq<bv8> :: |process(t)| == |t|
    requires h.srcImage != h.dstImage
    requires returnedSets.Some? ==> |returnedSets.value| == 1
    requires |answers| == 5
    modifies cmpPool, tfrPool
    ensures cmpPool.Valid() && tfrPool.Valid()
    ensures outcome.NoMemoryType? <==> !MemoryFound(props, stageReqs, srcReqs, dstReqs)
    ensures outcome.SubmitFailed? ==> outcome.step < 5 && OkUpTo(answers, outcome.step) && !Answered(answers[outcome.step])
    ensures outcome.NoDescriptorSet? <==> MemoryFound(props, stageReqs, srcReqs, dstReqs) && OkUpTo(answers, 3) && returnedSets.None?
    ensures outcome.Saved? <==> MemoryFound(props, stageReqs, srcReqs, dstReqs) && OkUpTo(answers, 5) && returnedSets.Some?
    ensures outcome.Saved? ==> outcome.texels == process(raw)
    ensures outcome.Saved? ==>
              && Commands.SubmittedBatches(tfrPool.events) == Commands.SubmittedBatches(old(tfrPool.events))
                   + [TransferDstBatch(h), CopyInBatch(h, dx, dy), CopyOutBatch(h, dx, dy)]
              && Commands.SubmittedBatches(cmpPool.events) == Commands.SubmittedBatches(old(cmpPool.events))
                   + [GeneralBatch(h), DispatchBatch(h, returnedSets.value[0], dx, dy)]
              && writes == ImgWrites(h, returnedSets.value[0])
    ensures outcome.Saved? ==>
              (ContentsSurvive(ImgPlan(h, returnedSets.value[0], dx, dy), h, tfrPool.queueFamily, cmpPool.queueFamily)
               <==> tfrPool.queueFamily == cmpPool.queueFamily)
  {
    writes := [];
    var stageMemory, stage, src, dst := AllocateAll(props, stageReqs, srcReqs, dstReqs, dx, dy, raw, h);
    if stageMemory.None? {
      return NoMemoryType, writes;
    }
    outcome, writes := Execute(tfrPool, cmpPool, stageMemory.value, stage, src, dst, dx, dy, raw, process, h, returnedSets, answers);
    if outcome.Saved? {
      OwnershipAsWritten(h, returnedSets.value[0], dx, dy, tfrPool.queueFamily, cmpPool.queueFamily);
    }
  }

  /** Lines 81-158 of `img_compute`, once the memory is in place: the five
      submits with the device's work between them, and the read. */
  method Execute(tfrPool: Commands.CommandPool, cmpPool: Commands.CommandPool, stageMemory: Memory.Arena,
                 stage: Buffers.Buffer, src: Images.Image, dst: Images.Image,
                 dx: nat, dy: nat, raw: seq<bv8>, process: seq<bv8> -> seq<bv8>,
                 h: ImgHandles, returnedSets: Option<seq<Handle>>, answers: seq<Answer>)
    returns (outcome: ImgOutcome, writes: seq<Shaders.WriteDescriptorSet>)
    requires cmpPool.Valid() && tfrPool.Valid() && cmpPool != tfrPool && src != dst
    requires |raw| == ImageByteSize(dx, dy) && |process(raw)| == |raw|
    requires returnedSets.Some? ==> |returnedSets.value| == 1
    requires |answers| == 5
    requires stage.handle == h.stageBuffer && src.handle == h.srcImage && dst.handle == h.dstImage
    requires src.extent == Extent3D(dx, dy, 1) && dst.extent == Extent3D(dx, dy, 1)
    requires src.range == Images.COLOR_RANGE && dst.range == Images.COLOR_RANGE
    requires src.layout == Undefined && dst.layout == Undefined && src.view == None && dst.view == None
    requires stageMemory.Valid() && stageMemory.mapped && stageMemory.mapOffset == 0
    requires stageMemory.mapLen == ImageByteSize(dx, dy) && stageMemory.data[..ImageByteSize(dx, dy)] == raw
    requires dst.Offset() == Some(0) && stage.binding == Some(Memory.MemoryBinding(stageMemory, 0))
    modifies cmpPool, tfrPool, src`layout, dst`layout, src`view, dst`view, src`texels, dst`texels, stageMemory.data
    ensures cmpPool.Valid() && tfrPool.Valid()
    ensures !outcome.NoMemoryType?
    ensures outcome.SubmitFailed? ==> outcome.step < 5 && OkUpTo(answers, outcome.step) && !Answered(answers[outcome.step])
    ensures outcome.NoDescriptorSet? <==> OkUpTo(answers, 3) && returnedSets.None?
    ensures outcome.Saved? <==> OkUpTo(answers, 5) && returnedSets.Some?
    ensures outcome.Saved? ==> outcome.texels == process(raw)
    ensures outcome.Saved? ==>
              && Commands.SubmittedBatches(tfrPool.events) == Commands.SubmittedBatches(old(tfrPool.events))
                   + [TransferDstBatch(h), CopyInBatch(h, dx, dy), CopyOutBatch(h, dx, dy)]
              && Commands.SubmittedBatches(cmpPool.events) == Commands.SubmittedBatches(old(cmpPool.events))
                   + [GeneralBatch(h), DispatchBatch(h, returnedSets.value[0], dx, dy)]
              && writes == ImgWrites(h, returnedSets.value[0])
  {
    var failure := Transitions(tfrPool, cmpPool, stage, src, dst, answers, dx, dy, h);
    if failure.Some? {
      return failure.value, [];
    }
    outcome, writes := DispatchAndCopyOut(tfrPool, cmpPool, stageMemory, stage, src, dst, dx, dy, raw,
                                          process, h, returnedSets, answers);
  }

  /** Lines 136-158 of `img_compute`, once the images are in the GENERAL
      layout: the device runs the copy-in submitted before, which fills the
      source image with the staged texels `raw`; then the dispatch, run by the
      device, and the copy-out. */
  method DispatchAndCopyOut(tfrPool: Commands.CommandPool, cmpPool: Commands.CommandPool, stageMemory: Memory.Arena,
                            stage: Buffers.Buffer, src: Images.Image, dst: Images.Image, dx: nat, dy: nat,
                            raw: seq<bv8>, process: seq<bv8> -> seq<bv8>,
                            h: ImgHandles, returnedSets: Option<seq<Handle>>, answers: seq<Answer>)
    returns (outcome: ImgOutcome, writes: seq<Shaders.WriteDescriptorSet>)
    requires cmpPool.Valid() && tfrPool.Valid() && cmpPool != tfrPool && src != dst
    requires |process(raw)| == |raw|
    requires returnedSets.Some? ==> |returnedSets.value| == 1
    requires |answers| == 5 && OkUpTo(answers, 3)
    requires stage.handle == h.stageBuffer && src.handle == h.srcImage && dst.handle == h.dstImage
    requires src.extent == Extent3D(dx, dy, 1) && dst.extent == Extent3D(dx, dy, 1) && dst.range == Images.COLOR_RANGE
    requires src.layout == General && dst.layout == General && src.view == None && dst.view == None
    requires stageMemory.Valid() && stageMemory.mapped && stageMemory.mapOffset == 0
    requires |raw| == stageMemory.mapLen == Images.TexelBytes(src.extent) && dst.Offset() == Some(0)
    requires stageMemory.data[..|raw|] == raw && stage.binding == Some(Memory.MemoryBinding(stageMemory, 0))
    modifies cmpPool, tfrPool, src`view, dst`view, src`texels, dst`texels, stageMemory.data
    ensures cmpPool.Valid() && tfrPool.Valid()
    ensures !outcome.NoMemoryType?
    ensures outcome.SubmitFailed? ==>
              3 <= outcome.step < 5 && OkUpTo(answers, outcome.step) && !Answered(answers[outcome.step])
    ensures outcome.NoDescriptorSet? <==> returnedSets.None?
    ensures outcome.Saved? <==> returnedSets.Some? && OkUpTo(answers, 5)
    ensures outcome.Saved? ==> outcome.texels == process(raw)
    ensures outcome.Saved? ==>
              && Commands.SubmittedBatches(tfrPool.events) == Commands.SubmittedBatches(old(tfrPool.events)) + [CopyOutBatch(h, dx, dy)]
              && Commands.SubmittedBatches(cmpPool.events) == Commands.SubmittedBatches(old(cmpPool.events))
                   + [DispatchBatch(h, returnedSets.value[0], dx, dy)]
              && writes == ImgWrites(h, returnedSets.value[0])
  {
    // The device ran the copy of the second submit.
    DeviceCopyIn(stage.CopyCmd(src), stage, stageMemory, src);
    var failure, descriptorSet;
    failure, descriptorSet, writes := BindAndDispatch(cmpPool, src, dst, answers, dx, dy, h, returnedSets);
    OkUpToNext(answers, 3);
    OkUpToNext(answers, 4);
    if failure.Some? {
      return failure.value, writes;
    }
    var texels := ProcessAndCopyOut(tfrPool, stageMemory, stage, src, dst, writes, dx, dy, process, h,
                                    returnedSets.value[0], answers[4]);
    if texels.None? {
      return SubmitFailed(4, Commands.SubmitResult(answers[4].0, answers[4].1)), writes;
    }
    outcome := Saved(texels.value);
  }

  /** Lines 148-158 of `img_compute` once the dispatch is submitted: the device
      runs it, and the result image is copied out and read back. */
  method ProcessAndCopyOut(tfrPool: Commands.CommandPool, stageMemory: Memory.Arena, stage: Buffers.Buffer,
                           src: Images.Image, dst: Images.Image, writes: seq<Shaders.WriteDescriptorSet>,
                           dx: nat, dy: nat, process: seq<bv8> -> seq<bv8>, h: ImgHandles, descriptorSet: Handle,
                           answer: Answer)
    returns (texels: Option<seq<bv8>>)
    requires tfrPool.Valid() && src != dst && |process(src.texels)| == |src.texels|
    requires writes == ImgWrites(h, descriptorSet)
    requires src.view == Some(h.srcView) && dst.view == Some(h.dstView)
    requires stage.handle == h.stageBuffer && dst.handle == h.dstImage
    requires src.extent == Extent3D(dx, dy, 1) && dst.extent == Extent3D(dx, dy, 1) && dst.range == Images.COLOR_RANGE
    requires dst.layout == General
    requires stageMemory.Valid() && stageMemory.mapped && stageMemory.mapOffset == 0
    requires |src.texels| == stageMemory.mapLen == Images.TexelBytes(src.extent) && dst.Offset() == Some(0)
    requires stage.binding == Some(Memory.MemoryBinding(stageMemory, 0))
    modifies tfrPool, dst`texels, stageMemory.data
    ensures tfrPool.Valid()
    ensures texels.Some? <==> Answered(answer)
    ensures texels.Some? ==> texels.value == process(src.texels)
    ensures Commands.SubmittedBatches(tfrPool.events) == Commands.SubmittedBatches(old(tfrPool.events)) + [CopyOutBatch(h, dx, dy)]
  {
    // The device ran the dispatch of the fourth submit.
    DeviceDispatch(DispatchBatch(h, descriptorSet, dx, dy)[0], writes, src, dst, process);
    texels := CopyOut(tfrPool, stageMemory, stage, dst, answer, h, dx, dy);
  }

  /** Lines 44-79 of `img_compute`: the staging buffer and its memory (see
      `StageIn`), both images with their memories, bound at 0. None where one
      of the three allocations finds no memory type. */
  method AllocateAll(props: Device.MemoryProperties, stageReqs: Memory.MemoryRequirements,
                     srcReqs: Memory.MemoryRequirements, dstReqs: Memory.MemoryRequirements,
                     dx: nat, dy: nat, raw: seq<bv8>, h: ImgHandles)
    returns (stageMemory: Option<Memory.Arena>, stage: Buffers.Buffer, src: Images.Image, dst: Images.Image)
    requires Device.WellFormed(props) && 0 < dx && 0 < dy
    requires |raw| == ImageByteSize(dx, dy) <= stageReqs.size
    ensures stageMemory.Some? <==> MemoryFound(props, stageReqs, srcReqs, dstReqs)
    ensures fresh(stage) && fresh(src) && fresh(dst) && src != dst
    ensures stage.handle == h.stageBuffer && src.handle == h.srcImage && dst.handle == h.dstImage
    ensures src.extent == Extent3D(dx, dy, 1) && dst.extent == Extent3D(dx, dy, 1)
    ensures src.range == Images.COLOR_RANGE && dst.range == Images.COLOR_RANGE
    ensures src.layout == Undefined && dst.layout == Undefined && src.view == None && dst.view == None
    ensures src.texels == [] && dst.texels == []
    ensures stageMemory.Some? ==> var memory, b := stageMemory.value, ImageByteSize(dx, dy);
              && fresh(memory) && fresh(memory.data) && memory.Valid() && memory.size == stageReqs.size
              && memory.mapped && memory.mapOffset == 0 && memory.mapLen == b
              && memory.data[..b] == raw && dst.Offset() == Some(0)
              && stage.binding == Some(Memory.MemoryBinding(memory, 0))
  {
    var stageFound, srcFound, dstFound;
    stageFound, stage := StageIn(props, stageReqs, dx, dy, raw, h);
    srcFound, src := ImageMalloc(props, srcReqs, dx, dy, h.srcImage, h.srcMemory);
    dstFound, dst := ImageMalloc(props, dstReqs, dx, dy, h.dstImage, h.dstMemory);
    if stageFound.None? || srcFound.None? || dstFound.None? {
      return None, stage, src, dst;
    }
    src.BindMemory(srcFound.value, 0);
    dst.BindMemory(dstFound.value, 0);
    stageMemory := stageFound;
  }

  /** Lines 81-134 of `img_compute`: the first three submits, each layout
      assigned only once the submit that performs the transition succeeded.
      The failure is the panic of the first submit that fails. */
  method Transitions(tfrPool: Commands.CommandPool, cmpPool: Commands.CommandPool, stage: Buffers.Buffer,
                     src: Images.Image, dst: Images.Image, answers: seq<Answer>, dx: nat, dy: nat, h: ImgHandles)
    returns (failure: Option<ImgOutcome>)
    requires tfrPool.Valid() && cmpPool.Valid() && tfrPool != cmpPool && src != dst && |answers| == 5
    requires stage.handle == h.stageBuffer && src.handle == h.srcImage && dst.handle == h.dstImage
    requires src.extent == Extent3D(dx, dy, 1) && src.range == Images.COLOR_RANGE && dst.range == Images.COLOR_RANGE
    requires src.layout == Undefined && dst.layout == Undefined
    modifies tfrPool, cmpPool, src`layout, dst`layout
    ensures tfrPool.Valid() && cmpPool.Valid()
    ensures failure.None? <==> OkUpTo(answers, 3)
    ensures failure.Some? ==> failure.value.SubmitFailed? && failure.value.step < 3
                              && OkUpTo(answers, failure.value.step) && !Answered(answers[failure.value.step])
    ensures failure.None? ==>
              && src.layout == General && dst.layout == General
              && Commands.SubmittedBatches(tfrPool.events) == Commands.SubmittedBatches(old(tfrPool.events)) + [TransferDstBatch(h), CopyInBatch(h, dx, dy)]
              && Commands.SubmittedBatches(cmpPool.events) == Commands.SubmittedBatches(old(cmpPool.events)) + [GeneralBatch(h)]
  {
    var barrier := src.MemoryBarrier(TransferDstOptimal, ACCESS_NONE, ACCESS_TRANSFER_WRITE);
    var r0 := SubmitOneShot(tfrPool, [PipelineBarrier(TopOfPipe, TransferStage, true, [barrier])], answers[0]);
    if r0.Failed? {
      return Some(SubmitFailed(0, r0));
    }
    src.layout := TransferDstOptimal;
    var r1 := CopyIn(stage, src, tfrPool, answers[1]);
    if r1.Failed? {
      return Some(SubmitFailed(1, r1));
    }
    var b0 := src.MemoryBarrier(General, ACCESS_TRANSFER_WRITE, ACCESS_SHADER_READ);
    var b1 := dst.MemoryBarrier(General, ACCESS_NONE, ACCESS_SHADER_WRITE);
    var r2 := SubmitPair(cmpPool, [PipelineBarrier(TransferStage, ComputeShader, true, [b0])],
                         [PipelineBarrier(TopOfPipe, ComputeShader, true, [b1])], answers[2]);
    if r2.Failed? {
      return Some(SubmitFailed(2, r2));
    }
    src.layout := General;
    dst.layout := General;
    failure := None;
  }

  /** Lines 136-151 of `img_compute`: the shader, a pool for two storage images
      and its set, both images written to the set, and the bound dispatch of
      one invocation per texel submitted. */
  method BindAndDispatch(cmpPool: Commands.CommandPool, src: Images.Image, dst: Images.Image, answers: seq<Answer>,
                         dx: nat, dy: nat, h: ImgHandles, returnedSets: Option<seq<Handle>>)
    returns (failure: Option<ImgOutcome>, descriptorSet: Option<Handle>, writes: seq<Shaders.WriteDescriptorSet>)
    requires cmpPool.Valid() && src != dst && |answers| == 5
    requires returnedSets.Some? ==> |returnedSets.value| == 1
    requires src.layout == General && dst.layout == General && src.view == None && dst.view == None
    modifies cmpPool, src`view, dst`view
    ensures cmpPool.Valid()
    ensures failure.None? <==> returnedSets.Some? && Answered(answers[3])
    ensures failure.Some? ==> (failure.value.NoDescriptorSet? <==> returnedSets.None?)
    ensures failure.Some? && returnedSets.Some? ==> failure.value == SubmitFailed(3, Commands.SubmitResult(answers[3].0, answers[3].1))
    ensures returnedSets.None? ==> cmpPool.events == old(cmpPool.events)
    ensures returnedSets.Some? ==> writes == ImgWrites(h, returnedSets.value[0])
    ensures returnedSets.Some? ==> src.view == Some(h.srcView) && dst.view == Some(h.dstView)
    ensures failure.None? ==>
              Commands.SubmittedBatches(cmpPool.events) == Commands.SubmittedBatches(old(cmpPool.events)) + [DispatchBatch(h, returnedSets.value[0], dx, dy)]
  {
    writes := [];
    var shader := Shaders.NewShader(IMG_SHADER_CONFIG, h.shaderModule, h.setLayout);
    var pool := Descriptors.Build(Descriptors.AddPoolSize(Descriptors.NewBuilder(1), StorageImage, 2), h.descriptorPool);
    descriptorSet := Descriptors.AllocateDescriptorSet(pool, shader.setLayout, returnedSets);
    if descriptorSet.None? {
      return Some(NoDescriptorSet), descriptorSet, writes;
    }
    var srcInfo := src.DescriptorInfo(h.srcView);
    var dstInfo := dst.DescriptorInfo(h.dstView);
    var w0 := Shaders.WriteImage(shader, 0, srcInfo, descriptorSet.value);
    var w1 := Shaders.WriteImage(shader, 1, dstInfo, descriptorSet.value);
    writes := [w0.value, w1.value];
    var pipeline := Pipelines.CmpPipeline(h.pipelineLayout, h.pipeline);
    var r3 := SubmitOneShot(cmpPool, Pipelines.CmpBindCmds(pipeline, descriptorSet.value) + [Dispatch(dx, dy, 1)], answers[3]);
    if r3.Failed? {
      return Some(SubmitFailed(3, r3)), descriptorSet, writes;
    }
    failure := None;
  }

  /** Lines 153-158 of `img_compute`: the result image copied to the staging
      buffer in one batch of the transfer pool and, once the device ran the
      copy, the staging memory read back at the result image's offset. None
      where the submit panics. */
  method CopyOut(tfrPool: Commands.CommandPool, stageMemory: Memory.Arena, stage: Buffers.Buffer, dst: Images.Image,
                 answer: Answer, h: ImgHandles, dx: nat, dy: nat) returns (texels: Option<seq<bv8>>)
    requires tfrPool.Valid() && stageMemory.Valid() && stageMemory.mapped && stageMemory.mapOffset == 0
    requires |dst.texels| == stageMemory.mapLen == Images.TexelBytes(dst.extent) && dst.Offset() == Some(0)
    requires stage.handle == h.stageBuffer && dst.handle == h.dstImage && dst.layout == General
    requires dst.extent == Extent3D(dx, dy, 1) && dst.range == Images.COLOR_RANGE
    requires stage.binding == Some(Memory.MemoryBinding(stageMemory, 0))
    modifies tfrPool, stageMemory.data
    ensures tfrPool.Valid()
    ensures texels.Some? <==> answer.0.Ok? && answer.1.Ok?
    ensures texels.Some? ==> texels.value == dst.texels
    ensures Commands.SubmittedBatches(tfrPool.events) == Commands.SubmittedBatches(old(tfrPool.events)) + [CopyOutBatch(h, dx, dy)]
  {
    var copy := dst.CopyToBufferCmd(stage.handle);
    var r4 := SubmitOneShot(tfrPool, [copy], answer);
    if r4.Failed? {
      return None;
    }
    // The device ran the copy.
    DeviceCopyOut(copy, dst, stage, stageMemory);
    var back := stageMemory.Read(|dst.texels|, dst.Offset().value);
    assert back.value == stageMemory.data[..|dst.texels|];
    texels := back;
  }

  /** `image_malloc`: an image of `dx` x `dy` RGBA8 texels, created undefined,
      and device-local memory of the size the image requires (None where the
      `unwrap` panics). The memory's first contents play no part in the run
      and are taken as zeros. */
  method ImageMalloc(props: Device.MemoryProperties, reqs: Memory.MemoryRequirements, dx: nat, dy: nat,
                     imageHandle: Handle, memoryHandle: Handle)
    returns (memory: Option<Memory.Arena>, image: Images.Image)
    requires Device.WellFormed(props)
    ensures fresh(image) && image.handle == imageHandle && image.extent == Extent3D(dx, dy, 1)
    ensures image.format == R8G8B8A8Unorm && image.size == ImageByteSize(dx, dy) && image.range == Images.COLOR_RANGE
    ensures image.layout == Undefined && image.binding == None && image.view == None && image.texels == []
    ensures memory.Some? <==> Device.FindMemoryType(props, reqs.typeBits, MEMORY_DEVICE_LOCAL).Some?
    ensures memory.Some? ==> fresh(memory.value) && memory.value.size == reqs.size && memory.value.handle == memoryHandle
  {
    image := new Images.Image(imageHandle, dx, dy, R8G8B8A8Unorm, ImageByteSize(dx, dy));
    memory := Memory.Allocate(props, reqs, MEMORY_DEVICE_LOCAL, memoryHandle, seq(reqs.size, _ => 0));
  }

  /** Lines 44-62 of `img_compute`: the staging buffer, its host-visible memory
      of the size the buffer requires, bound at 0, the image's bytes mapped
      from 0 and copied in. */
  method StageIn(props: Device.MemoryProperties, reqs: Memory.MemoryRequirements, dx: nat, dy: nat,
                 raw: seq<bv8>, h: ImgHandles)
    returns (found: Option<Memory.Arena>, stage: Buffers.Buffer)
    requires Device.WellFormed(props) && 0 < dx && 0 < dy
    requires |raw| == ImageByteSize(dx, dy) <= reqs.size
    ensures fresh(stage) && stage.handle == h.stageBuffer && stage.size == ImageByteSize(dx, dy)
    ensures found.Some? <==> Device.FindMemoryType(props, reqs.typeBits, MEMORY_HOST_VISIBLE | MEMORY_HOST_COHERENT).Some?
    ensures found.Some? ==> var memory, b := found.value, ImageByteSize(dx, dy);
              && fresh(memory) && fresh(memory.data) && memory.Valid() && memory.size == reqs.size
              && memory.mapped && memory.mapOffset == 0 && memory.mapLen == b
              && memory.data[..b] == raw && stage.binding == Some(Memory.MemoryBinding(memory, 0))
  {
    var b := ImageByteSize(dx, dy);
    ByteSizeTexels(dx, dy);
    stage := new Buffers.Buffer(h.stageBuffer, b);
    found := Memory.Allocate(props, reqs, MEMORY_HOST_VISIBLE | MEMORY_HOST_COHERENT, h.stageMemory, seq(reqs.size, _ => 0));
    if found.None? {
      return;
    }
    var memory := found.value;
    stage.BindMemory(memory, 0);
    memory.Map(b, 0);
    var written := memory.Write(raw, b, 0);
    assert memory.data[..b] == raw;
  }

  /** A new one-shot buffer of `pool` with `cmds` recorded, submitted alone. */
  method SubmitOneShot(pool: Commands.CommandPool, cmds: seq<Cmd>, answer: Answer) returns (result: Status)
    requires pool.Valid()
    modifies pool
    ensures pool.Valid()
    ensures result == Commands.SubmitResult(answer.0, answer.1)
    ensures Commands.SubmittedBatches(pool.events) == Commands.SubmittedBatches(old(pool.events)) + [[cmds]]
  {
    ghost var before := pool.events;
    var cb := pool.GetCommandBuffer();
    pool.Record(cb, cmds);
    assert pool.recorded[cb] == cmds;
    assert pool.Contents([cb]) == [cmds];
    result := pool.SubmitCommandBuffers([cb], answer.0, answer.1);
    ghost var submitted := Commands.SubmitEvents([cb], [cmds], answer.0, answer.1);
    assert pool.events == before + submitted;
    Commands.BatchesAppend(before, submitted);
    Commands.SubmitEventsOneBatch([cb], [cmds], answer.0, answer.1);
  }

  /** Two new one-shot buffers of `pool`, with `cmds0` and `cmds1` recorded,
      submitted together in that order. */
  method SubmitPair(pool: Commands.CommandPool, cmds0: seq<Cmd>, cmds1: seq<Cmd>, answer: Answer) returns (result: Status)
    requires pool.Valid()
    modifies pool
    ensures pool.Valid()
    ensures result == Commands.SubmitResult(answer.0, answer.1)
    ensures Commands.SubmittedBatches(pool.events) == Commands.SubmittedBatches(old(pool.events)) + [[cmds0, cmds1]]
  {
    ghost var before := pool.events;
    var c0, c1 := RecordPair(pool, cmds0, cmds1);
    result := pool.SubmitCommandBuffers([c0, c1], answer.0, answer.1);
    ghost var submitted := Commands.SubmitEvents([c0, c1], [cmds0, cmds1], answer.0, answer.1);
    assert pool.events == before + submitted;
    Commands.BatchesAppend(before, submitted);
    Commands.SubmitEventsOneBatch([c0, c1], [cmds0, cmds1], answer.0, answer.1);
  }

  /** Two new one-shot buffers of `pool`, recording `cmds0` and `cmds1`. */
  method RecordPair(pool: Commands.CommandPool, cmds0: seq<Cmd>, cmds1: seq<Cmd>) returns (c0: Handle, c1: Handle)
    requires pool.Valid()
    modifies pool
    ensures pool.Valid() && pool.events == old(pool.events)
    ensures Commands.Distinct([c0, c1])
    ensures c0 in pool.states && pool.states[c0].Recording? && c1 in pool.states && pool.states[c1].Recording?
    ensures pool.Contents([c0, c1]) == [cmds0, cmds1]
  {
    c0 := pool.GetCommandBuffer();
    pool.Record(c0, cmds0);
    assert pool.recorded[c0] == cmds0;
    c1 := pool.GetCommandBuffer();
    pool.Record(c1, cmds1);
    assert pool.recorded[c1] == cmds1;
  }

  /** `stage_buffer.copy_to_image(&src_img, tfr_cmd_pool)`, as one batch. */
  method CopyIn(stage: Buffers.Buffer, image: Images.Image, pool: Commands.CommandPool, answer: Answer) returns (result: Status)
    requires pool.Valid()
    modifies pool
    ensures pool.Valid()
    ensures result.Ok? <==> answer.0.Ok? && answer.1.Ok?
    ensures result.Failed? ==> result == Commands.SubmitResult(answer.0, answer.1)
    ensures Commands.SubmittedBatches(pool.events) == Commands.SubmittedBatches(old(pool.events)) + [[[stage.CopyCmd(image)]]]
  {
    ghost var before := pool.events;
    var ok := stage.CopyToImage(image, pool, answer.0, answer.1);
    result := Commands.SubmitResult(answer.0, answer.1);
    ghost var cb :| cb !in old(pool.states) && pool.events == before + Commands.SubmitEvents([cb], [[stage.CopyCmd(image)]], answer.0, answer.1);
    Commands.BatchesAppend(before, Commands.SubmitEvents([cb], [[stage.CopyCmd(image)]], answer.0, answer.1));
    Commands.SubmitEventsOneBatch([cb], [[stage.CopyCmd(image)]], answer.0, answer.1);
  }
}

=== FILE: memory.dfy ===
/** A device memory allocation (src/core/memory.rs): allocated once, mapped into
    host address space at most once at a time, and accessed through the mapped
    pointer with a byte count and an offset. */
module Memory {
  import opened Vk
  import Device

  /** VkMemoryRequirements of a resource. */
  datatype MemoryRequirements = MemoryRequirements(size: nat, alignment: nat, typeBits: bv32)

  /** `s` with the bytes from `at` on replaced by `w`. */
  function Splice(s: seq<bv8>, at: nat, w: seq<bv8>): (r: seq<bv8>)
    requires at + |w| <= |s|
    ensures |r| == |s|
    ensures r[at..at + |w|] == w
    ensures forall k :: 0 <= k < |s| && !(at <= k < at + |w|) ==> r[k] == s[k]
  {
    s[..at] + w + s[at + |w|..]
  }

  /** The length a `vkMapMemory(offset, size)` call maps: VK_WHOLE_SIZE reaches
      to the end of the allocation. */
  function MappedLength(len: nat, offset: nat, size: nat): (r: nat)
    requires offset <= size
    ensures offset + r <= size || r == len
    ensures len == WHOLE_SIZE ==> offset + r == size
  {
    if len == WHOLE_SIZE then size - offset else len
  }

  /** The valid-usage rules of vkMapMemory on the requested range. */
  predicate MapRangeValid(len: nat, offset: nat, size: nat) {
    offset < size && (len == WHOLE_SIZE || (0 < len && offset + len <= size))
  }

  /** A memory binding of a buffer or image: the allocation and the offset. */
  datatype MemoryBinding = MemoryBinding(memory: Arena, offset: nat)

  /** KewMemory: the allocation's bytes and its mapping. `mapped` stands for a
      non-null mapped pointer, which addresses byte `mapOffset` of the
      allocation and is valid for `mapLen` bytes. The memory is assumed
      host-coherent where it is mapped. */
  class Arena {
    const handle: Handle
    const size: nat
    const memoryType: nat
    const hostVisible: bool
    const data: array<bv8>
    var mapped: bool
    var mapOffset: nat
    var mapLen: nat

    ghost predicate Valid()
      reads this
    {
      data.Length == size && (mapped ==> mapOffset + mapLen <= size)
    }

    /** The allocation as the driver hands it out: unmapped, with contents the
        model does not know (`initial`). */
    constructor (handle: Handle, memoryType: nat, hostVisible: bool, initial: seq<bv8>)
      ensures Valid() && fresh(data)
      ensures this.handle == handle && this.size == |initial| && this.memoryType == memoryType
      ensures this.hostVisible == hostVisible && !mapped
      ensures data[..] == initial
    {
      this.handle := handle;
      this.size := |initial|;
      this.memoryType := memoryType;
      this.hostVisible := hostVisible;
      data := new bv8[|initial|](i requires 0 <= i < |initial| => initial[i]);
      mapped := false;
      mapOffset := 0;
      mapLen := 0;
    }

    /** `map`: maps `len` bytes from `offset` unless the memory is already mapped,
        in which case the call is skipped (with a warning). */
    method Map(len: nat, offset: nat)
      requires Valid()
      requires !mapped ==> hostVisible && MapRangeValid(len, offset, size)
      modifies this
      ensures Valid()
      ensures old(mapped) ==> mapped && mapOffset == old(mapOffset) && mapLen == old(mapLen)
      ensures !old(mapped) ==> mapped && mapOffset == offset && mapLen == MappedLength(len, offset, size)
    {
      if !mapped {
        mapped := true;
        mapOffset := offset;
        mapLen := MappedLength(len, offset, size);
      }
    }

    /** `unmap`: releases the mapping; on unmapped memory the call is skipped. */
    method Unmap()
      requires Valid()
      modifies this`mapped
      ensures Valid() && !mapped
    {
      if mapped {
        mapped := false;
      }
    }

    /** The bounds check of `rd_visible_mem`/`wr_visible_mem`, evaluated against
        the window the mapped pointer addresses. */
    predicate InWindow(n: nat, o: nat)
      reads this
    {
      mapped && o + n <= mapLen
    }

    /** `wr_visible_mem`: copies the first `n` bytes of `src` to the mapped
        pointer plus `o`. `ok` is false where the call panics (memory unmapped
        or out of bounds); nothing is written then. */
    method Write(src: seq<bv8>, n: nat, o: nat) returns (ok: bool)
      requires Valid() && n <= |src|
      modifies data
      ensures ok <==> InWindow(n, o)
      ensures ok ==> data[..] == Splice(old(data[..]), mapOffset + o, src[..n])
      ensures !ok ==> data[..] == old(data[..])
    {
      ok := mapped && o + n <= mapLen;
      if ok {
        var at := mapOffset + o;
        forall k | 0 <= k < n {
          data[at + k] := src[k];
        }
        assert data[..] == Splice(old(data[..]), at, src[..n]);
      }
    }

    /** `rd_visible_mem`: the `n` bytes at the mapped pointer plus `o`, or None
        where the call panics. */
    method Read(n: nat, o: nat) returns (r: Option<seq<bv8>>)
      requires Valid()
      ensures r.Some? <==> InWindow(n, o)
      ensures r.Some? ==> |r.value| == n
      ensures r.Some? ==> forall k :: 0 <= k < n ==> r.value[k] == data[mapOffset + o + k]
    {
      if mapped && o + n <= mapLen {
        r := Some(data[mapOffset + o..mapOffset + o + n]);
      } else {
        r := None;
      }
    }

    /** The device writing `bytes` at `at` (a transfer or a shader): the
        environment's side of the allocation. */
    method DeviceStore(at: nat, bytes: seq<bv8>)
      requires Valid() && at + |bytes| <= size
      modifies data
      ensures data[..] == Splice(old(data[..]), at, bytes)
    {
      forall k | 0 <= k < |bytes| {
        data[at + k] := bytes[k];
      }
      assert data[..] == Splice(old(data[..]), at, bytes);
    }
  }

  /** `KewMemory::new`: picks the memory type with `find_memory_type` and
      allocates `size` bytes. None where `unwrap` panics because no memory type
      qualifies. */
  method Allocate(props: Device.MemoryProperties, reqs: MemoryRequirements, want: bv32,
                  handle: Handle, initial: seq<bv8>) returns (r: Option<Arena>)
    requires Device.WellFormed(props)
    ensures r.Some? <==> Device.FindMemoryType(props, reqs.typeBits, want).Some?
    ensures r.Some? ==> fresh(r.value) && fresh(r.value.data) && r.value.Valid() && !r.value.mapped
    ensures r.Some? ==> r.value.memoryType == Device.FindMemoryType(props, reqs.typeBits, want).value
    ensures r.Some? ==> r.value.size == |initial| && r.value.handle == handle && r.value.data[..] == initial
    ensures r.Some? ==> r.value.hostVisible == Has(want, MEMORY_HOST_VISIBLE)
  {
    var index := Device.FindMemoryType(props, reqs.typeBits, want);
    if index.None? {
      return None;
    }
    var arena := new Arena(handle, index.value, Has(want, MEMORY_HOST_VISIBLE), initial);
    return Some(arena);
  }

  /** A write followed by a read of the same window returns what was written. */
  method WriteThenRead(a: Arena, src: seq<bv8>, n: nat, o: nat) returns (back: Option<seq<bv8>>)
    requires a.Valid() && n <= |src|
    modifies a.data
    ensures back.Some? <==> a.InWindow(n, o)
    ensures back.Some? ==> back.value == src[..n]
  {
    var ok := a.Write(src, n, o);
    back := a.Read(n, o);
    if back.Some? {
      assert a.data[..][a.mapOffset + o..a.mapOffset + o + n] == src[..n];
    }
  }

  // ---------------------------------------------------------------------------
  // The bounds check as the source writes it

  /** The check `b_size + offset <= self.b_size` of rd/wr_visible_mem: it compares
      against the whole allocation although the pointer it guards addresses the
      mapped window, which starts at the mapping offset and may be shorter. */
  predicate SourceBoundsCheck(allocationSize: nat, n: nat, o: nat) {
    n + o <= allocationSize
  }

  /** With 16 bytes allocated and `map(8, 8)`, a 16-byte access at offset 0 passes
      the source's check yet touches bytes 8 to 23: past the mapped window and
      past the end of the allocation. */
  lemma SourceBoundsCheckAdmitsOverrun()
    ensures SourceBoundsCheck(16, 16, 0)
    ensures MapRangeValid(8, 8, 16) && MappedLength(8, 8, 16) == 8
    ensures 8 + 0 + 16 > 16 && 0 + 16 > MappedLength(8, 8, 16)
  {
  }

  /** The two checks agree whenever the mapping covers the whole allocation, as
      every mapping made from offset 0 with VK_WHOLE_SIZE does. */
  lemma ChecksAgreeOnWholeMapping(a: Arena, n: nat, o: nat)
    requires a.Valid() && a.mapped && a.mapOffset == 0 && a.mapLen == a.size
    ensures a.InWindow(n, o) <==> SourceBoundsCheck(a.size, n, o)
  {
  }

  /** The corrected check never lets an access leave the allocation. */
  lemma WindowCheckStaysInAllocation(a: Arena, n: nat, o: nat)
    requires a.Valid() && a.InWindow(n, o)
    ensures a.mapOffset + o + n <= a.size && SourceBoundsCheck(a.size, n, o)
  {
  }
}

=== FILE: model.dfy ===
/** Vertex and index data of a model, the vertex-input description tables and
    the commands that bind and draw a model (src/core/model.rs). Vertex
    components are 32-bit floats; only their sizes are modelled. */
module Models {
  import opened Vk
  import Bytes

  /** Byte sizes of `Vector<f32, 2>` and `Vector<f32, 3>` (arrays of f32). */
  const VEC2_SIZE: nat := 8
  const VEC3_SIZE: nat := 12
  /** `size_of::<FlatVertex>()`: a 2-vector and a 3-vector, no padding since
      both have 4-byte alignment. */
  const FLAT_VERTEX_SIZE: nat := VEC2_SIZE + VEC3_SIZE
  /** `size_of::<Vertex>()`: three 3-vectors and a 2-vector. */
  const VERTEX_SIZE: nat := 3 * VEC3_SIZE + VEC2_SIZE
  /** Indices are `u32`. */
  const INDEX_SIZE: nat := 4

  /** KewModel: where a model's vertices and indices start in their buffers
      and how many indices it draws. */
  datatype KewModel = KewModel(vertexOffset: nat, indexAmount: nat, indexOffset: nat)

  /** `KewModel::bind`: the vertex buffer at binding 0 from `vertexOffset`, the
      index buffer from `indexOffset` with 32-bit indices. */
  function BindCmds(m: KewModel, vrtBuffer: Handle, idxBuffer: Handle): (r: seq<Cmd>)
    ensures |r| == 2
    ensures r[0].BindVertexBuffers? && r[0].firstBinding == 0
    ensures r[0].buffers == [vrtBuffer] && r[0].offsets == [m.vertexOffset]
    ensures r[1].BindIndexBuffer? && r[1].buffer == idxBuffer
    ensures r[1].offset == m.indexOffset && r[1].indexType == IndexUint32
  {
    [BindVertexBuffers(0, [vrtBuffer], [m.vertexOffset]), BindIndexBuffer(idxBuffer, m.indexOffset, IndexUint32)]
  }

  /** `KewModel::draw`: `indexAmount` indices of one instance, from index 0. */
  function DrawCmds(m: KewModel): (r: seq<Cmd>)
    ensures |r| == 1 && r[0].DrawIndexed?
    ensures r[0].indexCount == m.indexAmount && r[0].instanceCount == 1
    ensures r[0].firstIndex == 0 && r[0].vertexOffset == 0 && r[0].firstInstance == 0
  {
    [DrawIndexed(m.indexAmount, 1, 0, 0, 0)]
  }

  /** The byte range of the index buffer an indexed draw reads: from the bound
      offset, `indexCount` indices of the bound type from `firstIndex` on. */
  function IndexBytesRead(bind: Cmd, draw: Cmd): (r: (nat, nat))
    requires bind.BindIndexBuffer? && draw.DrawIndexed?
    ensures r.1 == INDEX_SIZE * draw.indexCount
  {
    (bind.offset + INDEX_SIZE * draw.firstIndex, INDEX_SIZE * draw.indexCount)
  }

  /** KewModelVertexData: the vertices and the `u32` indices of a model. */
  datatype VertexData<V> = VertexData(vertices: seq<V>, indices: seq<bv32>)

  /** `vertex_data_size`: the number of vertices times the vertex size. */
  function VertexDataSize<V>(d: VertexData<V>, vertexSize: nat): (r: nat)
    ensures |d.vertices| == 0 ==> r == 0
    ensures vertexSize > 0 ==> r % vertexSize == 0 && r / vertexSize == |d.vertices|
  {
    WholeVertices(|d.vertices|, vertexSize);
    |d.vertices| * vertexSize
  }

  /** `n` vertices of `size` bytes fill exactly `n` slots of `size` bytes. */
  lemma WholeVertices(n: nat, size: nat)
    ensures size > 0 ==> (n * size) % size == 0 && (n * size) / size == n
  {
    if size > 0 {
      var q, r := (n * size) / size, (n * size) % size;
      assert n * size == q * size + r && 0 <= r < size;
      assert (n - q) * size == r by {
        assert (n - q) * size == n * size - q * size;
      }
      ScaledAwayFromZero(n - q, size);
    }
  }

  /** A nonzero multiple of `s` is at least `s` away from zero. */
  lemma ScaledAwayFromZero(x: int, s: nat)
    ensures x >= 1 ==> x * s >= s
    ensures x <= -1 ==> x * s <= 0 - s
  {
    if x >= 1 {
      assert x * s == (x - 1) * s + s;
    } else if x <= -1 {
      assert x * s == (x + 1) * s - s;
    }
  }

  /** `index_data_size`: four bytes per index, the length of the indices'
      byte image. */
  function IndexDataSize<V>(d: VertexData<V>): (r: nat)
    ensures r == |Bytes.Words(d.indices)|
  {
    |d.indices| * INDEX_SIZE
  }

  /** A byte copy into a buffer's mapped memory: how many bytes, at which
      offset. */
  datatype WriteRequest = WriteRequest(buffer: Handle, size: nat, offset: nat)

  /** `write_to_memory`: the vertex bytes to the vertex buffer at `vrtOffset`,
      the index bytes to the index buffer at `idxOffset`, each with its computed
      size. The callee it uses on buffers is not part of this model, so the two
      copies are returned as requests. */
  function WriteToMemory<V>(d: VertexData<V>, vertexSize: nat, vrtBuffer: Handle, idxBuffer: Handle,
                            vrtOffset: nat, idxOffset: nat): (r: seq<WriteRequest>)
    ensures |r| == 2
    ensures r[0].buffer == vrtBuffer && r[0].offset == vrtOffset
    ensures r[0].size == |d.vertices| * vertexSize
    ensures r[1].buffer == idxBuffer && r[1].offset == idxOffset
    ensures r[1].size == |Bytes.Words(d.indices)|
  {
    [WriteRequest(vrtBuffer, VertexDataSize(d, vertexSize), vrtOffset),
     WriteRequest(idxBuffer, IndexDataSize(d), idxOffset)]
  }

  /** A model drawn with all the indices written for it at the offset it binds
      reads exactly the index bytes `write_to_memory` wrote. */
  lemma DrawReadsWrittenIndices<V>(d: VertexData<V>, vertexSize: nat, vrt: Handle, idx: Handle,
                                   vrtOffset: nat, idxOffset: nat)
    ensures var m := KewModel(vrtOffset, |d.indices|, idxOffset);
            var w := WriteToMemory(d, vertexSize, vrt, idx, vrtOffset, idxOffset)[1];
            IndexBytesRead(BindCmds(m, vrt, idx)[1], DrawCmds(m)[0]) == (w.offset, w.size)
  {
  }

  /** FlatVertex: a 2D position and an RGB colour. */
  datatype FlatVertex = FlatVertex(pos: (real, real), col: (real, real, real))

  /** `square`: four corners of a square of half-width 0.8 and the two
      triangles (0, 1, 2) and (2, 1, 3) that cover it. */
  function Square(): (r: VertexData<FlatVertex>)
    ensures |r.vertices| == 4 && |r.indices| == 6
    ensures forall i :: 0 <= i < |r.indices| ==> r.indices[i] as nat < |r.vertices|
    ensures forall i, j :: 0 <= i < j < |r.vertices| ==> r.vertices[i].pos != r.vertices[j].pos
  {
    VertexData([FlatVertex((-0.8, 0.8), (1.0, 0.0, 0.0)),
                FlatVertex((-0.8, -0.8), (0.0, 0.0, 1.0)),
                FlatVertex((0.8, 0.8), (1.0, 0.0, 0.0)),
                FlatVertex((0.8, -0.8), (0.0, 0.0, 1.0))],
               [0, 1, 2, 2, 1, 3])
  }

  /** The square's data takes 80 vertex bytes and 24 index bytes. */
  lemma SquareSizes()
    ensures VertexDataSize(Square(), FLAT_VERTEX_SIZE) == 80
    ensures IndexDataSize(Square()) == 24
    ensures Square().indices == [0, 1, 2, 2, 1, 3]
  {
  }

  /** VkVertexInputRate */
  datatype InputRate = PerVertex | PerInstance

  /** VkVertexInputBindingDescription */
  datatype BindingDescription = BindingDescription(binding: nat, stride: nat, inputRate: InputRate)

  /** VkVertexInputAttributeDescription */
  datatype AttributeDescription = AttributeDescription(location: nat, binding: nat, format: Format, offset: nat)

  /** The byte size of one element of a vertex format. */
  function FormatSize(f: Format): (r: nat)
    ensures f.R32G32Sfloat? ==> r == VEC2_SIZE
    ensures f.R32G32B32Sfloat? ==> r == VEC3_SIZE
  {
    match f
    case R32G32Sfloat => 8
    case R32G32B32Sfloat => 12
    case R8G8B8A8Unorm => 4
    case B8G8R8A8Unorm => 4
    case B8G8R8A8Srgb => 4
    case OtherFormat(_) => 0
  }

  /** The attributes sit one after the other in the vertex, location `i` at
      position `i`, from byte 0 to exactly `stride`: no gap, no overlap, no
      attribute past the end of the vertex. */
  predicate Packed(attrs: seq<AttributeDescription>, binding: nat, stride: nat) {
    |attrs| > 0
    && attrs[0].offset == 0
    && (forall i :: 0 <= i < |attrs| ==> attrs[i].location == i && attrs[i].binding == binding)
    && (forall i :: 0 <= i < |attrs| - 1 ==> attrs[i + 1].offset == attrs[i].offset + FormatSize(attrs[i].format))
    && attrs[|attrs| - 1].offset + FormatSize(attrs[|attrs| - 1].format) == stride
  }

  /** In a packed layout every attribute lies inside the vertex. */
  lemma {:induction false} PackedInside(attrs: seq<AttributeDescription>, binding: nat, stride: nat, i: nat)
    requires Packed(attrs, binding, stride) && i < |attrs|
    ensures attrs[i].offset + FormatSize(attrs[i].format) <= stride
    decreases |attrs| - i
  {
    if i < |attrs| - 1 {
      PackedInside(attrs, binding, stride, i + 1);
    }
  }

  /** `FlatVertex::bind_descriptions`: binding 0, per vertex, stride the vertex size. */
  const FLAT_BINDINGS: seq<BindingDescription> := [BindingDescription(0, FLAT_VERTEX_SIZE, PerVertex)]

  /** `FlatVertex::attr_descriptions`: the position at location 0, offset 0; the
      colour at location 1, right after the 2-vector. */
  const FLAT_ATTRIBUTES: seq<AttributeDescription> :=
    [AttributeDescription(0, 0, R32G32Sfloat, 0),
     AttributeDescription(1, 0, R32G32B32Sfloat, VEC2_SIZE)]

  /** `Vertex::bind_descriptions`. */
  const VERTEX_BINDINGS: seq<BindingDescription> := [BindingDescription(0, VERTEX_SIZE, PerVertex)]

  /** `Vertex::attr_descriptions`: position, normal and colour as 3-vectors at
      0, s and 2s, the texture coordinate as a 2-vector at 3s (s the size of a
      3-vector). */
  const VERTEX_ATTRIBUTES: seq<AttributeDescription> :=
    [AttributeDescription(0, 0, R32G32B32Sfloat, 0),
     AttributeDescription(1, 0, R32G32B32Sfloat, VEC3_SIZE),
     AttributeDescription(2, 0, R32G32B32Sfloat, 2 * VEC3_SIZE),
     AttributeDescription(3, 0, R32G32Sfloat, 3 * VEC3_SIZE)]

  /** Both vertex layouts are packed against the stride of their one binding. */
  lemma LayoutsPacked()
    ensures |FLAT_BINDINGS| == 1 && FLAT_BINDINGS[0].binding == 0
    ensures Packed(FLAT_ATTRIBUTES, 0, FLAT_BINDINGS[0].stride)
    ensures |VERTEX_BINDINGS| == 1 && VERTEX_BINDINGS[0].binding == 0
    ensures Packed(VERTEX_ATTRIBUTES, 0, VERTEX_BINDINGS[0].stride)
    ensures forall i :: 0 <= i < 4 ==> VERTEX_ATTRIBUTES[i].offset == i * VEC3_SIZE
  {
  }

  /** VertexType */
  datatype VertexType = Null | Flat

  /** `VertexType::bind_descriptions`. */
  function BindDescriptions(t: VertexType): (r: Option<seq<BindingDescription>>)
    ensures r.Some? <==> t.Flat?
    ensures r.Some? ==> r.value == FLAT_BINDINGS
  {
    match t
    case Null => None
    case Flat => Some(FLAT_BINDINGS)
  }

  /** `VertexType::attr_descriptions`. */
  function AttrDescriptions(t: VertexType): (r: Option<seq<AttributeDescription>>)
    ensures r.Some? <==> t.Flat?
    ensures r.Some? ==> r.value == FLAT_ATTRIBUTES
  {
    match t
    case Null => None
    case Flat => Some(FLAT_ATTRIBUTES)
  }

  /** A vertex type describes its bindings exactly when it describes its
      attributes, and what it describes is a packed layout. */
  lemma DescriptionsAgree(t: VertexType)
    ensures BindDescriptions(t).Some? <==> AttrDescriptions(t).Some?
    ensures BindDescriptions(t).Some? ==>
              Packed(AttrDescriptions(t).value, 0, BindDescriptions(t).value[0].stride)
  {
  }
}

=== FILE: pipeline.dfy ===
/** Compute and graphics pipelines (src/core/pipeline.rs): what is asked of the
    driver when they are created and the commands that bind them. */
module Pipelines {
  import opened Vk
  import Models
  import Shaders

  // ---------------------------------------------------------------------------
  // Compute pipeline

  /** VkPipelineLayoutCreateInfo: the descriptor set layouts, set 0 first. */
  datatype PipelineLayoutInfo = PipelineLayoutInfo(setLayouts: seq<Handle>)

  /** VkComputePipelineCreateInfo */
  datatype ComputePipelineInfo = ComputePipelineInfo(flags: bv32, stage: Shaders.StageInfo, layout: Handle)

  /** KewCmpPipeline: the pipeline layout and the pipeline. */
  datatype CmpPipeline = CmpPipeline(layout: Handle, pipeline: Handle)

  /** `KewCmpPipeline::new`: the layout holds exactly the shader's one set layout. */
  function CmpLayoutInfo(s: Shaders.Shader): (r: PipelineLayoutInfo)
    ensures |r.setLayouts| == 1 && r.setLayouts[0] == s.setLayout
  {
    PipelineLayoutInfo([s.setLayout])
  }

  /** `create_pipeline`: the shader's stage in the created layout, no flags. */
  function CmpCreateInfo(s: Shaders.Shader, layout: Handle): (r: ComputePipelineInfo)
    ensures r.stage == s.stageInfo && r.layout == layout && r.flags == 0
  {
    ComputePipelineInfo(0, s.stageInfo, layout)
  }

  /** `KewCmpPipeline::bind`: the pipeline at the compute bind point, then
      `descriptorSet` as set 0 of the layout, no dynamic offsets. */
  function CmpBindCmds(p: CmpPipeline, descriptorSet: Handle): (r: seq<Cmd>)
    ensures |r| == 2
    ensures r[0] == BindPipeline(ComputeBindPoint, p.pipeline)
    ensures r[1].BindDescriptorSets? && r[1].point == ComputeBindPoint && r[1].layout == p.layout
    ensures r[1].firstSet == 0 && r[1].sets == [descriptorSet]
  {
    [BindPipeline(ComputeBindPoint, p.pipeline), BindDescriptorSets(ComputeBindPoint, p.layout, 0, [descriptorSet])]
  }

  /** The bound set lands on a set number the layout declares, and that number
      holds the shader's set layout. */
  lemma BoundSetInLayout(s: Shaders.Shader, p: CmpPipeline, descriptorSet: Handle)
    ensures var b := CmpBindCmds(p, descriptorSet)[1];
            var l := CmpLayoutInfo(s);
            b.firstSet + |b.sets| <= |l.setLayouts| && l.setLayouts[b.firstSet] == s.setLayout
  {
  }

  // ---------------------------------------------------------------------------
  // Graphics pipeline configuration

  datatype BlendFactor = Zero | One | SrcAlpha | OneMinusSrcAlpha | OtherFactor(code: nat)
  datatype BlendOp = Add | Subtract | OtherOp(code: nat)
  datatype Topology = TriangleList | TriangleStrip | OtherTopology(code: nat)
  datatype PolygonMode = Fill | Line | OtherPolygonMode(code: nat)
  datatype FrontFace = CounterClockwise | Clockwise
  datatype DynamicState = Viewport | Scissor

  /** VkCullModeFlags::NONE */
  const CULL_NONE: bv32 := 0

  /** BlendInfo: one blend equation. */
  datatype BlendInfo = BlendInfo(srcFactor: BlendFactor, dstFactor: BlendFactor, operation: BlendOp)

  /** ColorTarget: optional colour and alpha equations and the write mask. */
  datatype ColorTarget = ColorTarget(colorBlend: Option<BlendInfo>, alphaBlend: Option<BlendInfo>, writeMask: bv32)

  /** PrimitiveState */
  datatype PrimitiveState = PrimitiveState(
    topology: Topology, restart: bool, polygonMode: PolygonMode, depthClamp: bool,
    cullMode: bv32, frontFace: FrontFace)

  /** GfxPipelineConfig */
  datatype GfxPipelineConfig = GfxPipelineConfig(
    primitive: PrimitiveState, colorTargets: seq<ColorTarget>, vertexType: Models.VertexType)

  /** VkPipelineColorBlendAttachmentState */
  datatype BlendAttachment = BlendAttachment(
    blendEnable: bool,
    srcColor: BlendFactor, dstColor: BlendFactor, colorOp: BlendOp,
    srcAlpha: BlendFactor, dstAlpha: BlendFactor, alphaOp: BlendOp,
    writeMask: bv32)

  /** `VkPipelineColorBlendAttachmentState::default()`: blending off, factors
      ZERO, operations ADD, empty mask. */
  const DEFAULT_ATTACHMENT: BlendAttachment := BlendAttachment(false, Zero, Zero, Add, Zero, Zero, Add, 0)

  /** The attachment state one colour target asks for: blending is on exactly
      when the target has a colour or an alpha equation, the colour factors come
      only from the colour equation and the alpha factors only from the alpha
      equation (the defaults otherwise), and the write mask is the target's. */
  ghost predicate AttachmentOf(t: ColorTarget, a: BlendAttachment) {
    && (a.blendEnable <==> t.colorBlend.Some? || t.alphaBlend.Some?)
    && a.writeMask == t.writeMask
    && (a.srcColor, a.dstColor, a.colorOp) ==
         (if t.colorBlend.Some? then (t.colorBlend.value.srcFactor, t.colorBlend.value.dstFactor, t.colorBlend.value.operation)
          else (Zero, Zero, Add))
    && (a.srcAlpha, a.dstAlpha, a.alphaOp) ==
         (if t.alphaBlend.Some? then (t.alphaBlend.value.srcFactor, t.alphaBlend.value.dstFactor, t.alphaBlend.value.operation)
          else (Zero, Zero, Add))
  }

  /** The loop of `KewGfxPipeline::new` that builds one blend attachment per
      colour target, in order, starting each from the default state and
      rebinding it field group by field group. */
  method BlendAttachments(targets: seq<ColorTarget>) returns (r: seq<BlendAttachment>)
    ensures |r| == |targets|
    ensures forall i :: 0 <= i < |targets| ==> AttachmentOf(targets[i], r[i])
  {
    r := [];
    for i := 0 to |targets|
      invariant |r| == i
      invariant forall k :: 0 <= k < i ==> AttachmentOf(targets[k], r[k])
    {
      var target := targets[i];
      var attachment := DEFAULT_ATTACHMENT.(writeMask := target.writeMask);
      if target.colorBlend.Some? || target.alphaBlend.Some? {
        attachment := attachment.(blendEnable := true);
        if target.colorBlend.Some? {
          var b := target.colorBlend.value;
          attachment := attachment.(srcColor := b.srcFactor, dstColor := b.dstFactor, colorOp := b.operation);
        }
        if target.alphaBlend.Some? {
          var b := target.alphaBlend.value;
          attachment := attachment.(srcAlpha := b.srcFactor, dstAlpha := b.dstFactor, alphaOp := b.operation);
        }
      }
      r := r + [attachment];
    }
  }

  /** Exactly one attachment state satisfies `AttachmentOf` for a target. */
  lemma AttachmentOfUnique(t: ColorTarget, a: BlendAttachment, b: BlendAttachment)
    requires AttachmentOf(t, a) && AttachmentOf(t, b)
    ensures a == b
  {
  }

  /** VkGraphicsPipelineCreateInfo with the states it points to, less the line
      width (a float, always 1.0). */
  datatype GfxPipelineInfo = GfxPipelineInfo(
    stages: seq<Shaders.StageInfo>,
    dynamicStates: seq<DynamicState>,
    vertexBindings: seq<Models.BindingDescription>,
    vertexAttributes: seq<Models.AttributeDescription>,
    topology: Topology, restart: bool,
    viewportCount: nat, scissorCount: nat,
    polygonMode: PolygonMode, depthClamp: bool, cullMode: bv32, frontFace: FrontFace, depthBias: bool,
    samples: nat, sampleShading: bool,
    attachments: seq<BlendAttachment>,
    layout: Handle, renderPass: Handle)

  /** KewGfxPipeline: the pipeline and the layout it was created with. */
  datatype GfxPipeline = GfxPipeline(pipeline: Handle, layout: Handle)

  /** `KewGfxPipeline::new`: the vertex then fragment stage, viewport and
      scissor as dynamic state with one of each, the vertex input of the
      config's vertex type (empty where it has none), the primitive state
      copied from the config, no depth bias, one sample, and one blend
      attachment per colour target. `pipeline` is the handle the driver
      created from `info`. */
  method NewGfxPipeline(config: GfxPipelineConfig, layout: Handle, vert: Shaders.Shader, frag: Shaders.Shader,
                        renderPass: Handle, pipeline: Handle) returns (p: GfxPipeline, info: GfxPipelineInfo)
    ensures p == GfxPipeline(pipeline, layout)
    ensures info.stages == [vert.stageInfo, frag.stageInfo]
    ensures info.dynamicStates == [Viewport, Scissor] && info.viewportCount == 1 && info.scissorCount == 1
    ensures info.vertexBindings == (if config.vertexType.Flat? then Models.FLAT_BINDINGS else [])
    ensures info.vertexAttributes == (if config.vertexType.Flat? then Models.FLAT_ATTRIBUTES else [])
    ensures info.topology == config.primitive.topology && info.restart == config.primitive.restart
    ensures info.polygonMode == config.primitive.polygonMode && info.depthClamp == config.primitive.depthClamp
    ensures info.cullMode == config.primitive.cullMode && info.frontFace == config.primitive.frontFace
    ensures !info.depthBias && info.samples == 1 && !info.sampleShading
    ensures |info.attachments| == |config.colorTargets|
    ensures forall i :: 0 <= i < |config.colorTargets| ==> AttachmentOf(config.colorTargets[i], info.attachments[i])
    ensures info.layout == layout && info.renderPass == renderPass
  {
    var bindings: seq<Models.BindingDescription> := [];
    var attributes: seq<Models.AttributeDescription> := [];
    var bd := Models.BindDescriptions(config.vertexType);
    if bd.Some? {
      bindings := bd.value;
    }
    var ad := Models.AttrDescriptions(config.vertexType);
    if ad.Some? {
      attributes := ad.value;
    }
    var attachments := BlendAttachments(config.colorTargets);
    var prim := config.primitive;
    info := GfxPipelineInfo(
      [vert.stageInfo, frag.stageInfo], [Viewport, Scissor], bindings, attributes,
      prim.topology, prim.restart, 1, 1, prim.polygonMode, prim.depthClamp, prim.cullMode, prim.frontFace, false,
      1, false, attachments, layout, renderPass);
    p := GfxPipeline(pipeline, layout);
  }

  /** `KewGfxPipeline::bind`: the pipeline at the graphics bind point. */
  function GfxBindCmds(p: GfxPipeline): (r: seq<Cmd>)
    ensures |r| == 1 && r[0].BindPipeline? && r[0].point == GraphicsBindPoint && r[0].pipeline == p.pipeline
  {
    [BindPipeline(GraphicsBindPoint, p.pipeline)]
  }
}

=== FILE: render.dfy ===
/** The older renderer of the dock (src/dock/render.rs): the same frame pacer
    as the dock's renderer, but guarded by assertions, with the frame-drop test
    and the submit delegated to swapchain operations that are not part of this
    model (`is_frame_available` and a five-argument `submit_and_present`).
    The first is an input; the second is recorded as a request. */
module Render {
  import opened Vk
  import Swapchains
  import Commands
  import Pipelines
  import Dock

  /** How `open_frame` ends: an open frame, a dropped frame (None), the
      `todo!()` of an acquire error, or the failed assertion that no frame is
      open. */
  datatype OpenResult = OpenedFrame | DroppedFrame | AcquirePanic | AlreadyOpen

  /** `open_frame` on the pacer state, `available` being the answer of
      `is_frame_available` for the current slot. As written, the frame is
      dropped when that answer is true. */
  function OpenStep(s: Dock.PacerState, available: bool, acquire: Swapchains.AcquireResult): (r: (Dock.PacerState, OpenResult))
    ensures r.1.AlreadyOpen? <==> s.frameOpen
    ensures r.1.DroppedFrame? <==> !s.frameOpen && available
    ensures r.1.AcquirePanic? <==> !s.frameOpen && !available && acquire.AcquireFailed?
    ensures !r.1.OpenedFrame? ==> r.0 == s
    ensures r.1.OpenedFrame? ==> r.0.frameOpen && r.0.frameIdx == s.frameIdx && r.0.imageIdx == acquire.index
  {
    if s.frameOpen then (s, AlreadyOpen)
    else if available then (s, DroppedFrame)
    else if acquire.AcquireFailed? then (s, AcquirePanic)
    else (s.(frameOpen := true, imageIdx := acquire.index), OpenedFrame)
  }

  /** `handle_render_update` for REDRAW on the pacer state: an opened frame is
      closed exactly once. */
  function UpdateStep(s: Dock.PacerState, available: bool, acquire: Swapchains.AcquireResult): (r: (Dock.PacerState, OpenResult))
    ensures r.1 == OpenStep(s, available, acquire).1
    ensures r.1.OpenedFrame? ==> r.0 == Dock.CloseStep(OpenStep(s, available, acquire).0)
    ensures !r.1.OpenedFrame? ==> r.0 == s
  {
    var (t, o) := OpenStep(s, available, acquire);
    if o.OpenedFrame? then (Dock.CloseStep(t), o) else (t, o)
  }

  /** From a state with no open frame the two renderers step alike, with
      `is_frame_available` in the place where the dock's renderer asks
      `frame_in_use`: the old renderer drops a frame exactly when the dock's
      renderer would drop it for a slot in flight. */
  lemma VariantsAgree(s: Dock.PacerState, available: bool, acquire: Swapchains.AcquireResult)
    requires !s.frameOpen
    ensures UpdateStep(s, available, acquire).0 == Dock.RenderStep(s, Dock.FrameInput(available, acquire, Swapchains.PresentAnswers(Ok, Ok, Ok))).0
    ensures UpdateStep(s, available, acquire).1.OpenedFrame? <==> Dock.RenderStep(s, Dock.FrameInput(available, acquire, Swapchains.PresentAnswers(Ok, Ok, Ok))).1.OpenedFrame?
    ensures UpdateStep(s, available, acquire).1.DroppedFrame? <==> Dock.RenderStep(s, Dock.FrameInput(available, acquire, Swapchains.PresentAnswers(Ok, Ok, Ok))).1.DroppedFrame?
  {
  }

  /** A call of the five-argument `submit_and_present`. */
  datatype SubmitRequest = SubmitRequest(cb: Handle, imageIdx: nat, frameIdx: nat, gfxQueue: Handle, presentQueue: Handle)

  /** DockRenderer of the older variant. */
  class Renderer {
    const swapchain: Swapchains.Swapchain
    const pool: Commands.CommandPool
    const cmdBuffers: seq<Handle>
    const presentQueue: Handle
    const pipeline: Pipelines.GfxPipeline
    var frameIdx: nat
    var imageIdx: nat
    var frameOpened: bool
    var submissions: seq<SubmitRequest>

    function State(): Dock.PacerState
      reads this
    {
      Dock.PacerState(frameIdx, imageIdx, frameOpened)
    }

    /** As for the dock's renderer: the slot index is in range, an open frame
        records into its slot's buffer for an existing image, and the other
        buffers can be begun again. */
    ghost predicate Valid()
      reads this, swapchain, pool
    {
      && swapchain.Valid() && !swapchain.destroyed && pool.Valid()
      && |cmdBuffers| == Dock.N && Commands.Distinct(cmdBuffers)
      && (forall i :: 0 <= i < Dock.N ==> cmdBuffers[i] in pool.states)
      && frameIdx < Dock.N
      && (frameOpened ==> pool.states[cmdBuffers[frameIdx]].Recording? && imageIdx < |swapchain.frameBundles|)
      && (forall i :: 0 <= i < Dock.N && !(frameOpened && i == frameIdx) ==>
            pool.states[cmdBuffers[i]].Initial? || pool.states[cmdBuffers[i]].Executable?)
    }

    /** `DockRenderer::new`: N primary buffers from the graphics pool, slot 0,
        image 0, no frame open, nothing submitted. `presentQueue` is the queue
        of the present family and `pipeline` the graphics pipeline built over
        the swapchain's render pass. */
    constructor (swapchain: Swapchains.Swapchain, pool: Commands.CommandPool, presentQueue: Handle,
                 pipeline: Pipelines.GfxPipeline)
      requires swapchain.Valid() && !swapchain.destroyed && pool.Valid()
      modifies pool
      ensures Valid() && State() == Dock.INITIAL && submissions == []
      ensures this.swapchain == swapchain && this.pool == pool
      ensures this.presentQueue == presentQueue && this.pipeline == pipeline
      ensures pool.states == old(pool.states) + map h | h in cmdBuffers :: Commands.Initial
    {
      var buffers := pool.CreateCommandBuffers(Dock.N);
      this.swapchain := swapchain;
      this.pool := pool;
      this.presentQueue := presentQueue;
      this.pipeline := pipeline;
      cmdBuffers := buffers;
      frameIdx := 0;
      imageIdx := 0;
      frameOpened := false;
      submissions := [];
    }

    /** `current_cmd_buffer`: the slot's buffer; None where the assertion that a
        frame is open fails. */
    function CurrentCmdBuffer(): (r: Option<Handle>)
      requires Valid()
      reads this, swapchain, pool
      ensures r.Some? <==> frameOpened
      ensures r.Some? ==> r.value == cmdBuffers[frameIdx] && pool.IsRecording(r.value)
    {
      if frameOpened then Some(cmdBuffers[frameIdx]) else None
    }

    /** `open_frame`. An open frame fails the assertion, an available slot (as
        written) drops the frame; otherwise an image is acquired, an error ends
        in the panic, and a success opens the frame on the acquired image and
        begins the slot's buffer, which is returned. */
    method OpenFrame(available: bool, acquire: Swapchains.AcquireResult) returns (result: OpenResult, cb: Option<Handle>)
      requires Valid()
      requires acquire.Acquired? ==> acquire.index < |swapchain.frameBundles|
      modifies this, swapchain`events, pool
      ensures Valid() && submissions == old(submissions)
      ensures (State(), result) == OpenStep(old(State()), available, acquire)
      ensures cb.Some? <==> result.OpenedFrame?
      ensures result.OpenedFrame? ==> cb.value == cmdBuffers[frameIdx] && cb == CurrentCmdBuffer()
      ensures result.AlreadyOpen? || result.DroppedFrame? ==> swapchain.events == old(swapchain.events)
      ensures result.OpenedFrame? || result.AcquirePanic? ==>
                swapchain.events == old(swapchain.events) + [Swapchains.AcquireNextImage(swapchain.handle, swapchain.imageAvailable[frameIdx])]
      ensures result.OpenedFrame? ==>
                && pool.states == old(pool.states)[cmdBuffers[frameIdx] := Commands.Recording(false)]
                && pool.recorded == old(pool.recorded)[cmdBuffers[frameIdx] := []]
      ensures !result.OpenedFrame? ==> pool.states == old(pool.states) && pool.recorded == old(pool.recorded)
      ensures pool.events == old(pool.events)
    {
      if frameOpened {
        return AlreadyOpen, None;
      }
      if available {
        return DroppedFrame, None;
      }
      var acquired := swapchain.NextImageIdx(frameIdx, acquire);
      if acquired.AcquireFailed? {
        return AcquirePanic, None;
      }
      frameOpened := true;
      imageIdx := acquired.index;
      var buffer := cmdBuffers[frameIdx];
      pool.Begin(buffer, false);
      return OpenedFrame, Some(buffer);
    }

    /** `close_frame`: ends the current buffer, requests its submission and the
        presentation of the frame's image, closes the frame and moves to the
        next slot. `ok` is false where the assertion that a frame is open
        fails; nothing changes then. */
    method CloseFrame() returns (ok: bool)
      requires Valid()
      modifies this, pool`states, pool`events
      ensures Valid()
      ensures ok <==> old(frameOpened)
      ensures ok ==> State() == Dock.CloseStep(old(State()))
      ensures ok ==> var cb := cmdBuffers[old(frameIdx)];
                     && pool.states == old(pool.states)[cb := Commands.Executable]
                     && pool.events == old(pool.events) + [Commands.EndCommandBuffer(cb)]
                     && submissions == old(submissions) + [SubmitRequest(cb, old(imageIdx), old(frameIdx), pool.queue, presentQueue)]
      ensures !ok ==> State() == old(State()) && submissions == old(submissions)
                      && pool.states == old(pool.states) && pool.events == old(pool.events)
    {
      if !frameOpened {
        return false;
      }
      var cb := CurrentCmdBuffer();
      pool.End(cb.value);
      submissions := submissions + [SubmitRequest(cb.value, imageIdx, frameIdx, pool.queue, presentQueue)];
      frameOpened := false;
      frameIdx := (frameIdx + 1) % Dock.N;
      return true;
    }

    /** `begin_render_pass`: records the render pass over the current image's
        framebuffer into `cb`. `ok` is false where the assertion that `cb` is the
        current buffer fails (or no frame is open); nothing is recorded then. */
    method BeginRenderPass(cb: Handle) returns (ok: bool)
      requires Valid()
      modifies pool`recorded
      ensures Valid()
      ensures ok <==> CurrentCmdBuffer() == Some(cb)
      ensures ok ==> pool.recorded == old(pool.recorded)[cb := old(pool.recorded)[cb] + swapchain.BeginRenderPassCmds(imageIdx)]
      ensures !ok ==> pool.recorded == old(pool.recorded)
    {
      var current := CurrentCmdBuffer();
      if current != Some(cb) {
        return false;
      }
      pool.Record(cb, swapchain.BeginRenderPassCmds(imageIdx));
      return true;
    }

    /** `end_render_pass`: as `begin_render_pass`, recording the end of the pass. */
    method EndRenderPass(cb: Handle) returns (ok: bool)
      requires Valid()
      modifies pool`recorded
      ensures Valid()
      ensures ok <==> CurrentCmdBuffer() == Some(cb)
      ensures ok ==> pool.recorded == old(pool.recorded)[cb := old(pool.recorded)[cb] + swapchain.EndRenderPassCmds()]
      ensures !ok ==> pool.recorded == old(pool.recorded)
    {
      var current := CurrentCmdBuffer();
      if current != Some(cb) {
        return false;
      }
      pool.Record(cb, swapchain.EndRenderPassCmds());
      return true;
    }

    /** `draw` and `gfx_pipeline.bind`: unchecked recording into `cb`, which the
        Vulkan rules require to be recording. */
    method RecordUnchecked(cb: Handle, cmds: seq<Cmd>)
      requires Valid() && pool.IsRecording(cb)
      modifies pool`recorded
      ensures Valid()
      ensures pool.recorded == old(pool.recorded)[cb := old(pool.recorded)[cb] + cmds]
    {
      pool.Record(cb, cmds);
    }

    /** `handle_render_update(REDRAW)`: a frame that opens is recorded with the
        render pass, the pipeline and a three-vertex draw, and closed exactly
        once; a frame that does not open changes nothing but what the acquire
        logs. */
    method HandleRedraw(available: bool, acquire: Swapchains.AcquireResult) returns (result: OpenResult)
      requires Valid()
      requires acquire.Acquired? ==> acquire.index < |swapchain.frameBundles|
      modifies this, swapchain`events, pool
      ensures Valid()
      ensures (State(), result) == UpdateStep(old(State()), available, acquire)
      ensures !old(frameOpened) ==> !frameOpened
      ensures result.OpenedFrame? ==>
                var cb := cmdBuffers[old(frameIdx)];
                && |submissions| == |old(submissions)| + 1
                && submissions[|submissions| - 1] == SubmitRequest(cb, acquire.index, old(frameIdx), pool.queue, presentQueue)
                && pool.recorded == old(pool.recorded)[cb := Dock.SceneCmds(swapchain, acquire.index, pipeline)]
                && pool.states == old(pool.states)[cb := Commands.Executable]
      ensures !result.OpenedFrame? ==> submissions == old(submissions) && pool.states == old(pool.states)
    {
      var cb;
      result, cb := OpenFrame(available, acquire);
      if result.OpenedFrame? {
        FinishFrame(cb.value);
      }
    }

    /** The rest of REDRAW once a frame is open: the scene is recorded into the
        slot's buffer and the frame is closed. */
    method FinishFrame(cb: Handle)
      requires Valid() && frameOpened && cb == cmdBuffers[frameIdx] && pool.recorded[cb] == []
      modifies this, pool
      ensures Valid()
      ensures State() == Dock.CloseStep(old(State()))
      ensures submissions == old(submissions) + [SubmitRequest(cb, old(imageIdx), old(frameIdx), pool.queue, presentQueue)]
      ensures pool.recorded == old(pool.recorded)[cb := Dock.SceneCmds(swapchain, old(imageIdx), pipeline)]
      ensures pool.states == old(pool.states)[cb := Commands.Executable]
    {
      RecordFrame(cb);
      var closed := CloseFrame();
    }

    /** The recording part of REDRAW into the open frame's buffer. */
    method RecordFrame(cb: Handle)
      requires Valid() && CurrentCmdBuffer() == Some(cb) && pool.recorded[cb] == []
      modifies pool`recorded
      ensures Valid()
      ensures pool.recorded == old(pool.recorded)[cb := Dock.SceneCmds(swapchain, imageIdx, pipeline)]
    {
      ghost var before := pool.recorded;
      ghost var head := swapchain.BeginRenderPassCmds(imageIdx) + Pipelines.GfxBindCmds(pipeline);
      BeginAndBind(cb);
      assert pool.recorded == before[cb := head];
      DrawAndEnd(cb);
      assert pool.recorded == before[cb := head + [Draw(3, 1, 0, 0)] + swapchain.EndRenderPassCmds()];
    }

    /** `begin_render_pass` and `gfx_pipeline.bind` into the empty buffer of
        the open frame. */
    method BeginAndBind(cb: Handle)
      requires Valid() && CurrentCmdBuffer() == Some(cb) && pool.recorded[cb] == []
      modifies pool`recorded
      ensures Valid() && CurrentCmdBuffer() == Some(cb)
      ensures pool.recorded == old(pool.recorded)[cb := swapchain.BeginRenderPassCmds(imageIdx) + Pipelines.GfxBindCmds(pipeline)]
    {
      ghost var before := pool.recorded;
      ghost var begin := swapchain.BeginRenderPassCmds(imageIdx);
      assert [] + begin == begin;
      var began := BeginRenderPass(cb);
      assert pool.recorded == before[cb := begin];
      RecordUnchecked(cb, Pipelines.GfxBindCmds(pipeline));
    }

    /** `draw` and `end_render_pass` into the open frame's buffer. */
    method DrawAndEnd(cb: Handle)
      requires Valid() && CurrentCmdBuffer() == Some(cb)
      modifies pool`recorded
      ensures Valid()
      ensures pool.recorded == old(pool.recorded)[cb := old(pool.recorded)[cb] + [Draw(3, 1, 0, 0)] + swapchain.EndRenderPassCmds()]
    {
      ghost var before := pool.recorded;
      RecordUnchecked(cb, [Draw(3, 1, 0, 0)]);
      assert pool.recorded == before[cb := before[cb] + [Draw(3, 1, 0, 0)]];
      var ended := EndRenderPass(cb);
    }
  }
}

=== FILE: shader.dfy ===
/** Shader stages, their descriptor-set layout bindings and descriptor writes
    (src/core/shader.rs). Loading the SPIR-V file is outside the model: the
    created shader module arrives as a handle. */
module Shaders {
  import opened Vk
  import Images
  import Buffers

  /** DescriptorSetLayoutBindingInfo: one binding of a stage, without its number. */
  datatype BindingInfo = BindingInfo(descriptorType: DescriptorType, descriptorCount: nat, stageFlags: bv32)

  /** ShaderStageConfig: a stage's entry point, SPIR-V path, bindings, stage and
      creation flags. */
  datatype ShaderStageConfig = ShaderStageConfig(
    entryName: string, path: string, bindings: seq<BindingInfo>, stage: bv32, createFlags: bv32)

  /** VkDescriptorSetLayoutBinding */
  datatype LayoutBinding = LayoutBinding(binding: nat, descriptorType: DescriptorType, descriptorCount: nat, stageFlags: bv32)

  /** `VkDescriptorSetLayoutBinding::default()`: every field zero. */
  const DEFAULT_LAYOUT_BINDING: LayoutBinding := LayoutBinding(0, Sampler, 0, 0)

  /** Entry `i` of `r` is binding number `i` with the type, count and stages of
      the config's `i`-th binding. */
  predicate BuiltFrom(r: seq<LayoutBinding>, config: ShaderStageConfig) {
    |r| == |config.bindings|
    && forall i :: 0 <= i < |r| ==>
         r[i] == LayoutBinding(i, config.bindings[i].descriptorType,
                               config.bindings[i].descriptorCount, config.bindings[i].stageFlags)
  }

  /** `build_dset_layout_bindings`: fills a zeroed array of N bindings entry by
      entry. */
  method BuildDsetLayoutBindings(config: ShaderStageConfig) returns (r: seq<LayoutBinding>)
    ensures BuiltFrom(r, config)
  {
    var n := |config.bindings|;
    var a := new LayoutBinding[n](_ => DEFAULT_LAYOUT_BINDING);
    for i := 0 to n
      invariant forall k :: 0 <= k < i ==>
                  a[k] == LayoutBinding(k, config.bindings[k].descriptorType,
                                        config.bindings[k].descriptorCount, config.bindings[k].stageFlags)
    {
      a[i] := a[i].(binding := i);
      a[i] := a[i].(descriptorType := config.bindings[i].descriptorType);
      a[i] := a[i].(descriptorCount := config.bindings[i].descriptorCount);
      a[i] := a[i].(stageFlags := config.bindings[i].stageFlags);
    }
    r := a[..];
  }

  /** The bindings of a layout are numbered 0, 1, ... without gaps or repeats. */
  lemma BindingNumbersDistinct(r: seq<LayoutBinding>, config: ShaderStageConfig)
    requires BuiltFrom(r, config)
    ensures forall i, j :: 0 <= i < j < |r| ==> r[i].binding != r[j].binding
    ensures forall k :: 0 <= k < |r| ==> r[k].binding == k
  {
  }

  /** VkPipelineShaderStageCreateInfo */
  datatype StageInfo = StageInfo(flags: bv32, stage: bv32, shaderModule: Handle, entryName: string)

  /** KewShader: the stored layout bindings, the shader module, the descriptor
      set layout and the stage description. */
  datatype Shader = Shader(bindings: seq<LayoutBinding>, shaderModule: Handle, setLayout: Handle, stageInfo: StageInfo)

  /** `KewShader::new`: builds the bindings, keeps them, and describes the stage
      with the config's flags, stage and entry name and the loaded module.
      `shaderModule` and `setLayout` are the handles the driver created. */
  method NewShader(config: ShaderStageConfig, shaderModule: Handle, setLayout: Handle) returns (s: Shader)
    ensures BuiltFrom(s.bindings, config)
    ensures s.shaderModule == shaderModule && s.setLayout == setLayout
    ensures s.stageInfo == StageInfo(config.createFlags, config.stage, shaderModule, config.entryName)
  {
    var bindings := BuildDsetLayoutBindings(config);
    s := Shader(bindings, shaderModule, setLayout, StageInfo(config.createFlags, config.stage, shaderModule, config.entryName));
  }

  /** VkWriteDescriptorSet with the one info the source attaches. */
  datatype WriteDescriptorSet = WriteDescriptorSet(
    dstSet: Handle, dstBinding: nat, descriptorType: DescriptorType,
    bufferInfos: seq<Buffers.DescriptorBufferInfo>, imageInfos: seq<Images.DescriptorImageInfo>)

  /** `write_buffer`: the update of binding `binding` of `descriptorSet` to `info`, with the
      type the binding was declared with. None where the source panics because
      the shader has no such binding. */
  function WriteBuffer(s: Shader, binding: nat, info: Buffers.DescriptorBufferInfo, descriptorSet: Handle): (r: Option<WriteDescriptorSet>)
    ensures r.Some? <==> binding < |s.bindings|
    ensures r.Some? ==> r.value.dstSet == descriptorSet && r.value.dstBinding == binding
    ensures r.Some? ==> r.value.descriptorType == s.bindings[binding].descriptorType
    ensures r.Some? ==> r.value.bufferInfos == [info] && r.value.imageInfos == []
  {
    if binding < |s.bindings| then
      Some(WriteDescriptorSet(descriptorSet, binding, s.bindings[binding].descriptorType, [info], []))
    else None
  }

  /** `write_image`: as `write_buffer`, with an image info. */
  function WriteImage(s: Shader, binding: nat, info: Images.DescriptorImageInfo, descriptorSet: Handle): (r: Option<WriteDescriptorSet>)
    ensures r.Some? <==> binding < |s.bindings|
    ensures r.Some? ==> r.value.dstSet == descriptorSet && r.value.dstBinding == binding
    ensures r.Some? ==> r.value.descriptorType == s.bindings[binding].descriptorType
    ensures r.Some? ==> r.value.imageInfos == [info] && r.value.bufferInfos == []
  {
    if binding < |s.bindings| then
      Some(WriteDescriptorSet(descriptorSet, binding, s.bindings[binding].descriptorType, [], [info]))
    else None
  }

  /** For a shader built from `config`, a write succeeds exactly for the
      config's binding indices, addresses that binding's number and uses the
      descriptor type the config declares for it. */
  lemma WritesFollowConfig(s: Shader, config: ShaderStageConfig, binding: nat,
                           bufferInfo: Buffers.DescriptorBufferInfo, imageInfo: Images.DescriptorImageInfo, descriptorSet: Handle)
    requires BuiltFrom(s.bindings, config)
    ensures WriteBuffer(s, binding, bufferInfo, descriptorSet).Some? <==> binding < |config.bindings|
    ensures WriteImage(s, binding, imageInfo, descriptorSet).Some? <==> binding < |config.bindings|
    ensures binding < |config.bindings| ==>
              && WriteBuffer(s, binding, bufferInfo, descriptorSet).value.descriptorType == config.bindings[binding].descriptorType
              && WriteImage(s, binding, imageInfo, descriptorSet).value.descriptorType == config.bindings[binding].descriptorType
              && WriteBuffer(s, binding, bufferInfo, descriptorSet).value.dstBinding == s.bindings[binding].binding
  {
  }
}

=== FILE: sqr.dfy ===
/** The squaring compute application (src/apps/sqr.rs): two storage buffers
    placed in one host-visible allocation, the input copied in, a compute
    shader dispatched once per element and the output read back. The shader
    program is not part of this model; what one invocation computes from its
    element is the parameter `kernel`. */
module Sqr {
  import opened Vk
  import Bytes
  import Models
  import Device
  import Memory
  import Buffers
  import Commands
  import Descriptors
  import Shaders
  import Pipelines

  // ---------------------------------------------------------------------------
  // Shader configuration

  /** One storage buffer seen by the compute stage. */
  const STORAGE_BINDING: Shaders.BindingInfo := Shaders.BindingInfo(StorageBuffer, 1, STAGE_COMPUTE)

  /** SQR_SHADER_CONFIG: entry `main` of `./shader/sqr.spv`, the input buffer
      at binding 0 and the output buffer at binding 1. */
  const SQR_SHADER_CONFIG: Shaders.ShaderStageConfig :=
    Shaders.ShaderStageConfig("main", "./shader/sqr.spv", [STORAGE_BINDING, STORAGE_BINDING], STAGE_COMPUTE, 0)

  // ---------------------------------------------------------------------------
  // Placement of the two buffers

  function Pow2(k: nat): (r: nat)
    ensures r >= 1
  {
    if k == 0 then 1 else 2 * Pow2(k - 1)
  }

  /** `x & !(2^k - 1)`: `x` with its `k` low bits cleared, bit by bit. */
  function ClearLowBits(x: nat, k: nat): nat
  {
    if k == 0 then x else 2 * ClearLowBits(x / 2, k - 1)
  }

  /** `(size + alignment - 1) & !(alignment - 1)` for the power-of-two
      alignment `2^k` that Vulkan guarantees for memory requirements. */
  function AlignUp(size: nat, k: nat): (r: nat)
    ensures size <= r < size + Pow2(k)
  {
    ClearLowBitsValue(size + Pow2(k) - 1, k);
    RoundUpLeast(size, Pow2(k));
    ClearLowBits(size + Pow2(k) - 1, k)
  }

  /** Division is determined by a quotient and a remainder in range. */
  lemma DivUnique(x: nat, d: nat, q: int, r: int)
    requires d > 0 && x == q * d + r && 0 <= r < d
    ensures x / d == q && x % d == r
  {
    var q', r' := x / d, x % d;
    assert (q - q') * d == r' - r by {
      assert (q - q') * d == q * d - q' * d;
    }
    Models.ScaledAwayFromZero(q - q', d);
  }

  /** Halving and then dividing by `p` is dividing by `2 * p`. */
  lemma HalfThenDivide(x: nat, p: nat)
    requires p > 0
    ensures x / (2 * p) == (x / 2) / p
  {
    var h := x / 2;
    var q, m := h / p, h % p;
    assert x == 2 * h + x % 2;
    assert h == q * p + m;
    assert x == q * (2 * p) + (2 * m + x % 2) by {
      assert 2 * (q * p) == q * (2 * p);
    }
    DivUnique(x, 2 * p, q, 2 * m + x % 2);
  }

  /** Doubling a product doubles either factor. */
  lemma DoubleFactor(q: int, p: int)
    ensures 2 * (q * p) == q * (2 * p)
  {
  }

  /** Clearing the `k` low bits rounds down to a multiple of `2^k`. */
  lemma {:induction false} ClearLowBitsValue(x: nat, k: nat)
    ensures ClearLowBits(x, k) == (x / Pow2(k)) * Pow2(k)
  {
    if k > 0 {
      var p := Pow2(k - 1);
      calc {
        ClearLowBits(x, k);
        2 * ClearLowBits(x / 2, k - 1);
        { ClearLowBitsValue(x / 2, k - 1); }
        2 * (((x / 2) / p) * p);
        { HalfThenDivide(x, p); }
        2 * ((x / (2 * p)) * p);
        { DoubleFactor(x / (2 * p), p); }
        (x / (2 * p)) * (2 * p);
        (x / Pow2(k)) * Pow2(k);
      }
    }
  }

  /** `AlignUp` is the least multiple of the alignment that holds `size`
      bytes. */
  lemma AlignUpLeast(size: nat, k: nat)
    ensures AlignUp(size, k) % Pow2(k) == 0
    ensures size <= AlignUp(size, k) < size + Pow2(k)
    ensures forall j: nat :: size <= j * Pow2(k) ==> AlignUp(size, k) <= j * Pow2(k)
  {
    var p := Pow2(k);
    ClearLowBitsValue(size + p - 1, k);
    RoundUpLeast(size, p);
  }

  /** Rounding `size + p - 1` down to a multiple of `p` gives the least multiple
      of `p` that is at least `size`. */
  lemma RoundUpLeast(size: nat, p: nat)
    requires p > 0
    ensures ((size + p - 1) / p * p) % p == 0
    ensures size <= (size + p - 1) / p * p < size + p
    ensures forall j: nat :: size <= j * p ==> (size + p - 1) / p * p <= j * p
  {
    var x := size + p - 1;
    var q := x / p;
    DivUnique(q * p, p, q, 0);
    assert x == q * p + x % p;
    forall j: nat | size <= j * p
      ensures q * p <= j * p
    {
      if j < q {
        MultiplesApart(q, j, p);
      }
    }
  }

  /** Distinct multiples of `p` are at least `p` apart. */
  lemma MultiplesApart(q: nat, j: nat, p: nat)
    requires j < q
    ensures j * p + p <= q * p
  {
    assert (q - j) * p == q * p - j * p;
    Models.ScaledAwayFromZero(q - j, p);
  }

  /** The input buffer at offset 0 and the output buffer at the aligned size
      fit in the doubled allocation without overlapping, and the output
      buffer's offset meets the alignment. */
  lemma PlacementDisjoint(len: nat, k: nat)
    ensures var b, m := 4 * len, AlignUp(4 * len, k);
            && Apart(0, m, b, 2 * m) && m % Pow2(k) == 0
  {
    AlignUpLeast(4 * len, k);
  }

  // ---------------------------------------------------------------------------
  // The run

  /** How `sqr_compute` ends: the values it reads back (and logs), or the panic
      of an `unwrap`. */
  datatype SqrOutcome =
    | Results(values: seq<bv32>)
    | NoMemoryType
    | NoDescriptorSet
    | SubmitFailed(status: Status)

  /** What the device computes: one invocation per element of the input, each
      storing `kernel` of its element at the same index of the output. */
  function DeviceOutput(kernel: bv32 -> bv32, input: seq<bv32>): (r: seq<bv32>)
    ensures |r| == |input| && forall i :: 0 <= i < |input| ==> r[i] == kernel(input[i])
  {
    seq(|input|, i requires 0 <= i < |input| => kernel(input[i]))
  }

  /** What the output buffer holds once `groups` invocations have run over
      `input`: the first `groups` words are `kernel` of the input's, the others
      keep their `prior` value. */
  function DispatchResult(kernel: bv32 -> bv32, input: seq<bv32>, prior: seq<bv32>, groups: nat): (r: seq<bv32>)
    requires groups <= |input| == |prior|
    ensures |r| == |input|
    ensures forall i :: 0 <= i < groups ==> r[i] == kernel(input[i])
    ensures forall i :: groups <= i < |r| ==> r[i] == prior[i]
  {
    DeviceOutput(kernel, input[..groups]) + prior[groups..]
  }

  /** With one workgroup per element nothing of the output's prior contents is
      left. */
  lemma WholeDispatch(kernel: bv32 -> bv32, input: seq<bv32>, prior: seq<bv32>)
    requires |input| == |prior|
    ensures DispatchResult(kernel, input, prior, |input|) == DeviceOutput(kernel, input)
  {
    assert input[..|input|] == input;
  }

  /** `data.len() as u32` truncates: with 2^32 elements no workgroup runs and
      the output reads back as it was. Below 2^32 every element is computed. */
  lemma DispatchCountTruncates(kernel: bv32 -> bv32, input: seq<bv32>, prior: seq<bv32>)
    requires |input| == |prior|
    ensures |input| == U32_LIMIT ==> DispatchResult(kernel, input, prior, GroupCount(|input|)) == prior
    ensures |input| < U32_LIMIT ==> DispatchResult(kernel, input, prior, GroupCount(|input|)) == DeviceOutput(kernel, input)
  {
    if |input| == U32_LIMIT {
      assert prior[0..] == prior;
    } else if |input| < U32_LIMIT {
      WholeDispatch(kernel, input, prior);
    }
  }

  /** `data.len() as u32`: the number of workgroups, the element count
      truncated to 32 bits. */
  function GroupCount(len: nat): (r: nat)
    ensures r <= len && r < U32_LIMIT
    ensures len < U32_LIMIT ==> r == len
    ensures len == U32_LIMIT ==> r == 0
  {
    len % U32_LIMIT
  }

  /** The two descriptor writes: input buffer at binding 0, output buffer at
      binding 1, each over the whole buffer. */
  function SqrWrites(shader: Shaders.Shader, src: Buffers.DescriptorBufferInfo, dst: Buffers.DescriptorBufferInfo,
                     descriptorSet: Handle): (r: seq<Option<Shaders.WriteDescriptorSet>>)
    requires Shaders.BuiltFrom(shader.bindings, SQR_SHADER_CONFIG)
    ensures |r| == 2 && r[0].Some? && r[1].Some?
    ensures r[0].value.dstBinding == 0 && r[0].value.bufferInfos == [src]
    ensures r[1].value.dstBinding == 1 && r[1].value.bufferInfos == [dst]
    ensures r[0].value.descriptorType == StorageBuffer && r[1].value.descriptorType == StorageBuffer
    ensures r[0].value.dstSet == descriptorSet && r[1].value.dstSet == descriptorSet
  {
    [Shaders.WriteBuffer(shader, 0, src, descriptorSet), Shaders.WriteBuffer(shader, 1, dst, descriptorSet)]
  }

  /** The commands of the compute buffer: the pipeline and set bound by
      `get_bound_cmd_buffer`, then one workgroup per element, the count
      truncated to 32 bits. */
  function SqrCmds(pipeline: Pipelines.CmpPipeline, descriptorSet: Handle, len: nat): (r: seq<Cmd>)
    ensures |r| == 3 && r[..2] == Pipelines.CmpBindCmds(pipeline, descriptorSet)
    ensures r[2] == Dispatch(GroupCount(len), 1, 1)
  {
    Pipelines.CmpBindCmds(pipeline, descriptorSet) + [Dispatch(GroupCount(len), 1, 1)]
  }

  /** `sqr_compute`. The driver's part arrives as parameters: the memory
      properties and the buffers' requirements (`alignExp` the exponent of
      their alignment), the created handles, the allocation's first contents,
      the sets handed back, and the answers to submit and wait. The device's
      part is `kernel`. Vulkan forbids buffers and allocations of size zero,
      hence the non-empty `data`. */
  method SqrCompute(props: Device.MemoryProperties, reqs: Memory.MemoryRequirements, alignExp: nat,
                    cmpPool: Commands.CommandPool, data: seq<bv32>, kernel: bv32 -> bv32,
                    handles: seq<Handle>, initial: seq<bv8>, returnedSets: Option<seq<Handle>>,
                    submitStatus: Status, waitStatus: Status)
    returns (outcome: SqrOutcome, writes: seq<Shaders.WriteDescriptorSet>)
    requires Device.WellFormed(props) && cmpPool.Valid()
    requires 0 < |data| && reqs.alignment == Pow2(alignExp) && |handles| == 7
    requires |initial| == 2 * AlignUp(4 * |data|, alignExp)
    requires returnedSets.Some? ==> |returnedSets.value| == 1
    modifies cmpPool
    ensures cmpPool.Valid()
    ensures outcome.NoMemoryType? <==> Device.FindMemoryType(props, reqs.typeBits, MEMORY_HOST_VISIBLE | MEMORY_HOST_COHERENT).None?
    ensures outcome.NoDescriptorSet? <==> !outcome.NoMemoryType? && returnedSets.None?
    ensures outcome.SubmitFailed? <==> !outcome.NoMemoryType? && returnedSets.Some?
                                       && !(submitStatus.Ok? && waitStatus.Ok?)
    ensures outcome.Results? ==>
              ReadsResult(outcome.values, initial, AlignUp(4 * |data|, alignExp), data, kernel, GroupCount(|data|))
    ensures outcome.Results? && |data| < U32_LIMIT ==> outcome.values == DeviceOutput(kernel, data)
    ensures outcome.Results? || outcome.SubmitFailed? ==>
              && writes == SqrWriteList(handles, returnedSets.value[0], |data|)
              && exists cb :: cb !in old(cmpPool.states) && cmpPool.events == old(cmpPool.events) +
                   Commands.SubmitEvents([cb], [SqrCmds(Pipelines.CmpPipeline(handles[5], handles[6]), returnedSets.value[0], |data|)],
                                         submitStatus, waitStatus)
    ensures outcome.NoMemoryType? || outcome.NoDescriptorSet? ==> cmpPool.events == old(cmpPool.events)
  {
    var found, src, dst := StageInput(props, reqs, alignExp, data, handles[..3], initial);
    if found.None? {
      return NoMemoryType, [];
    }
    var m := AlignUp(4 * |data|, alignExp);
    ghost var staged := found.value.data[..];
    outcome, writes := DispatchAndRead(cmpPool, found.value, src, dst, data, kernel, handles, returnedSets,
                                       submitStatus, waitStatus);
    if outcome.Results? {
      PriorKept(outcome.values, staged, initial, m, data, kernel, GroupCount(|data|));
    }
    DispatchCountTruncates(kernel, data, Bytes.FromWords(initial[m..m + 4 * |data|]));
  }

  /** Lines 63-92 of `sqr_compute`, once the input is staged: the shader, a
      pool for two storage buffers and its set, both buffers written to the
      set, the dispatch submitted and run, and the output read back. The two
      buffers share `memory` and do not overlap; the input buffer holds
      `data`. */
  method DispatchAndRead(cmpPool: Commands.CommandPool, memory: Memory.Arena, src: Buffers.Buffer, dst: Buffers.Buffer,
                         data: seq<bv32>, kernel: bv32 -> bv32, handles: seq<Handle>, returnedSets: Option<seq<Handle>>,
                         submitStatus: Status, waitStatus: Status)
    returns (outcome: SqrOutcome, writes: seq<Shaders.WriteDescriptorSet>)
    requires cmpPool.Valid() && |handles| == 7
    requires returnedSets.Some? ==> |returnedSets.value| == 1
    requires src.handle == handles[1] && dst.handle == handles[2]
    requires src.size == 4 * |data| && dst.size == 4 * |data|
    requires memory.Valid() && memory.mapped && memory.mapOffset == 0 && memory.mapLen == memory.size
    requires src.binding.Some? && src.binding.value.memory == memory
    requires dst.binding.Some? && dst.binding.value.memory == memory
    requires Apart(src.binding.value.offset, dst.binding.value.offset, 4 * |data|, memory.size)
    requires Staged(memory.data[..], src.binding.value.offset, data)
    modifies cmpPool, memory.data
    ensures cmpPool.Valid()
    ensures !outcome.NoMemoryType?
    ensures outcome.NoDescriptorSet? <==> returnedSets.None?
    ensures outcome.SubmitFailed? <==> returnedSets.Some? && !(submitStatus.Ok? && waitStatus.Ok?)
    ensures outcome.Results? ==>
              ReadsResult(outcome.values, old(memory.data[..]), dst.binding.value.offset, data, kernel, GroupCount(|data|))
    ensures outcome.Results? || outcome.SubmitFailed? ==>
              && writes == SqrWriteList(handles, returnedSets.value[0], |data|)
              && exists cb :: cb !in old(cmpPool.states) && cmpPool.events == old(cmpPool.events) +
                   Commands.SubmitEvents([cb], [SqrCmds(Pipelines.CmpPipeline(handles[5], handles[6]), returnedSets.value[0], |data|)],
                                         submitStatus, waitStatus)
    ensures outcome.NoDescriptorSet? ==> cmpPool.events == old(cmpPool.events)
  {
    ghost var staged := memory.data[..];
    writes := [];
    var shader := Shaders.NewShader(SQR_SHADER_CONFIG, handles[3], handles[4]);
    var pool := Descriptors.Build(Descriptors.AddPoolSize(Descriptors.NewBuilder(1), StorageBuffer, 2), handles[0]);
    var descriptorSet := Descriptors.AllocateDescriptorSet(pool, shader.setLayout, returnedSets);
    if descriptorSet.None? {
      return NoDescriptorSet, writes;
    }
    var updates := SqrWrites(shader, src.DescriptorInfo(), dst.DescriptorInfo(), descriptorSet.value);
    writes := [updates[0].value, updates[1].value];
    var pipeline := Pipelines.CmpPipeline(handles[5], handles[6]);
    var submitted := SubmitDispatch(cmpPool, pipeline, descriptorSet.value, |data|, submitStatus, waitStatus);
    if submitted.Failed? {
      return SubmitFailed(submitted), writes;
    }
    var dispatch := SqrCmds(pipeline, descriptorSet.value, |data|)[2];
    assert memory.data[..] == staged;
    var values := RunAndRead(memory, dispatch, src, writes[0].bufferInfos[0], dst, writes[1].bufferInfos[0], data, kernel);
    outcome := Results(values);
  }

  /** Lines 78 to 83 of `sqr_compute` once the dispatch is submitted: the
      device runs it over the buffers the set's descriptors name, and the
      output buffer is read back at its bound offset. */
  method RunAndRead(memory: Memory.Arena, dispatch: Cmd, src: Buffers.Buffer, input: Buffers.DescriptorBufferInfo,
                    dst: Buffers.Buffer, output: Buffers.DescriptorBufferInfo, data: seq<bv32>, kernel: bv32 -> bv32)
    returns (values: seq<bv32>)
    requires memory.Valid() && memory.mapped && memory.mapOffset == 0 && memory.mapLen == memory.size
    requires dispatch.Dispatch? && dispatch.x <= |data|
    requires input == Buffers.DescriptorBufferInfo(src.handle, 0, 4 * |data|)
    requires output == Buffers.DescriptorBufferInfo(dst.handle, 0, 4 * |data|)
    requires src.binding.Some? && src.binding.value.memory == memory
    requires dst.binding.Some? && dst.binding.value.memory == memory
    requires Apart(src.binding.value.offset, dst.binding.value.offset, 4 * |data|, memory.size)
    requires Staged(memory.data[..], src.binding.value.offset, data)
    modifies memory.data
    ensures ReadsResult(values, old(memory.data[..]), dst.binding.value.offset, data, kernel, dispatch.x)
  {
    RunDispatch(memory, dispatch, src, input, dst, output, data, kernel);
    ghost var after := memory.data[..];
    values := ReadBack(memory, 4 * |data|, dst.Offset().value);
    assert memory.data[..] == after;
  }

  /** The device's part of RunAndRead: the output buffer's words once the
      dispatch ran. */
  method RunDispatch(memory: Memory.Arena, dispatch: Cmd, src: Buffers.Buffer, input: Buffers.DescriptorBufferInfo,
                     dst: Buffers.Buffer, output: Buffers.DescriptorBufferInfo, data: seq<bv32>, kernel: bv32 -> bv32)
    requires memory.Valid() && dispatch.Dispatch? && dispatch.x <= |data|
    requires input == Buffers.DescriptorBufferInfo(src.handle, 0, 4 * |data|)
    requires output == Buffers.DescriptorBufferInfo(dst.handle, 0, 4 * |data|)
    requires src.binding.Some? && src.binding.value.memory == memory
    requires dst.binding.Some? && dst.binding.value.memory == memory
    requires Apart(src.binding.value.offset, dst.binding.value.offset, 4 * |data|, memory.size)
    requires Staged(memory.data[..], src.binding.value.offset, data)
    modifies memory.data
    ensures OutputAfter(old(memory.data[..]), memory.data[..], dst.binding.value.offset, data, kernel, dispatch.x)
  {
    var s, d := src.binding.value.offset, dst.binding.value.offset;
    RunKernel(memory, dispatch, src, input, dst, output, kernel, s, d);
    KernelResult(old(memory.data[..]), memory.data[..], data, kernel, s, d, dispatch.x);
  }

  /** The bytes of `data`, word by word, at `at` in `bytes`. */
  predicate Staged(bytes: seq<bv8>, at: nat, data: seq<bv32>) {
    at + 4 * |data| <= |bytes| && bytes[at..at + 4 * |data|] == Bytes.Words(data)
  }

  /** `a` and `b` hold the same `n` bytes at `at`. */
  predicate SameWindow(a: seq<bv8>, b: seq<bv8>, at: nat, n: nat) {
    at + n <= |a| && at + n <= |b| && a[at..at + n] == b[at..at + n]
  }

  /** Two ranges of `b` bytes at `s` and at `d` inside an allocation of `size`
      bytes that do not overlap. */
  predicate Apart(s: nat, d: nat, b: nat, size: nat) {
    s + b <= size && d + b <= size && (s + b <= d || d + b <= s)
  }

  /** The descriptor writes of a run: the input buffer (`handles[1]`) at binding
      0 and the output buffer (`handles[2]`) at binding 1, as storage buffers
      over all their bytes. */
  function SqrWriteList(handles: seq<Handle>, descriptorSet: Handle, len: nat): (r: seq<Shaders.WriteDescriptorSet>)
    requires |handles| >= 3
    ensures |r| == 2
    ensures forall i :: 0 <= i < 2 ==>
              && r[i].dstSet == descriptorSet && r[i].dstBinding == i
              && r[i].descriptorType == StorageBuffer && r[i].imageInfos == []
              && r[i].bufferInfos == [Buffers.DescriptorBufferInfo(handles[i + 1], 0, 4 * len)]
  {
    [Shaders.WriteDescriptorSet(descriptorSet, 0, StorageBuffer, [Buffers.DescriptorBufferInfo(handles[1], 0, 4 * len)], []),
     Shaders.WriteDescriptorSet(descriptorSet, 1, StorageBuffer, [Buffers.DescriptorBufferInfo(handles[2], 0, 4 * len)], [])]
  }

  /** Lines 33 to 61 of `sqr_compute`: the two buffers, the allocation of twice
      the aligned size holding the input buffer at 0 and the output buffer at
      the aligned size, the whole allocation mapped and the input copied in.
      The output buffer's bytes are still those the driver handed out. */
  method StageInput(props: Device.MemoryProperties, reqs: Memory.MemoryRequirements, alignExp: nat,
                    data: seq<bv32>, handles: seq<Handle>, initial: seq<bv8>)
    returns (found: Option<Memory.Arena>, src: Buffers.Buffer, dst: Buffers.Buffer)
    requires Device.WellFormed(props) && 0 < |data| && reqs.alignment == Pow2(alignExp) && |handles| == 3
    requires |initial| == 2 * AlignUp(4 * |data|, alignExp)
    ensures found.Some? <==> Device.FindMemoryType(props, reqs.typeBits, MEMORY_HOST_VISIBLE | MEMORY_HOST_COHERENT).Some?
    ensures src.handle == handles[1] && dst.handle == handles[2]
    ensures src.size == 4 * |data| && dst.size == 4 * |data|
    ensures found.Some? ==> var memory, b, m := found.value, 4 * |data|, AlignUp(4 * |data|, alignExp);
              && fresh(memory) && fresh(memory.data) && memory.Valid() && memory.size == 2 * m && b <= m
              && memory.mapped && memory.mapOffset == 0 && memory.mapLen == memory.size
              && Staged(memory.data[..], 0, data) && SameWindow(memory.data[..], initial, m, b)
              && src.binding == Some(Memory.MemoryBinding(memory, 0))
              && dst.binding == Some(Memory.MemoryBinding(memory, m))
  {
    var bSize := 4 * |data|;  // `buffer_b_size`: four bytes per `i32` element
    src := new Buffers.Buffer(handles[1], bSize);
    dst := new Buffers.Buffer(handles[2], bSize);
    var m := AlignUp(bSize, alignExp);
    found := Memory.Allocate(props, reqs, MEMORY_HOST_VISIBLE | MEMORY_HOST_COHERENT, handles[0], initial);
    if found.None? {
      return;
    }
    var memory := found.value;
    src.BindMemory(memory, 0);
    dst.BindMemory(memory, m);
    memory.Map(WHOLE_SIZE, 0);
    assert Bytes.Words(data)[..bSize] == Bytes.Words(data);
    var written := memory.Write(Bytes.Words(data), bSize, 0);
    StagedLayout(initial, Bytes.Words(data), |data|, m);
  }

  /** The allocation once the input's `4 * k` bytes `w` are written at its
      start: the input buffer holds `w` and the output buffer, `m` bytes in,
      still holds the driver's bytes. */
  lemma StagedLayout(initial: seq<bv8>, w: seq<bv8>, k: nat, m: nat)
    requires |w| == 4 * k && 4 * k <= m && m + 4 * k <= |initial|
    ensures Memory.Splice(initial, 0, w)[0..0 + 4 * k] == w
    ensures SameWindow(Memory.Splice(initial, 0, w), initial, m, 4 * k)
  {
    var rest := initial[|w|..];
    assert Memory.Splice(initial, 0, w) == w + rest by {
      assert initial[..0] == [];
    }
    assert (w + rest)[m..m + 4 * k] == rest[m - |w|..m - |w| + 4 * k];
  }

  /** The output buffer's earlier words, read from the staged allocation, are
      the driver's. */
  lemma PriorKept(values: seq<bv32>, staged: seq<bv8>, initial: seq<bv8>, m: nat, data: seq<bv32>,
                  kernel: bv32 -> bv32, groups: nat)
    requires ReadsResult(values, staged, m, data, kernel, groups)
    requires SameWindow(staged, initial, m, 4 * |data|)
    ensures ReadsResult(values, initial, m, data, kernel, groups)
  {
  }

  /** Lines 73 to 78 of `sqr_compute`: a new buffer of the compute pool, with
      the pipeline and set bound and the dispatch recorded, submitted. */
  method SubmitDispatch(cmpPool: Commands.CommandPool, pipeline: Pipelines.CmpPipeline, descriptorSet: Handle, len: nat,
                        submitStatus: Status, waitStatus: Status) returns (result: Status)
    requires cmpPool.Valid()
    modifies cmpPool
    ensures cmpPool.Valid()
    ensures result == Commands.SubmitResult(submitStatus, waitStatus)
    ensures exists cb :: cb !in old(cmpPool.states) && cmpPool.events == old(cmpPool.events) +
              Commands.SubmitEvents([cb], [SqrCmds(pipeline, descriptorSet, len)], submitStatus, waitStatus)
  {
    ghost var before := cmpPool.events;
    ghost var cmds := SqrCmds(pipeline, descriptorSet, len);
    var cb := cmpPool.GetCommandBuffer();
    cmpPool.Record(cb, Pipelines.CmpBindCmds(pipeline, descriptorSet));
    cmpPool.Record(cb, [Dispatch(GroupCount(len), 1, 1)]);
    assert cmpPool.states[cb] == Commands.Recording(true);
    assert cmpPool.recorded[cb] == cmds;
    assert cmpPool.Contents([cb]) == [cmds];
    assert Commands.Distinct([cb]);
    result := cmpPool.SubmitCommandBuffers([cb], submitStatus, waitStatus);
    assert cmpPool.events == before + Commands.SubmitEvents([cb], [cmds], submitStatus, waitStatus);
  }

  /** Where a storage-buffer binding's bytes start in memory: the buffer's
      bound offset plus the descriptor's own offset. */
  function BindingBase(buffer: Buffers.Buffer, info: Buffers.DescriptorBufferInfo): nat
    reads buffer
    requires buffer.binding.Some?
  {
    buffer.binding.value.offset + info.offset
  }

  /** The device running the recorded `dispatch` over the set that binds
      `input` (naming `src`) at binding 0 and `output` (naming `dst`) at
      binding 1: one invocation per workgroup along x, invocation i loading
      word i of binding 0 and storing `kernel` of it as word i of binding 1.
      `s` and `d` are the addresses the two descriptors resolve to. The
      invocations stay inside both descriptors' ranges. */
  method RunKernel(memory: Memory.Arena, dispatch: Cmd, src: Buffers.Buffer, input: Buffers.DescriptorBufferInfo,
                   dst: Buffers.Buffer, output: Buffers.DescriptorBufferInfo, kernel: bv32 -> bv32, s: nat, d: nat)
    requires memory.Valid() && dispatch.Dispatch?
    requires input.buffer == src.handle && output.buffer == dst.handle
    requires src.binding.Some? && src.binding.value.memory == memory && s == BindingBase(src, input)
    requires dst.binding.Some? && dst.binding.value.memory == memory && d == BindingBase(dst, output)
    requires 4 * dispatch.x <= input.range && s + input.range <= memory.size
    requires 4 * dispatch.x <= output.range && d + output.range <= memory.size
    modifies memory.data
    ensures memory.data[..] == Memory.Splice(old(memory.data[..]), d,
              Bytes.Words(DeviceOutput(kernel, Bytes.FromWords(old(memory.data[..])[s..s + 4 * dispatch.x]))))
  {
    var results := DeviceOutput(kernel, Bytes.FromWords(memory.data[s..s + 4 * dispatch.x]));
    memory.DeviceStore(d, Bytes.Words(results));
  }

  /** The output buffer after the dispatch, as words: `kernel` applied to the
      first `groups` words of the input buffer, which holds `data` at `s`, and
      the output buffer's earlier words after them. The buffers do not
      overlap. */
  lemma KernelResult(before: seq<bv8>, after: seq<bv8>, data: seq<bv32>, kernel: bv32 -> bv32, s: nat, d: nat, groups: nat)
    requires groups <= |data| && Apart(s, d, 4 * |data|, |before|)
    requires Staged(before, s, data)
    requires after == Memory.Splice(before, d, Bytes.Words(DeviceOutput(kernel, Bytes.FromWords(before[s..s + 4 * groups]))))
    ensures OutputAfter(before, after, d, data, kernel, groups)
  {
    Bytes.LeadingWords(before, s, data, groups);
    StoredResult(before, d, kernel, data, groups);
  }

  /** The `|data|` words at `d` in `after` are what `groups` invocations of
      `kernel` over `data` leave of the words at `d` in `before`. */
  predicate OutputAfter(before: seq<bv8>, after: seq<bv8>, d: nat, data: seq<bv32>, kernel: bv32 -> bv32, groups: nat)
  {
    && groups <= |data| && d + 4 * |data| <= |before| && d + 4 * |data| <= |after|
    && Bytes.FromWords(after[d..d + 4 * |data|])
       == DispatchResult(kernel, data, Bytes.FromWords(before[d..d + 4 * |data|]), groups)
  }

  /** `values` are the output buffer's words once `groups` invocations of
      `kernel` ran over `data`, the buffer's bytes at `d` in `before` being
      those it held when the dispatch was submitted. */
  predicate ReadsResult(values: seq<bv32>, before: seq<bv8>, d: nat, data: seq<bv32>, kernel: bv32 -> bv32, groups: nat)
  {
    && groups <= |data| && d + 4 * |data| <= |before|
    && values == DispatchResult(kernel, data, Bytes.FromWords(before[d..d + 4 * |data|]), groups)
  }

  /** The output buffer at `d` once the invocations stored `kernel` of the
      first `groups` elements of `data` there. */
  lemma StoredResult(before: seq<bv8>, d: nat, kernel: bv32 -> bv32, data: seq<bv32>, groups: nat)
    requires groups <= |data| && d + 4 * |data| <= |before|
    ensures Bytes.FromWords(Memory.Splice(before, d, Bytes.Words(DeviceOutput(kernel, data[..groups])))[d..d + 4 * |data|])
            == DispatchResult(kernel, data, Bytes.FromWords(before[d..d + 4 * |data|]), groups)
  {
    var results, prior := DeviceOutput(kernel, data[..groups]), Bytes.FromWords(before[d..d + 4 * |data|]);
    calc {
      Bytes.FromWords(Memory.Splice(before, d, Bytes.Words(results))[d..d + 4 * |data|]);
      { StoredWords(before, d, results, |data|); }
      results + prior[|results|..];
      results + prior[groups..];
      DispatchResult(kernel, data, prior, groups);
    }
  }

  /** The `n` words at `d` once the words `results` were stored there:
      `results`, then the later words as they were. */
  lemma StoredWords(before: seq<bv8>, d: nat, results: seq<bv32>, n: nat)
    requires |results| <= n && d + 4 * n <= |before|
    ensures Bytes.FromWords(Memory.Splice(before, d, Bytes.Words(results))[d..d + 4 * n])
            == results + Bytes.FromWords(before[d..d + 4 * n])[|results|..]
  {
    var m := |results|;
    var w, rest := Bytes.Words(results), before[d + 4 * m..d + 4 * n];
    calc {
      Bytes.FromWords(Memory.Splice(before, d, w)[d..d + 4 * n]);
      { StoredWindow(before, d, w, m, n); }
      Bytes.FromWords(w + rest);
      { Bytes.WordsThenBytes(results, rest); }
      results + Bytes.FromWords(rest);
      { Bytes.WordsSplit(before, d, m, n); }
      results + Bytes.FromWords(before[d..d + 4 * n])[m..];
    }
  }

  /** The `n` words' bytes at `d` once the `m` words' bytes `w` were stored
      at `d`. */
  lemma StoredWindow(before: seq<bv8>, d: nat, w: seq<bv8>, m: nat, n: nat)
    requires |w| == 4 * m && m <= n && d + 4 * n <= |before|
    ensures Memory.Splice(before, d, w)[d..d + 4 * n] == w + before[d + 4 * m..d + 4 * n]
  {
  }

  /** Lines 80 to 83 of `sqr_compute`: `bSize` bytes read back at the output
      buffer's bound offset, as words. */
  method ReadBack(memory: Memory.Arena, bSize: nat, offset: nat) returns (values: seq<bv32>)
    requires memory.Valid() && memory.mapped && memory.mapOffset == 0 && offset + bSize <= memory.mapLen
    ensures values == Bytes.FromWords(memory.data[..][offset..offset + bSize])
  {
    var back := memory.Read(bSize, offset);
    assert back.value == memory.data[..][offset..offset + bSize];
    values := Bytes.FromWords(back.value);
  }
}

=== FILE: swapchain.dfy ===
/** The swapchain with its per-image frame bundles and its per-slot
    synchronisation objects (src/core/swapchain.rs). Frame slots (0 .. N-1)
    index the semaphores and fences; acquired image indices index the frame
    bundles. Fence status is kept in `signalled`; the device's side of a fence
    is the environment method `Complete`. */
module Swapchains {
  import opened Vk

  /** MAX_IN_FLIGHT_FRAMES: the number of frame slots. */
  const MAX_IN_FLIGHT_FRAMES: nat := 2

  /** VkSurfaceFormatKHR */
  datatype SurfaceFormat = SurfaceFormat(format: Format, colorSpace: ColorSpace)

  /** The surface format the core asks for (src/core/mod.rs). */
  const PREFERRED_SURFACE_FORMAT: Format := R8G8B8A8Unorm
  const PREFERRED_SURFACE_COLORS: ColorSpace := SrgbNonlinear

  predicate Preferred(f: SurfaceFormat) {
    f.format == PREFERRED_SURFACE_FORMAT && f.colorSpace == PREFERRED_SURFACE_COLORS
  }

  /** The index of the first preferred format, as `iter().find`. */
  function FindPreferred(formats: seq<SurfaceFormat>): (r: Option<nat>)
    ensures r.Some? ==> r.value < |formats| && Preferred(formats[r.value])
    ensures r.Some? ==> forall j :: 0 <= j < r.value ==> !Preferred(formats[j])
    ensures r.None? <==> forall j :: 0 <= j < |formats| ==> !Preferred(formats[j])
  {
    if formats == [] then None
    else if Preferred(formats[0]) then Some(0)
    else
      var rest := FindPreferred(formats[1..]);
      if rest.Some? then Some(rest.value + 1) else None
  }

  /** `pick_surface_format`: the first enumerated format that has both the
      preferred format and colour space, else the first enumerated one; None
      where the source panics on an empty list. */
  function PickSurfaceFormat(formats: seq<SurfaceFormat>): (r: Option<SurfaceFormat>)
    ensures r.None? <==> formats == []
    ensures r.Some? ==> r.value in formats
    ensures r.Some? && (exists i :: 0 <= i < |formats| && Preferred(formats[i])) ==>
      && Preferred(r.value)
      && (exists i :: 0 <= i < |formats| && formats[i] == r.value && (forall j :: 0 <= j < i ==> !Preferred(formats[j])))
    ensures r.Some? && (forall i :: 0 <= i < |formats| ==> !Preferred(formats[i])) ==> r.value == formats[0]
  {
    var found := FindPreferred(formats);
    if found.Some? then Some(formats[found.value])
    else if formats == [] then None
    else Some(formats[0])
  }

  /** VkPresentModeKHR */
  datatype PresentMode = Immediate | Mailbox | Fifo | FifoRelaxed

  /** The present mode: IMMEDIATE when the surface lists it, FIFO (which every
      surface supports) otherwise. */
  function ChoosePresentMode(modes: seq<PresentMode>): (r: PresentMode)
    ensures r == Immediate <==> Immediate in modes
    ensures r == Immediate || r == Fifo
  {
    if Immediate in modes then Immediate else Fifo
  }

  /** The swapchain extent. A surface reports a current width of 0xFFFFFFFF when
      the swapchain decides the size (the `currentExtent` special value of
      VkSurfaceCapabilitiesKHR); the window's extent is used then. */
  function ChooseExtent(current: Extent2D, window: Extent2D): (r: Extent2D)
    ensures current.width == U32_MAX ==> r == window
    ensures current.width != U32_MAX ==> r == current
  {
    if current.width == U32_MAX then window else current
  }

  /** The VkSurfaceCapabilitiesKHR fields the core reads. */
  datatype SurfaceCapabilities = SurfaceCapabilities(minImageCount: nat, currentExtent: Extent2D)

  /** The VkSwapchainCreateInfoKHR fields the core chooses (usage colour
      attachment, exclusive sharing, opaque alpha and clipping are fixed). */
  datatype SwapchainInfo = SwapchainInfo(
    minImageCount: nat, format: SurfaceFormat, extent: Extent2D, presentMode: PresentMode, arrayLayers: nat)

  /** The create info of `KewSwapchain::new`: one image more than the surface's
      minimum, the picked format, the chosen extent and present mode. */
  function SwapchainCreateInfo(caps: SurfaceCapabilities, format: SurfaceFormat, window: Extent2D,
                               modes: seq<PresentMode>): (r: SwapchainInfo)
    ensures r.minImageCount == caps.minImageCount + 1
    ensures r.format == format && r.arrayLayers == 1
    ensures r.extent == ChooseExtent(caps.currentExtent, window)
    ensures r.presentMode == ChoosePresentMode(modes)
  {
    SwapchainInfo(caps.minImageCount + 1, format, ChooseExtent(caps.currentExtent, window),
                  ChoosePresentMode(modes), 1)
  }

  /** KewFrameBundle: the framebuffer of one swapchain image and its attachment. */
  datatype FrameBundle = FrameBundle(framebuffer: Handle, image: Handle, view: Handle)

  /** `create_frame_bundles`: one bundle per swapchain image, in the order the
      swapchain enumerates its images; `views` and `framebuffers` are the
      handles the driver creates for image i. */
  method CreateFrameBundles(images: seq<Handle>, views: seq<Handle>, framebuffers: seq<Handle>)
    returns (bundles: seq<FrameBundle>)
    requires |views| == |images| && |framebuffers| == |images|
    ensures |bundles| == |images|
    ensures forall i :: 0 <= i < |images| ==>
      bundles[i].image == images[i] && bundles[i].view == views[i] && bundles[i].framebuffer == framebuffers[i]
  {
    bundles := [];
    for i := 0 to |images|
      invariant |bundles| == i
      invariant forall k :: 0 <= k < i ==>
        bundles[k].image == images[k] && bundles[k].view == views[k] && bundles[k].framebuffer == framebuffers[k]
    {
      bundles := bundles + [FrameBundle(framebuffers[i], images[i], views[i])];
    }
  }

  /** What the swapchain asks of the driver, in order. */
  datatype SyncEvent =
    | ResetFences(fences: seq<Handle>)
    | QueueSubmit(queue: Handle, waitSemaphores: seq<Handle>, waitStages: seq<PipelineStage>,
                  commandBuffers: seq<Handle>, signalSemaphores: seq<Handle>, fence: Handle)
    | QueuePresent(queue: Handle, waitSemaphores: seq<Handle>, swapchain: Handle, imageIndex: nat)
    | AcquireNextImage(swapchain: Handle, semaphore: Handle)
    | WaitForFences(fences: seq<Handle>, waitAll: bool)
    | DestroyFence(fence: Handle)
    | DestroySwapchain(swapchain: Handle)
    | DestroyRenderPass(renderPass: Handle)
    | DestroySemaphore(semaphore: Handle)
    | DestroyImageView(view: Handle)
    | DestroyFramebuffer(framebuffer: Handle)

  predicate IsDestroy(e: SyncEvent) {
    e.DestroyFence? || e.DestroySwapchain? || e.DestroyRenderPass? || e.DestroySemaphore?
    || e.DestroyImageView? || e.DestroyFramebuffer?
  }

  /** Every submit that carries a fence comes right after that fence's reset. */
  predicate ResetBeforeSubmit(events: seq<SyncEvent>) {
    forall k :: 0 <= k < |events| && events[k].QueueSubmit? ==>
      k > 0 && events[k - 1] == ResetFences([events[k].fence])
  }

  /** Nothing is destroyed before a wait on all of `fences`. */
  predicate WaitPrecedesDestroy(events: seq<SyncEvent>, fences: seq<Handle>) {
    forall k :: 0 <= k < |events| && IsDestroy(events[k]) ==>
      exists j :: 0 <= j < k && events[j] == WaitForFences(fences, true)
  }

  /** The result of `acquire_next_image`: the image index and the suboptimal
      flag, or an error code. */
  datatype AcquireResult = Acquired(index: nat, suboptimal: bool) | AcquireFailed(code: int)

  /** The driver's answers to the three calls of `submit_and_present`: the
      fence reset, the submit and the present. */
  datatype PresentAnswers = PresentAnswers(reset: Status, submit: Status, present: Status)

  /** How `submit_and_present` ends: `Ok` when all three calls succeed,
      otherwise the first failure, the one that panics. */
  function PresentStatus(answers: PresentAnswers): (r: Status)
    ensures r.Ok? <==> answers.reset.Ok? && answers.submit.Ok? && answers.present.Ok?
    ensures answers.reset.Failed? ==> r == answers.reset
    ensures answers.reset.Ok? && answers.submit.Failed? ==> r == answers.submit
    ensures answers.reset.Ok? && answers.submit.Ok? ==> r == answers.present
  {
    if answers.reset.Failed? then answers.reset
    else if answers.submit.Failed? then answers.submit
    else answers.present
  }

  /** The destruction sequence of `Drop`: wait for every fence, then destroy the
      fences, the swapchain, the render pass, the image-available and the
      render-finished semaphores; the frame bundles are dropped last, each
      destroying its view and then its framebuffer. */
  function TeardownEvents(fences: seq<Handle>, swapchain: Handle, renderPass: Handle,
                          imageAvailable: seq<Handle>, renderFinished: seq<Handle>,
                          bundles: seq<FrameBundle>): (r: seq<SyncEvent>)
    ensures |r| > 0 && r[0] == WaitForFences(fences, true)
    ensures forall k :: 1 <= k < |r| ==> IsDestroy(r[k])
  {
    var fs := seq(|fences|, i requires 0 <= i < |fences| => DestroyFence(fences[i]));
    var ias := seq(|imageAvailable|, i requires 0 <= i < |imageAvailable| => DestroySemaphore(imageAvailable[i]));
    var rfs := seq(|renderFinished|, i requires 0 <= i < |renderFinished| => DestroySemaphore(renderFinished[i]));
    var bs := BundleTeardown(bundles);
    var rest := fs + [DestroySwapchain(swapchain), DestroyRenderPass(renderPass)] + ias + rfs + bs;
    assert forall k :: 0 <= k < |rest| ==> IsDestroy(rest[k]);
    [WaitForFences(fences, true)] + rest
  }

  /** The frame bundles' drops, in vector order. */
  function BundleTeardown(bundles: seq<FrameBundle>): (r: seq<SyncEvent>)
    ensures |r| == 2 * |bundles|
    ensures forall i :: 0 <= i < |bundles| ==>
      r[2 * i] == DestroyImageView(bundles[i].view) && r[2 * i + 1] == DestroyFramebuffer(bundles[i].framebuffer)
    ensures forall k :: 0 <= k < |r| ==> IsDestroy(r[k])
  {
    if bundles == [] then []
    else [DestroyImageView(bundles[0].view), DestroyFramebuffer(bundles[0].framebuffer)] + BundleTeardown(bundles[1..])
  }

  /** KewSwapchain */
  class Swapchain {
    const handle: Handle
    const renderPass: Handle
    const presentQueue: Handle
    const extent: Extent2D
    const format: SurfaceFormat
    const info: SwapchainInfo
    const frameBundles: seq<FrameBundle>
    const imageAvailable: seq<Handle>
    const renderFinished: seq<Handle>
    const fences: seq<Handle>
    var signalled: seq<bool>
    var events: seq<SyncEvent>
    var destroyed: bool

    ghost predicate Valid()
      reads this
    {
      && |imageAvailable| == MAX_IN_FLIGHT_FRAMES
      && |renderFinished| == MAX_IN_FLIGHT_FRAMES
      && |fences| == MAX_IN_FLIGHT_FRAMES
      && |signalled| == MAX_IN_FLIGHT_FRAMES
      && ResetBeforeSubmit(events)
      && WaitPrecedesDestroy(events, fences)
      && (destroyed <==> exists k :: 0 <= k < |events| && IsDestroy(events[k]))
    }

    /** The body of `KewSwapchain::new` once the surface format is picked. The
        driver's answers are parameters: the surface's capabilities, present
        modes and formats, and the handles it creates; `semaphores` holds the
        two semaphores created by each turn of the slot loop, `newFences` the
        fence of each turn. */
    constructor (surfaceFormat: SurfaceFormat, caps: SurfaceCapabilities, window: Extent2D,
                 modes: seq<PresentMode>, presentQueue: Handle, swapchain: Handle, renderPass: Handle,
                 images: seq<Handle>, views: seq<Handle>, framebuffers: seq<Handle>,
                 semaphores: seq<Handle>, newFences: seq<Handle>)
      requires |views| == |images| && |framebuffers| == |images|
      requires |semaphores| == 2 * MAX_IN_FLIGHT_FRAMES && |newFences| == MAX_IN_FLIGHT_FRAMES
      ensures Valid() && !destroyed && events == []
      ensures handle == swapchain && this.renderPass == renderPass && this.presentQueue == presentQueue
      ensures format == surfaceFormat
      ensures info == SwapchainCreateInfo(caps, surfaceFormat, window, modes)
      ensures extent == ChooseExtent(caps.currentExtent, window)
      ensures |frameBundles| == |images|
      ensures forall i :: 0 <= i < |images| ==>
        frameBundles[i] == FrameBundle(framebuffers[i], images[i], views[i])
      ensures forall i :: 0 <= i < MAX_IN_FLIGHT_FRAMES ==>
        imageAvailable[i] == semaphores[2 * i] && renderFinished[i] == semaphores[2 * i + 1]
        && fences[i] == newFences[i]
      // fences are created signalled
      ensures forall i :: 0 <= i < MAX_IN_FLIGHT_FRAMES ==> signalled[i]
    {
      var bundles := CreateFrameBundles(images, views, framebuffers);
      var ia: seq<Handle> := [];
      var rf: seq<Handle> := [];
      var fs: seq<Handle> := [];
      for i := 0 to MAX_IN_FLIGHT_FRAMES
        invariant |ia| == i && |rf| == i && |fs| == i
        invariant forall k :: 0 <= k < i ==>
          ia[k] == semaphores[2 * k] && rf[k] == semaphores[2 * k + 1] && fs[k] == newFences[k]
      {
        ia := ia + [semaphores[2 * i]];
        rf := rf + [semaphores[2 * i + 1]];
        fs := fs + [newFences[i]];
      }
      handle := swapchain;
      this.renderPass := renderPass;
      this.presentQueue := presentQueue;
      format := surfaceFormat;
      info := SwapchainCreateInfo(caps, surfaceFormat, window, modes);
      extent := ChooseExtent(caps.currentExtent, window);
      frameBundles := bundles;
      imageAvailable := ia;
      renderFinished := rf;
      fences := fs;
      signalled := [true, true];
      events := [];
      destroyed := false;
    }

    /** `frame_in_use`: the slot's fence is not signalled, which holds from a
        successful reset in `SubmitAndPresent` until `Complete`. */
    predicate FrameInUse(frameIdx: nat): (inUse: bool)
      requires Valid() && frameIdx < MAX_IN_FLIGHT_FRAMES
      reads this
      ensures inUse <==> !signalled[frameIdx]
    {
      !signalled[frameIdx]
    }

    /** The device signalling the fence of a slot whose work has completed. */
    method Complete(frameIdx: nat)
      requires Valid() && frameIdx < MAX_IN_FLIGHT_FRAMES
      modifies this`signalled
      ensures Valid() && signalled == old(signalled)[frameIdx := true]
    {
      signalled := signalled[frameIdx := true];
    }

    /** `next_image_idx`: acquires an image, signalling the slot's
        image-available semaphore; the driver's answer is `result`. */
    method NextImageIdx(frameIdx: nat, result: AcquireResult) returns (r: AcquireResult)
      requires Valid() && frameIdx < MAX_IN_FLIGHT_FRAMES
      modifies this`events
      ensures Valid() && r == result
      ensures events == old(events) + [AcquireNextImage(handle, imageAvailable[frameIdx])]
    {
      ExtendHistory(events, [AcquireNextImage(handle, imageAvailable[frameIdx])], fences);
      events := events + [AcquireNextImage(handle, imageAvailable[frameIdx])];
      r := result;
    }

    /** `begin_render_pass`: the commands recorded for image `imageIdx`, drawing
        into that image's framebuffer over the whole extent. */
    function BeginRenderPassCmds(imageIdx: nat): (cmds: seq<Cmd>)
      requires imageIdx < |frameBundles|
      reads this
      ensures |cmds| == 3
      ensures cmds[0].BeginRenderPass? && cmds[0].framebuffer == frameBundles[imageIdx].framebuffer
      ensures cmds[0].renderPass == renderPass && cmds[0].area == extent
      ensures cmds[1] == SetViewport(0, extent) && cmds[2] == SetScissor(0, extent)
    {
      [BeginRenderPass(renderPass, frameBundles[imageIdx].framebuffer, extent),
       SetViewport(0, extent), SetScissor(0, extent)]
    }

    /** `end_render_pass` */
    function EndRenderPassCmds(): (cmds: seq<Cmd>)
      ensures cmds == [EndRenderPass]
    {
      [EndRenderPass]
    }

    /** What `submit_and_present` hands to the device for slot `frameIdx`: the
        fence reset, the submission of `cb` and the presentation of image
        `imageIdx`, in that order, up to the first call that fails. */
    function SubmitPresentEvents(cb: Handle, imageIdx: nat, frameIdx: nat, gfxQueue: Handle, answers: PresentAnswers): seq<SyncEvent>
      requires frameIdx < |fences| && frameIdx < |imageAvailable| && frameIdx < |renderFinished|
    {
      var reset := ResetFences([fences[frameIdx]]);
      var submit := QueueSubmit(gfxQueue, [imageAvailable[frameIdx]], [ColorAttachmentOutput], [cb],
                                [renderFinished[frameIdx]], fences[frameIdx]);
      var present := QueuePresent(presentQueue, [renderFinished[frameIdx]], handle, imageIdx);
      if answers.reset.Failed? then [reset]
      else if answers.submit.Failed? then [reset, submit]
      else [reset, submit, present]
    }

    /** `submit_and_present`: resets the slot's fence, submits `cb` waiting on
        the slot's image-available semaphore at the colour-output stage and
        signalling the slot's render-finished semaphore and fence, then
        presents image `imageIdx` once rendering has finished. The driver's
        answers to the three calls are `answers`; a failed call panics, so the
        calls after it are not made, and the first failure is returned. */
    method SubmitAndPresent(cb: Handle, imageIdx: nat, frameIdx: nat, gfxQueue: Handle, answers: PresentAnswers)
      returns (status: Status)
      requires Valid() && !destroyed && frameIdx < MAX_IN_FLIGHT_FRAMES
      modifies this`signalled, this`events
      ensures Valid() && !destroyed
      ensures status == PresentStatus(answers)
      ensures signalled == if answers.reset.Ok? then old(signalled)[frameIdx := false] else old(signalled)
      ensures events == old(events) + SubmitPresentEvents(cb, imageIdx, frameIdx, gfxQueue, answers)
    {
      var extra := SubmitPresentEvents(cb, imageIdx, frameIdx, gfxQueue, answers);
      ExtendHistory(events, extra, fences);
      if answers.reset.Ok? {
        signalled := signalled[frameIdx := false];
      }
      events := events + extra;
      status := PresentStatus(answers);
    }

    /** `Drop`: waits until every fence is signalled, then destroys everything. */
    method Teardown()
      requires Valid() && !destroyed
      modifies this`signalled, this`events, this`destroyed
      ensures Valid() && destroyed
      ensures forall i :: 0 <= i < MAX_IN_FLIGHT_FRAMES ==> signalled[i]
      ensures events == old(events) + TeardownEvents(fences, handle, renderPass, imageAvailable, renderFinished, frameBundles)
    {
      var tail := TeardownEvents(fences, handle, renderPass, imageAvailable, renderFinished, frameBundles);
      TeardownWaitsFirst(fences, handle, renderPass, imageAvailable, renderFinished, frameBundles);
      AppendTeardown(events, tail, fences);
      events := events + tail;
      signalled := [true, true];
      destroyed := true;
    }
  }

  /** Appending events that destroy nothing and reset each submit's fence just
      before it keeps both ordering rules and destroys nothing. */
  lemma ExtendHistory(before: seq<SyncEvent>, extra: seq<SyncEvent>, fences: seq<Handle>)
    requires ResetBeforeSubmit(before) && WaitPrecedesDestroy(before, fences)
    requires ResetBeforeSubmit(extra) && forall k :: 0 <= k < |extra| ==> !IsDestroy(extra[k])
    ensures ResetBeforeSubmit(before + extra) && WaitPrecedesDestroy(before + extra, fences)
    ensures (exists k :: 0 <= k < |before + extra| && IsDestroy((before + extra)[k]))
        <==> (exists k :: 0 <= k < |before| && IsDestroy(before[k]))
  {
    ExtendResets(before, extra);
    ExtendWaits(before, extra, fences);
    ExtendDestroys(before, extra);
  }

  /** Two histories in which every submit follows its fence's reset join into
      one that has the same property. */
  lemma ExtendResets(before: seq<SyncEvent>, extra: seq<SyncEvent>)
    requires ResetBeforeSubmit(before) && ResetBeforeSubmit(extra)
    ensures ResetBeforeSubmit(before + extra)
  {
    var all := before + extra;
    forall k | 0 <= k < |all| && all[k].QueueSubmit?
      ensures k > 0 && all[k - 1] == ResetFences([all[k].fence])
    {
      if k < |before| {
        assert all[k] == before[k];
      } else {
        assert all[k] == extra[k - |before|];
        assert all[k - 1] == extra[k - 1 - |before|];
      }
    }
  }

  /** Extending a history by events that destroy nothing keeps every
      destruction after the wait. */
  lemma ExtendWaits(before: seq<SyncEvent>, extra: seq<SyncEvent>, fences: seq<Handle>)
    requires WaitPrecedesDestroy(before, fences)
    requires forall k :: 0 <= k < |extra| ==> !IsDestroy(extra[k])
    ensures WaitPrecedesDestroy(before + extra, fences)
  {
    var all := before + extra;
    forall k | 0 <= k < |all| && IsDestroy(all[k])
      ensures exists j :: 0 <= j < k && all[j] == WaitForFences(fences, true)
    {
      assert all[k] == before[k];
      var j :| 0 <= j < k && before[j] == WaitForFences(fences, true);
      assert all[j] == before[j];
    }
  }

  /** Extending a history by events that destroy nothing records a destruction
      exactly when the history already did. */
  lemma ExtendDestroys(before: seq<SyncEvent>, extra: seq<SyncEvent>)
    requires forall k :: 0 <= k < |extra| ==> !IsDestroy(extra[k])
    ensures (exists k :: 0 <= k < |before + extra| && IsDestroy((before + extra)[k]))
        <==> (exists k :: 0 <= k < |before| && IsDestroy(before[k]))
  {
    var all := before + extra;
    if exists k :: 0 <= k < |all| && IsDestroy(all[k]) {
      var k :| 0 <= k < |all| && IsDestroy(all[k]);
      assert all[k] == before[k];
    }
    if exists k :: 0 <= k < |before| && IsDestroy(before[k]) {
      var k :| 0 <= k < |before| && IsDestroy(before[k]);
      assert all[k] == before[k];
    }
  }

  /** Appending a teardown sequence to a history without destructions keeps both
      ordering rules and records a destruction. */
  lemma AppendTeardown(before: seq<SyncEvent>, tail: seq<SyncEvent>, fences: seq<Handle>)
    requires ResetBeforeSubmit(before) && forall k :: 0 <= k < |before| ==> !IsDestroy(before[k])
    requires |tail| > 1 && tail[0] == WaitForFences(fences, true)
    requires forall k :: 1 <= k < |tail| ==> IsDestroy(tail[k])
    ensures ResetBeforeSubmit(before + tail) && WaitPrecedesDestroy(before + tail, fences)
    ensures IsDestroy((before + tail)[|before| + 1])
  {
    var all := before + tail;
    forall k | 0 <= k < |all| && all[k].QueueSubmit?
      ensures k > 0 && all[k - 1] == ResetFences([all[k].fence])
    {
      assert all[k] == before[k];
    }
    forall k | 0 <= k < |all| && IsDestroy(all[k])
      ensures exists j :: 0 <= j < k && all[j] == WaitForFences(fences, true)
    {
      assert all[|before|] == WaitForFences(fences, true);
    }
  }

  /** `KewSwapchain::new`: None where it panics because the surface reports no
      format at all. */
  method New(formats: seq<SurfaceFormat>, caps: SurfaceCapabilities, window: Extent2D,
             modes: seq<PresentMode>, presentQueue: Handle, swapchain: Handle, renderPass: Handle,
             images: seq<Handle>, views: seq<Handle>, framebuffers: seq<Handle>,
             semaphores: seq<Handle>, newFences: seq<Handle>) returns (r: Option<Swapchain>)
    requires |views| == |images| && |framebuffers| == |images|
    requires |semaphores| == 2 * MAX_IN_FLIGHT_FRAMES && |newFences| == MAX_IN_FLIGHT_FRAMES
    ensures r.None? <==> formats == []
    ensures r.Some? ==> fresh(r.value) && r.value.Valid() && !r.value.destroyed && r.value.events == []
    ensures r.Some? ==> Some(r.value.format) == PickSurfaceFormat(formats)
    ensures r.Some? ==> r.value.fences == newFences && |r.value.frameBundles| == |images|
    ensures r.Some? ==> forall i :: 0 <= i < MAX_IN_FLIGHT_FRAMES ==> !r.value.FrameInUse(i)
  {
    var picked := PickSurfaceFormat(formats);
    if picked.None? {
      return None;
    }
    var sc := new Swapchain(picked.value, caps, window, modes, presentQueue, swapchain, renderPass,
                            images, views, framebuffers, semaphores, newFences);
    return Some(sc);
  }

  /** In the teardown sequence every destruction follows the wait on all fences. */
  lemma TeardownWaitsFirst(fences: seq<Handle>, swapchain: Handle, renderPass: Handle,
                           ia: seq<Handle>, rf: seq<Handle>, bundles: seq<FrameBundle>)
    ensures WaitPrecedesDestroy(TeardownEvents(fences, swapchain, renderPass, ia, rf, bundles), fences)
    ensures ResetBeforeSubmit(TeardownEvents(fences, swapchain, renderPass, ia, rf, bundles))
  {
    var r := TeardownEvents(fences, swapchain, renderPass, ia, rf, bundles);
    forall k | 0 <= k < |r| && IsDestroy(r[k])
      ensures exists j :: 0 <= j < k && r[j] == WaitForFences(fences, true)
    {
      assert k != 0;
      assert r[0] == WaitForFences(fences, true);
    }
  }
}

=== FILE: vk.dfy ===
/** Vulkan values shared by every part of the model.
    Native objects are opaque handles; enumerations list only the values the core
    uses; flag words keep the bit values of the Vulkan headers. The records below
    are what the core builds and hands to the driver. */
module Vk {

  datatype Option<T> = None | Some(value: T)

  /** A native object (buffer, image, fence, semaphore, ...). Its meaning lives in
      the driver; the model only compares handles. */
  type Handle = nat

  const NULL_HANDLE: Handle := 0

  const U32_LIMIT: nat := 0x1_0000_0000
  const U32_MAX: nat := 0xFFFF_FFFF
  const U64_LIMIT: nat := 0x1_0000_0000_0000_0000
  /** VK_WHOLE_SIZE: "to the end of the allocation". */
  const WHOLE_SIZE: nat := 0xFFFF_FFFF_FFFF_FFFF
  /** VK_QUEUE_FAMILY_IGNORED (~0U): no queue family ownership transfer. */
  const QUEUE_FAMILY_IGNORED: nat := 0xFFFF_FFFF

  /** VkQueueFlagBits */
  const QUEUE_GRAPHICS: bv32 := 0x1
  const QUEUE_COMPUTE: bv32 := 0x2
  const QUEUE_TRANSFER: bv32 := 0x4

  /** VkMemoryPropertyFlagBits */
  const MEMORY_DEVICE_LOCAL: bv32 := 0x1
  const MEMORY_HOST_VISIBLE: bv32 := 0x2
  const MEMORY_HOST_COHERENT: bv32 := 0x4

  /** VkAccessFlagBits */
  const ACCESS_NONE: bv32 := 0x0
  const ACCESS_SHADER_READ: bv32 := 0x20
  const ACCESS_SHADER_WRITE: bv32 := 0x40
  const ACCESS_TRANSFER_READ: bv32 := 0x800
  const ACCESS_TRANSFER_WRITE: bv32 := 0x1000

  /** VkImageAspectFlagBits */
  const ASPECT_COLOR: bv32 := 0x1

  /** VkShaderStageFlagBits */
  const STAGE_VERTEX: bv32 := 0x1
  const STAGE_FRAGMENT: bv32 := 0x10
  const STAGE_COMPUTE: bv32 := 0x20

  /** VkColorComponentFlagBits: R | G | B | A */
  const COLOR_RGBA: bv32 := 0xF

  /** True when every bit of `want` is set in `flags` (`flags.contains(want)`). */
  predicate Has(flags: bv32, want: bv32) {
    flags & want == want
  }

  /** The result of a driver call: VK_SUCCESS or an error code. */
  datatype Status = Ok | Failed(code: int)

  datatype ImageLayout =
    | Undefined
    | General
    | ColorAttachmentOptimal
    | ShaderReadOnlyOptimal
    | TransferSrcOptimal
    | TransferDstOptimal
    | PresentSrc

  datatype Format =
    | R8G8B8A8Unorm
    | B8G8R8A8Unorm
    | B8G8R8A8Srgb
    | R32G32Sfloat
    | R32G32B32Sfloat
    | OtherFormat(code: nat)

  datatype ColorSpace = SrgbNonlinear | OtherColorSpace(code: nat)

  /** VkDescriptorType; `Sampler` is value 0, the type of a zero-initialised
      binding. */
  datatype DescriptorType =
    | Sampler
    | StorageBuffer
    | StorageImage
    | UniformBuffer
    | CombinedImageSampler
    | OtherDescriptor(code: nat)

  datatype PipelineStage = TopOfPipe | TransferStage | ComputeShader | ColorAttachmentOutput

  datatype BindPoint = GraphicsBindPoint | ComputeBindPoint

  datatype IndexType = IndexUint32

  datatype Extent2D = Extent2D(width: nat, height: nat)
  datatype Extent3D = Extent3D(width: nat, height: nat, depth: nat)
  datatype Offset3D = Offset3D(x: int, y: int, z: int)

  datatype SubresourceRange = SubresourceRange(
    aspectMask: bv32, baseMipLevel: nat, levelCount: nat, baseArrayLayer: nat, layerCount: nat)

  datatype SubresourceLayers = SubresourceLayers(
    aspectMask: bv32, mipLevel: nat, baseArrayLayer: nat, layerCount: nat)

  /** VkImageMemoryBarrier */
  datatype ImageBarrier = ImageBarrier(
    oldLayout: ImageLayout, newLayout: ImageLayout,
    srcQueueFamily: nat, dstQueueFamily: nat,
    image: Handle, range: SubresourceRange,
    srcAccess: bv32, dstAccess: bv32)

  /** VkBufferImageCopy */
  datatype BufferImageCopy = BufferImageCopy(
    bufferOffset: nat, bufferRowLength: nat, bufferImageHeight: nat,
    subresource: SubresourceLayers, imageOffset: Offset3D, imageExtent: Extent3D)

  /** A command recorded into a command buffer (the `cmd_*` calls). */
  datatype Cmd =
    | PipelineBarrier(srcStage: PipelineStage, dstStage: PipelineStage, byRegion: bool, barriers: seq<ImageBarrier>)
    | CopyBufferToImage(srcBuffer: Handle, dstImage: Handle, dstLayout: ImageLayout, region: BufferImageCopy)
    | CopyImageToBuffer(srcImage: Handle, srcLayout: ImageLayout, dstBuffer: Handle, region: BufferImageCopy)
    | BindPipeline(point: BindPoint, pipeline: Handle)
    | BindDescriptorSets(point: BindPoint, layout: Handle, firstSet: nat, sets: seq<Handle>)
    | Dispatch(x: nat, y: nat, z: nat)
    | BeginRenderPass(renderPass: Handle, framebuffer: Handle, area: Extent2D)
    | SetViewport(firstViewport: nat, viewport: Extent2D)
    | SetScissor(firstScissor: nat, scissor: Extent2D)
    | EndRenderPass
    | Draw(vertexCount: nat, instanceCount: nat, firstVertex: nat, firstInstance: nat)
    | DrawIndexed(indexCount: nat, instanceCount: nat, firstIndex: nat, vertexOffset: int, firstInstance: nat)
    | BindVertexBuffers(firstBinding: nat, buffers: seq<Handle>, offsets: seq<nat>)
    | BindIndexBuffer(buffer: Handle, offset: nat, indexType: IndexType)
}
